=== FILE: README.md ===
# COSCUP Volunteer: team-membership propagation, receiver tables and project views

This project is a Dafny model of the core of the COSCUP volunteer system. In that system, volunteers apply to teams of a conference project, and team chiefs accept or deny them. Each membership change is then propagated to outside services:

- G Suite mailing groups;
- the Mattermost chat server;
- e-mail notices sent through SES.

The model covers four parts of the system:

- **The change-event log** (`TeamMemberChangedDB`). It is a sequence of events, each with an id, project, team, user, case (`add`, `del`, `waiting`, `deny`), creation time and a map of `done` flags keyed by `gsuite_team`, `gsuite_staff` and `mail`.
  - `ChangeLog` defines the log. Its pending-event selection is a filter followed by a stable sort on creation time. The class `EventLog` owns the log and updates it in place.
  - `DirectorySync` models the G Suite handlers.
  - `ChatSync` models the Mattermost handlers.
  - `MailSys` models the mail handlers and the send task.
  - External services are never called. Each handler instead returns the calls or sends it would make, as a trace.
- **Receiver tables of the mail sender** (`Sender`). It models:
  - the insertion-ordered dictionaries of Python (`Dicts`);
  - receiver records built from supplied rows and user profiles;
  - the ordered field union and the rectangular rows of `SenderReceiver.get`;
  - the campaign store.
- **Project view routes** (`ProjectView`):
  - the three-per-row layout;
  - the owner gate;
  - the team projection with its `headcount` clamp;
  - the `volunteer_certificate_hours` default and clamp;
  - the chiefs' badge names on the team page.
- **Shared helpers.**
  - `Seqs`: filter, first-seen de-duplication, flatten.
  - `Text`: Python's `str.strip`, `split` and `join` on one separator.
  - `Domain`: teams, projects, users and the read-only repositories.
  - `Wrappers`: `Option`.

Where the code of a handler chains several steps, the Dafny method is proved against a specification function. For example:

- `RunQueue` is tied to `RunPass`;
- `NotifyQueue` is tied to `RunHandler`;
- `Fields` is tied to `Dedup(BaseFields + AllKeys(...))`.

The lemmas then state what the system promises about those functions.

## Model

| member | source | states |
|---|---|---|
| ChangeLog.Pending | celery_task/task_service_sync.py:53-56 | The queue of a handler holds exactly the log's events of the handler's cases whose flag is unset. It is sorted by ascending creation time and is a permutation of the filtered log. |
| ChangeLog.SortByCreate | celery_task/task_mail_sys.py:56-58 | The ascending `create_at` sort yields a sorted permutation of its input. |
| ChangeLog.Insert | celery_task/task_mail_sys.py:56-58 | Inserting into a sorted queue keeps it sorted. It adds exactly one copy of the event. |
| ChangeLog.Ids | celery_task/task_service_sync.py:53-56 | The ids of a queue, position by position. |
| ChangeLog.SetFlag | celery_task/task_service_sync.py:60-61 | Marking keeps the log's length and every event's id, and the marked events carry the flag set to true. |
| ChangeLog.SetFlagEffect | celery_task/task_service_sync.py:60-61 | Setting `done.<key>` on one `_id`: (1) sets that key on that event; (2) changes no other key and no other event; (3) never clears a flag. |
| ChangeLog.SetFlagIdempotent | celery_task/task_service_sync.py:108-109 | Setting the same flag twice is the same as setting it once. |
| ChangeLog.SetFlagKeepsIds | celery_task/task_service_sync.py:88-89 | Setting a flag keeps event ids unique. |
| ChangeLog.AlikeTrans | celery_task/task_service_sync.py:60-61 | Logs that differ only in one flag key, chained, still differ only in that key. |
| ChangeLog.NeverUnsetTrans | celery_task/task_service_sync.py:60-61 | "No flag is ever cleared" composes across updates. |
| ChangeLog.InsertAlike | celery_task/task_mail_sys.py:56-58 | Sorted insertion does not look at the flag it is not filtering on. |
| ChangeLog.SortAlike | celery_task/task_mail_sys.py:56-58 | Sorting two logs that differ only in one flag key yields queues that differ only in that key. |
| ChangeLog.FilterAlike | celery_task/task_mail_sys.py:56-58 | Selecting on flag `t'` does not depend on flag `t`, so the selections differ only in `t`. |
| ChangeLog.PendingIsolation | celery_task/task_mail_sys.py:56-58 | Per-key flag isolation: changing `done.t` leaves the pending queue of any other key `t'` the same, up to `t`. |
| ChangeLog.EventLog.constructor | celery_task/task_service_sync.py:51 | The log starts as the given events, with unique ids. |
| ChangeLog.EventLog.MarkDone | celery_task/task_service_sync.py:60-61 | `find_one_and_update` with `$set done.<key>` sets that flag on that id and nothing else. |
| DirectorySync.TeamOutcome | celery_task/task_service_sync.py:57-79 | Team-group pass for one event: (1) no team aborts; (2) a team without `mailling` is marked with no call; (3) otherwise `add` issues exactly one add of the user's mail to the team group and `del` exactly one removal; (4) a missing user aborts. |
| DirectorySync.StaffOutcome | celery_task/task_service_sync.py:81-109 | Staff-group pass for one event: (1) no project aborts; (2) no `mailling_staff` is marked with no call; (3) `add` issues one add; (4) `del` issues a removal exactly when the user no longer takes part in the project; (5) the user's mail is read only where a call needs it, so a missing user aborts an `add` or a removal but not a `del` of a user who still takes part; (6) otherwise the event is marked. |
| DirectorySync.StaffKeepsParticipant | celery_task/task_service_sync.py:103-109 | A `del` of a user who still takes part in the project is marked with no call, whether or not the user record exists. |
| DirectorySync.RunPass | celery_task/task_service_sync.py:53-109 | A pass keeps the log's length, and runs to the end exactly when no queued event aborts. |
| DirectorySync.RunPassStep | celery_task/task_service_sync.py:53-79 | One event of the pass: it is either skipped, or its calls come first and its flag is set before the rest of the queue, or the pass stops with the log as it was. |
| DirectorySync.PassFrame | celery_task/task_service_sync.py:60-79 | A whole pass sets only its own `done` key and never clears any flag. |
| DirectorySync.PassMarksQueue | celery_task/task_service_sync.py:72-79 | A pass that completes has set its flag on every queued `add`/`del` event. |
| DirectorySync.Drained | celery_task/task_service_sync.py:53-56 | If every pending event was queued and every queued event was marked, nothing of those cases stays pending. |
| DirectorySync.PassDrains | celery_task/task_service_sync.py:53-79 | After a completed pass over its pending queue, that pass has no pending events left. |
| DirectorySync.PassCallsOrigin | celery_task/task_service_sync.py:69-79 | Every recorded group call comes from one queued event, with its group and its user's mail. |
| DirectorySync.StaffRemovalGuard | celery_task/task_service_sync.py:103-109 | A staff-group removal is issued only for a `del` event of a user who does not `participate_in` the project, from that project's `mailling_staff`. |
| DirectorySync.NoGroupNoCall | celery_task/task_service_sync.py:59-62 | When no queued team has `mailling`, the team pass makes no G Suite call. |
| DirectorySync.TeamStep | celery_task/task_service_sync.py:57-79 | One event of the team loop updates the log exactly as `TeamOutcome` says. |
| DirectorySync.StaffStep | celery_task/task_service_sync.py:85-109 | One event of the staff loop updates the log exactly as `StaffOutcome` says. The user record is read for an `add`, and for a `del` only when the user no longer takes part. |
| DirectorySync.PassStep | celery_task/task_service_sync.py:53-109 | Dispatches one event to the team or the staff step. |
| DirectorySync.RunQueue | celery_task/task_service_sync.py:53-79 | The loop over a queue leaves the log and the call trace that `RunPass` specifies. It stops at the first lookup failure. |
| DirectorySync.RemainingStep | celery_task/task_service_sync.py:53-79 | Loop invariant step of `RunQueue`. |
| DirectorySync.AbortStep | celery_task/task_service_sync.py:53-79 | A lookup failure ends the loop with the log and trace so far. |
| DirectorySync.GroupPass | celery_task/task_service_sync.py:53-56 | A pass queries its pending `add`/`del` events, then runs the loop over them. |
| DirectorySync.SyncMemberChange | celery_task/task_service_sync.py:49-109 | The team pass runs first. The staff pass runs, on the log the team pass left, only when the team pass completed. |
| DirectorySync.TeamPassKeepsStaffQueue | celery_task/task_service_sync.py:81-84 | The team pass does not change which events the staff pass selects. |
| DirectorySync.SyncTeamMembers | celery_task/task_service_sync.py:115-144 | (1) With `to_team`, that team's group is used; (2) no group means no call; (3) otherwise exactly one add holding the mails of the team's chiefs and members found among users, and only those. |
| DirectorySync.CollectChiefs | celery_task/task_service_sync.py:152-156 | The uids collected are exactly the chiefs of the listed teams. |
| DirectorySync.SyncTeamLeader | celery_task/task_service_sync.py:150-167 | One add to `mailling_leader` exactly when the project has one. It holds the mails of every found chief of the project's teams, disabled teams included, and only those. |
| Domain.FoundUsers | celery_task/task_service_sync.py:132-136 | `User.get_info`: each requested uid that exists, once, and nothing else. |
| Domain.Emails | celery_task/task_service_sync.py:141 | The mails of the users, position by position. |
| Domain.EmailsCover | celery_task/task_service_sync.py:173-182 | The mails listed are exactly those of the requested uids that exist. |
| Domain.TeamsOf | view/project.py:68 | `Team.list_by_pid`: the enabled teams of that project, all of them and only those, in order. |
| Domain.AllTeamsOf | celery_task/task_service_sync.py:153-155 | `TeamDB.find({'pid': pid})`: every team of that project, disabled ones included, and only those. |
| ChatSync.SyncUsers | celery_task/task_service_sync.py:25-43 | The full sync runs exactly when `db_count - 3 < total` or `force` is given. It then stores one record per user listed. |
| ChatSync.Invite | celery_task/task_service_sync.py:173-182 | The invitation holds the mails of the requested users that exist, and only those. |
| ChatSync.AddChannel | celery_task/task_service_sync.py:188-201 | (1) No project is a failure; (2) no channel, no call; (3) otherwise the calls are, in order, one add to the channel per listed uid that has a Mattermost id, repeats included, and no other. |
| ChatSync.JoinedStep | celery_task/task_service_sync.py:196-200 | Loop invariant step: a uid with a Mattermost id appends its add; any other uid adds nothing. |
| ChatSync.JoinedMeaning | celery_task/task_service_sync.py:196-201 | The calls of the listing are exactly the adds for the uids that have a Mattermost id. |
| ChatSync.CollectRoster | celery_task/task_service_sync.py:222-225 | The roster is every chief or member of the teams. |
| ChatSync.ChannelsOf | celery_task/task_service_sync.py:210-214 | Exactly the future projects with a channel, each mapped to its channel. |
| ChatSync.JoinChannel | celery_task/task_service_sync.py:227-231 | Exactly one add to the channel per resolvable roster user, each user once, in the set's iteration order, and no other call. |
| ChatSync.ProjectUsersInChannel | celery_task/task_service_sync.py:208-231 | (1) Every call is owed: a resolvable chief or member of a team of a project with a future date and a channel; (2) every such user gets an add to that project's channel. |
| ChatSync.TeamNamePrefix | celery_task/task_service_sync.py:251 | The part of the name before the first `-`, with only its outer whitespace cut. It holds no `-` and no outer whitespace. |
| ChatSync.Count | celery_task/task_service_sync.py:253-260 | Occurrence count. It is zero exactly when the uid is absent. |
| ChatSync.Repeat | celery_task/task_service_sync.py:253-260 | `n` copies of a label. |
| ChatSync.CountDistinct | celery_task/task_service_sync.py:263-267 | In a duplicate-free list a uid occurs at most once. |
| ChatSync.AddLabelsAt | celery_task/task_service_sync.py:253-267 | Appending a label for each listed uid adds it once per occurrence and touches no one else. |
| ChatSync.AddChiefLabels | celery_task/task_service_sync.py:253-261 | The chiefs loop appends the team's chief label to every chief. |
| ChatSync.AddMemberLabels | celery_task/task_service_sync.py:263-267 | The members loop labels exactly the members who are not chiefs, once each. |
| ChatSync.RolesStepAt | celery_task/task_service_sync.py:250-267 | One team adds to each user exactly that user's roles in it. |
| ChatSync.Roles | celery_task/task_service_sync.py:253-267 | A user's roles in one team are only that team's chief label or member label. |
| ChatSync.TeamLabels | celery_task/task_service_sync.py:253-267 | Every label a team gives is its chief label or its member label. |
| ChatSync.UserLabels | celery_task/task_service_sync.py:250-267 | Every label of a user is the chief label or the member label of one of the teams. |
| ChatSync.BuildLabels | celery_task/task_service_sync.py:248-267 | Each user's labels are, team by team, the chief labels followed by the member label. Everyone listed has a label. |
| ChatSync.Position | celery_task/task_service_sync.py:279-282 | The position string starts with the project id. |
| ChatSync.JoinLeads | celery_task/task_service_sync.py:279-282 | A space-joined list starts with its first item. |
| ChatSync.PositionsFor | celery_task/task_service_sync.py:248-282 | Every resolvable labelled user of the project gets a position update, and every update is owed. Unresolvable users are skipped. |
| ChatSync.CoveredGrows | celery_task/task_service_sync.py:274-282 | Updates made stay made as more are added. |
| ChatSync.CoveredByMore | celery_task/task_service_sync.py:274-282 | Updates made for a project stay covered after earlier ones. |
| ChatSync.FuturePids | celery_task/task_service_sync.py:240-243 | The pids are exactly those of projects whose `action_date` is not past. |
| ChatSync.SyncPositions | celery_task/task_service_sync.py:237-282 | Over all future projects, every position update is owed to one of them, and every one of them is covered. |
| ChatSync.OwedStep | celery_task/task_service_sync.py:248 | Loop invariant step: the updates stay owed. |
| ChatSync.CoveredStep | celery_task/task_service_sync.py:248 | Loop invariant step: the projects done stay covered. |
| ChatSync.LabelsNonEmpty | celery_task/task_service_sync.py:251-267 | A user has labels exactly when they are a chief or a member of a team. |
| ChatSync.ChiefNotAlsoMember | celery_task/task_service_sync.py:263-267 | A chief who is also listed as a member gets only chief labels, never the member label. |
| ChatSync.CoordinatorLabelOnly | celery_task/task_service_sync.py:257-261 | The `🌟總召` label goes exactly to chiefs of `coordinator`. A chief label never equals a member label. |
| ChatSync.PositionSplits | celery_task/task_service_sync.py:279-282 | The position is the pid, the labels and `[uid]` joined by single spaces: splitting it on spaces gives them back. |
| MailSys.ChiefNotice | celery_task/task_mail_sys.py:67-80 | A waiting notice goes to the chief, carries the event id as `rid`, and names the applicant in the subject. |
| MailSys.WaitingFrom | celery_task/task_mail_sys.py:67-80 | One notice per chief, to that chief, in order; all carry the event id. A missing user stops it. |
| MailSys.DenyNotice | celery_task/task_mail_sys.py:103-116 | The deny notice goes to the applicant with the event id and the team name in the subject. |
| MailSys.AddNotice | celery_task/task_mail_sys.py:138-151 | The add notice goes to the user with the event id. |
| MailSys.DelNotice | celery_task/task_mail_sys.py:172-185 | The del notice goes to the user with the event id. |
| MailSys.EventSends | celery_task/task_mail_sys.py:59-80 | Every send for an event carries that event's id. |
| MailSys.NotifyChiefs | celery_task/task_mail_sys.py:67-80 | The chiefs loop enqueues what `WaitingFrom` specifies. |
| MailSys.WaitingStep | celery_task/task_mail_sys.py:67-80 | Loop invariant step of the chiefs loop. |
| MailSys.NotifyEvent | celery_task/task_mail_sys.py:56-80 | One event's lookups and sends, as `EventSends` specifies. |
| MailSys.RunHandler | celery_task/task_mail_sys.py:56-81 | A handler runs to the end exactly when every queued event's lookups succeed. |
| MailSys.NotifyQueue | celery_task/task_mail_sys.py:56-81 | The handler loop enqueues what `RunHandler` specifies. It stops at the first lookup failure. |
| MailSys.HandlerStep | celery_task/task_mail_sys.py:56-81 | Loop invariant step of the handler loop. |
| MailSys.JoinStep | celery_task/task_mail_sys.py:56-81 | The sends so far, then this event's, then the rest's, are the sends of the whole. |
| MailSys.HandlerCons | celery_task/task_mail_sys.py:56-81 | The handler treats the first event, then the rest. |
| MailSys.HandleCase | celery_task/task_mail_sys.py:46-185 | Each case handler reads the log's pending events of its own case without `done.mail` and does not change the log. |
| MailSys.SendMail | celery_task/task_mail_sys.py:191-203 | `done.mail` is set on the `rid` event exactly when the status is 200. Otherwise the log is unchanged. |
| MailSys.SendsFromQueue | celery_task/task_mail_sys.py:80 | Every enqueued send comes from one queued event, carries its `_id` as `rid`, and is the notice that event calls for. |
| MailSys.HandlerCovers | celery_task/task_mail_sys.py:56-81 | A completed handler enqueues every notice each queued event calls for. |
| MailSys.OneNoticePerEvent | celery_task/task_mail_sys.py:103-185 | For `deny`, `add` and `del`, exactly one send per event, in order, addressed to the affected user. |
| MailSys.WaitingNotifiesChiefs | celery_task/task_mail_sys.py:67-80 | A waiting event sends exactly one notice per chief, addressed to that chief. |
| MailSys.NoChiefsNoMail | celery_task/task_mail_sys.py:67-80 | A waiting event of a team with no chiefs sends nothing. |
| MailSys.DeliveredLeavesQueue | celery_task/task_mail_sys.py:203 | After `done.mail` is set, the event leaves every mail queue. The other flags' queues are unaffected. |
| Dicts.Put | module/sender.py:247 | `d[k] = v`: the key maps to `v`, other keys keep their values, and a new key goes last. |
| Dicts.UpdateGet | module/sender.py:247 | After `d.update(e)`, keys of `e` have `e`'s values and other keys keep `d`'s. |
| Dicts.UpdateKeys | module/sender.py:247 | `d.update(e)` keeps `d`'s key order and appends `e`'s new keys in `e`'s order. |
| Sender.EntryUid | module/sender.py:223 | An entry names a uid exactly when it has a non-empty `uid`. |
| Sender.Overlay | module/sender.py:247 | A record's data is `{name, mail}` updated by the entry: the entry's values win, and the base name and mail remain when the entry lacks them. |
| Sender.Record | module/sender.py:234-245 | A record keeps its `pid` and `cid`, and exists whenever the uid is known or the entry has `name` and `mail`. |
| Sender.RecordContents | module/sender.py:234-245 | (1) A record exists exactly when the uid is known or the entry has `name` and `mail`; (2) its data includes the whole entry; (3) with a known uid, the profile's badge name and mail fill in what the entry lacks. |
| Sender.RequestedUids | module/sender.py:221-224 | Exactly the non-empty uids of the entries are requested. |
| Sender.LookupInfos | module/sender.py:226-232 | The info map holds the badge name and mail of exactly the requested uids that exist. |
| Sender.RecordFor | module/sender.py:235-245 | Building one record with the looked-up infos agrees with `Record`. |
| Sender.SaveDatas | module/sender.py:234-246 | One record per entry, in input order. The loop fails exactly when one entry has neither a known uid nor `name` and `mail`. |
| Sender.AllKeysHas | module/sender.py:315-317 | A key is among all record keys exactly when some record has it. |
| Sender.Fields | module/sender.py:313-317 | Fields start with `name`, `mail`, then every other key in first-seen order, with no duplicates and no other key. |
| Sender.AddKeys | module/sender.py:315-317 | The inner key loop keeps first-seen order. |
| Sender.FieldsMeaning | module/sender.py:313-317 | The field list of the specification function has the `name`, `mail` prefix and exactly the keys seen. |
| Sender.Rows | module/sender.py:319-325 | One row per record, each of `len(fields)` cells: the record's value, or `''` where it lacks the field. |
| Sender.Datas | module/sender.py:313 | The `data` part of each stored receiver. |
| Sender.ReceiverStore.constructor | module/sender.py:218 | An empty receiver table. |
| Sender.ReceiverStore.Find | module/sender.py:313 | The stored receivers of `(pid, cid)`, all of them and only those. |
| Sender.ReceiverStore.RemovePast | module/sender.py:293-300 | `remove_past` (also the first step of `replace`) drops exactly the rows of `(pid, cid)`. |
| Sender.ReceiverStore.UpdateData | module/sender.py:250 | `update_data` appends the saved rows. |
| Sender.ReceiverStore.Replace | module/sender.py:210-250 | (1) Past rows of `(pid, cid)` are removed first, even when building a record later fails; (2) on success the new records are appended, one per entry, in order. |
| Sender.ReceiverStore.Update | module/sender.py:253-290 | The same records as `Replace`, appended without removing anything. |
| Sender.ReceiverStore.Get | module/sender.py:303-327 | `fields` and `raws` of the stored receivers of `(pid, cid)`, as `Fields` and `Rows` state. |
| Sender.ReplaceLeavesOnlyNew | module/sender.py:218-250 | After `replace`, the receivers of `(pid, cid)` are exactly the new ones. |
| Sender.UpdateAppends | module/sender.py:253-290 | After `update`, the receivers of `(pid, cid)` are the old ones followed by the new ones. |
| Sender.AsTuple | module/sender.py:339-340 | A single tid is wrapped into a one-element tuple; a tuple is used as given. |
| Sender.TeamUids | module/sender.py:342-345 | The uids gathered are exactly the users of the listed teams. |
| Sender.UserRows | module/sender.py:356-362 | Each row is exactly `(badge name, mail)` of its user. |
| Sender.GetFromUser | module/sender.py:330-364 | Fields are `('name', 'mail')`. Every row is `(badge name, mail)` of a found user of the teams, and every such user has a row. |
| Sender.CampaignQuery | module/sender.py:41-49 | The query always filters on `_id`. It filters on `created.pid` or `created.tid` exactly when that argument is given. |
| Sender.ById | module/sender.py:41 | A query on `_id` alone matches exactly that campaign. |
| Sender.StoredUsers | module/sender.py:96-99 | `users` is stored as given, or as `[]` when falsy. |
| Sender.CampaignStore.constructor | module/sender.py:18-30 | An empty campaign collection. |
| Sender.CampaignStore.Create | module/sender.py:18-30 | A new campaign with the stripped name, its creator ids and no mail or receiver is appended. |
| Sender.CampaignStore.FindOne | module/sender.py:49 | `find_one`: none exactly when nothing matches. Otherwise the first match. |
| Sender.CampaignStore.Get | module/sender.py:33-49 | The campaign found has the requested `_id`, and the given pid and tid. None exactly when no campaign matches. |
| Sender.CampaignStore.GetList | module/sender.py:52-59 | All campaigns created for `(pid, tid)`, and only those. |
| Sender.CampaignStore.SaveMail | module/sender.py:62-81 | Sets the `mail` part on the campaign with that id and changes nothing else. |
| Sender.CampaignStore.SaveReceiver | module/sender.py:84-105 | Sets all four receiver keys on that campaign and nothing else, with falsy `users` stored as `[]`. |
| Text.IsSpace | view/project.py:53 | Space, tab, newline and carriage return are whitespace. No digit or sign is. |
| Text.TrimLeft | view/project.py:53 | Leading whitespace removed, and only that. |
| Text.TrimRight | view/project.py:53 | Trailing whitespace removed, and only that. |
| Text.Strip | view/project.py:53 | `str.strip`: a slice of the input with only leading and trailing whitespace cut, and no outer whitespace left. |
| Text.TrimBoth | view/project.py:53 | Trimming both ends leaves a slice whose cut-off parts are all whitespace. |
| Text.StripIdempotent | view/project.py:53 | Stripping twice is stripping once. |
| Text.Split | celery_task/task_service_sync.py:251 | `str.split(sep)`: at least one part, none holding the separator. |
| Text.SplitHead | celery_task/task_service_sync.py:251 | The first part is a prefix, followed by the separator when shorter. |
| Text.JoinSplit | celery_task/task_service_sync.py:279-282 | Joining the parts of a split gives the string back. |
| Text.SplitJoin | celery_task/task_service_sync.py:279-282 | Splitting a join of separator-free parts gives the parts back. |
| ProjectView.GroupForLayout | view/project.py:33-35 | `ceil(n/3)` rows whose concatenation is the list. Each row holds 1 to 3 items; all but the last hold 3; row `i` is `data[3i:min(3i+3, n)]`. |
| ProjectView.GroupStep | view/project.py:34-35 | Loop invariant step of the chunking loop. |
| ProjectView.ShowNat | view/project.py:213 | A decimal rendering is non-empty digits. |
| ProjectView.ShowNatValue | view/project.py:213 | Decimal digits read back as the number. |
| ProjectView.ParseShow | view/project.py:213 | `int(str(n)) == n` for every integer. |
| ProjectView.ParseInt | view/project.py:55 | `int(s)`: blank text is an error, digits read as their value, and a negative result needs a leading `-`. |
| ProjectView.ParseDigits | view/project.py:55 | `int` of a digit string is its value. |
| ProjectView.ParseNegative | view/project.py:55 | `int` of `-digits` is the negated value. |
| ProjectView.Max0 | view/project.py:213 | `max(0, n)` is at least `n` and at least 0, and is one of them. |
| ProjectView.TeamJson | view/project.py:205-213 | (1) Only keys from the fixed list that the team has are returned, unchanged; (2) `headcount` is 0 when absent, otherwise `max(0, int(headcount))`; (3) an unparsable `headcount` is an error. |
| ProjectView.TeamJsonIdempotent | view/project.py:205-213 | Projecting a projected team changes nothing. |
| ProjectView.HeadcountFromText | view/project.py:210-213 | A headcount stored as the text of `n` becomes `max(0, n)`. |
| ProjectView.ProjectTeam | view/project.py:205-213 | The key-by-key loop builds the projection `TeamJson` specifies. |
| ProjectView.ProjectedKeys | view/project.py:205-208 | The keys the loop copied, with `headcount` set, form the projection's map. |
| ProjectView.TeamApi | view/project.py:198-224 | (1) A non-owner is redirected with no write; (2) GET returns the stripped tid's projected team; (3) POST `update` writes the team setting and POST `create` creates a team owned by the project owners, each exactly once; (4) anything else writes nothing. |
| ProjectView.ProjectEdit | view/project.py:40-61 | (1) A non-owner is redirected with no write; (2) GET shows hours, defaulting to 0; (3) POST writes one update of the stripped fields with clamped hours, or fails with no write on a missing field or non-integer hours. |
| ProjectView.TeamEditPage | view/project.py:64-70 | A non-owner is redirected. An owner sees exactly the project's enabled teams. |
| ProjectView.EditData | view/project.py:52-59 | The update has exactly the six fields: the texts stripped, and hours at least 0 and unchanged when not negative. |
| ProjectView.AllChiefs | view/project.py:233-236 | The uids collected are exactly the chiefs of the teams. |
| ProjectView.ChiefNames | view/project.py:240-242 | `chiefs_name[i]` is the name of `chiefs[i]`. A chief with no name is an error. |
| ProjectView.BadgeNames | view/project.py:237-238 | The badge name of exactly the requested uids that exist. |
| ProjectView.Cards | view/project.py:240-242 | One card per team, in order, with every chief's badge name. |
| ProjectView.NamedCards | view/project.py:238-242 | Cards built from the looked-up names give every chief the badge name of that chief's user record. |
| ProjectView.TeamPage | view/project.py:227-255 | (1) A missing project is 404; (2) an unknown chief is an error, and only then; (3) otherwise the project's teams with `chiefs_name[i]` the badge name of `chiefs[i]`, in rows of 1 to 3, editable exactly for an owner. |

## Left out

- External clients are left out: G Suite (`SyncGSuite`), SES (`AWSSES`) and Mattermost (`MattermostBot`, `MattermostTools`). Their calls are returned as traces; `find_possible_mid` is a map from uid to Mattermost id, given as a parameter.
- Repositories are immutable parameters: `Team.get`, `Project.get`, `User.get_info`, `Team.participate_in`, `Team.get_users`, `Project.all`. The event log is the only database the handlers change, and only the send task writes to it.
- Template rendering and MIME construction (`SenderMailer*`, `render_template`) are left out. Subjects are built from opaque constants, and the body is not modelled.
- Celery decorators, retries, `apply_async` and concurrency between workers are left out. Each handler runs alone, on a snapshot of the log taken when its query runs.
- Time is a parameter (`now`). `arrow` date formatting in `index` is left out.
- `mail_sys_test`, `mail_sys_weberror`, `project_form`, `project_form_api` (CSV export), `SenderLogs`, `SenderSESLogs`, `SenderReceiver.get_all_users`, `SenderReceiver.get_by_tags`, view/expense.py, models/index.py and models/telegram_db.py are not part of this model. They are plumbing, CSV or library calls with no logic of their own in this core.
- `Team.list_by_pid` is not part of this model. The comment at celery_task/task_service_sync.py:154 marks the leader sync's direct query as the one that also takes disabled teams, which implies that `list_by_pid` leaves them out, so `Domain.TeamsOf` drops teams whose `disabled` flag is set, and the leader sync uses `Domain.AllTeamsOf` instead.
- Calls to outside services are assumed to succeed: the G Suite group add and remove, the Mattermost post, patch and invite, and the SES enqueue. A call that raises would end the pass with its event unmarked; the model has no such failure. In the model, only a lookup that raises ends a pass early.
- `SenderReceiverDB.new` and `update_data` are not among the sources. The model assumes `new` gives `data == {name, mail}` and that `update_data` appends.
- `SenderCampaignDB.new` and `SenderCampaignDB().add` are not among the sources. The model assumes `new` gives a campaign with the given name, `pid`, `tid` and `uid` and no `mail` or `receiver` part, and that `add` appends it to the collection under a fresh `_id` (a parameter of `Sender.CampaignStore.Create`) and returns it.
- The code that adds events to `TeamMemberChangedDB` is not among the sources, so the model has no operation that adds an event; `ChangeLog.EventLog` starts from a given log.
- Python's insertion-ordered `dict` is modelled only in `Dicts` (the receiver records) and for `User.get_info` (`Domain.FoundUsers`, first-seen order). Sets, and the two Mattermost dictionaries `pids` and `users` of the channel and position syncs, are Dafny sets and maps visited in an arbitrary order; the contracts over them state membership, not order.
- ChatSync.SyncPositions: states that every position patch is owed to a future project and that every resolvable labelled user of each such project is patched. It does not state the project-by-project order of `pids.items()` or that each user gets one patch per project. That order decides which position a user of two future projects keeps, because `put_users_patch` overwrites (celery_task/task_service_sync.py:248-282).
- ProjectView.TeamJson: a stored field is an integer, a string or a list of strings only. A `headcount` stored as a float, a boolean or null is not modelled: Python's `int()` would truncate a float toward zero, read `True` as 1, and raise on `None`.
- Sender.GetFromUser: states membership of the rows and not their order or multiplicity, because `User.get_info` returns a dict whose order is not visible here.
- ChatSync.SyncUsers: does not model the fetched user records' contents, because they come from the Mattermost client.
- ProjectView.ParseInt: accepts optional whitespace, an optional sign and ASCII digits. It does not accept `_` separators or non-ASCII digits as Python's `int` does.
- `math.ceil` over a float in `index` is replaced by exact integer arithmetic, `(n + 2) / 3`.
- A lookup that raises (a missing team, project, user or form key) ends the handler or route. Flags and sends made before it stay; the model returns a failure flag at that point instead of an exception.

## Notes on the source

- A `waiting` event of a team with no chiefs enqueues nothing, so `mail_member_send` never runs for it and its `done.mail` stays unset. It remains in the waiting queue on every run (celery_task/task_mail_sys.py:67-80). The model follows the code (`MailSys.NoChiefsNoMail`). An event with nobody to notify would reasonably count as handled, but the code leaves it pending.
- In `replace` and `update`, `_data['data'].update(data)` runs after the looked-up name and mail are placed. An entry that carries its own `name` or `mail` therefore overrides the profile values (module/sender.py:247, and module/sender.py:287 in `update`). The model follows the code (`Sender.RecordContents`). The profile values win only for the keys the entry lacks.
- `replace` removes past receivers before it builds the new ones. An entry that raises `KeyError` leaves the pair with no receivers (module/sender.py:218-248). `Sender.ReceiverStore.Replace` states this.

=== FILE: changelog.dfy ===
/** The team-member change log (`TeamMemberChangedDB`): one event per
    membership mutation, each with a `done` map that records which
    downstream targets have finished with it. A key that is absent means
    "pending for that target"; the handlers only ever add a key set to
    true, one key on one event at a time. */
module ChangeLog {
  import opened Seqs
  import opened Domain

  /** The kind of membership mutation (`case` in the document). */
  datatype Case = Add | Del | Waiting | Deny

  /** The keys of the `done` map: `gsuite_team`, `gsuite_staff`, `mail`. */
  datatype Target = GSuiteTeam | GSuiteStaff | Mail

  type EventId = string

  datatype ChangeEvent = ChangeEvent(
    id: EventId,
    pid: Pid,
    tid: Tid,
    uid: Uid,
    kind: Case,
    createAt: int,
    done: map<Target, bool>)

  /** `_id` is the collection's primary key. */
  ghost predicate UniqueIds(events: seq<ChangeEvent>) {
    forall i, j :: 0 <= i < j < |events| ==> events[i].id != events[j].id
  }

  /** The query `{'done.<t>': {'$exists': False}, 'case': {'$in': cases}}`. */
  predicate IsPending(e: ChangeEvent, t: Target, cases: set<Case>) {
    e.kind in cases && t !in e.done
  }

  /** The same query as a function value, for `Filter`. */
  function PendingFor(t: Target, cases: set<Case>): ChangeEvent -> bool {
    e => IsPending(e, t, cases)
  }

  ghost predicate SortedByCreate(s: seq<ChangeEvent>) {
    forall i, j :: 0 <= i < j < |s| ==> s[i].createAt <= s[j].createAt
  }

  /** Places `x` before the first element created no earlier than it. */
  function Insert(x: ChangeEvent, s: seq<ChangeEvent>): (r: seq<ChangeEvent>)
    requires SortedByCreate(s)
    ensures SortedByCreate(r)
    ensures |r| == |s| + 1
    ensures multiset(r) == multiset(s) + multiset{x}
  {
    if s == [] || x.createAt <= s[0].createAt then
      SortedCons(x, s);
      [x] + s
    else
      var rest := Insert(x, s[1..]);
      assert rest[0] in multiset(rest);
      SortedCons(s[0], rest);
      assert s == [s[0]] + s[1..];
      [s[0]] + rest
  }

  /** An element no later than every element of a sorted sequence can go
      in front of it. */
  lemma SortedCons(h: ChangeEvent, t: seq<ChangeEvent>)
    requires SortedByCreate(t)
    requires t != [] ==> h.createAt <= t[0].createAt
    ensures SortedByCreate([h] + t)
  {
  }

  /** The cursor order `sort=(('create_at', 1),)`: ascending creation
      time; events created at the same time keep their log order. */
  function SortByCreate(s: seq<ChangeEvent>): (r: seq<ChangeEvent>)
    ensures SortedByCreate(r)
    ensures |r| == |s|
    ensures multiset(r) == multiset(s)
  {
    if s == [] then []
    else
      assert s == [s[0]] + s[1..];
      Insert(s[0], SortByCreate(s[1..]))
  }

  /** What a handler's `find` yields: the events of the given cases still
      pending for target `t`, oldest first. */
  function Pending(events: seq<ChangeEvent>, t: Target, cases: set<Case>): (r: seq<ChangeEvent>)
    ensures SortedByCreate(r)
    ensures forall i :: 0 <= i < |r| ==> r[i] in events && IsPending(r[i], t, cases)
    ensures forall i :: 0 <= i < |events| && IsPending(events[i], t, cases) ==> events[i] in r
    ensures multiset(r) == multiset(Filter(events, PendingFor(t, cases)))
  {
    var f := Filter(events, PendingFor(t, cases));
    var r := SortByCreate(f);
    assert forall i :: 0 <= i < |r| ==> r[i] in events && IsPending(r[i], t, cases) by {
      forall i | 0 <= i < |r| ensures r[i] in events && IsPending(r[i], t, cases) {
        assert r[i] in multiset(r);
        assert r[i] in f;
      }
    }
    assert forall i :: 0 <= i < |events| && IsPending(events[i], t, cases) ==> events[i] in r by {
      forall i | 0 <= i < |events| && IsPending(events[i], t, cases) ensures events[i] in r {
        assert PendingFor(t, cases)(events[i]);
        assert events[i] in multiset(f);
        assert events[i] in multiset(r);
      }
    }
    r
  }

  /** `find_one_and_update({'_id': id}, {'$set': {'done.<t>': True}})`. */
  function SetFlag(events: seq<ChangeEvent>, id: EventId, t: Target): (r: seq<ChangeEvent>)
    ensures |r| == |events|
    ensures forall i :: 0 <= i < |r| ==> r[i].id == events[i].id
    ensures forall i :: 0 <= i < |r| && r[i].id == id ==> t in r[i].done && r[i].done[t]
  {
    seq(|events|, i requires 0 <= i < |events| =>
      if events[i].id == id then events[i].(done := events[i].done[t := true]) else events[i])
  }

  /** Two versions of one event that differ at most in the `t` flag. */
  ghost predicate SameExcept(a: ChangeEvent, b: ChangeEvent, t: Target) {
    && a.id == b.id && a.pid == b.pid && a.tid == b.tid && a.uid == b.uid
    && a.kind == b.kind && a.createAt == b.createAt
    && a.done - {t} == b.done - {t}
  }

  /** Two logs whose events agree pairwise except for the `t` flag. */
  ghost predicate Alike(a: seq<ChangeEvent>, b: seq<ChangeEvent>, t: Target) {
    |a| == |b| && forall i :: 0 <= i < |a| ==> SameExcept(a[i], b[i], t)
  }

  /** A flag, once present, stays present, and once true stays true. */
  ghost predicate NeverUnset(before: seq<ChangeEvent>, after: seq<ChangeEvent>) {
    |before| == |after| &&
    forall i, t :: 0 <= i < |before| && t in before[i].done ==>
      t in after[i].done && (before[i].done[t] ==> after[i].done[t])
  }

  /** The ids of a sequence of events, in order. */
  function Ids(s: seq<ChangeEvent>): (r: seq<EventId>)
    ensures |r| == |s|
    ensures forall i :: 0 <= i < |s| ==> r[i] == s[i].id
  {
    Map((e: ChangeEvent) => e.id, s)
  }

  /** Marking sets flag `t` to true on exactly the events with that id
      and changes nothing else: no other flag, no other event. */
  lemma SetFlagEffect(events: seq<ChangeEvent>, id: EventId, t: Target)
    ensures var r := SetFlag(events, id, t);
      && Alike(events, r, t)
      && NeverUnset(events, r)
      && (forall i :: 0 <= i < |r| && r[i].id == id ==> t in r[i].done && r[i].done[t])
      && (forall i :: 0 <= i < |r| && r[i].id != id ==> r[i] == events[i])
  {
    var r := SetFlag(events, id, t);
    forall i | 0 <= i < |events|
      ensures SameExcept(events[i], r[i], t)
    {
      if events[i].id == id {
        assert events[i].done - {t} == events[i].done[t := true] - {t};
      }
    }
  }

  /** Marking the same flag twice is marking it once. */
  lemma SetFlagIdempotent(events: seq<ChangeEvent>, id: EventId, t: Target)
    ensures SetFlag(SetFlag(events, id, t), id, t) == SetFlag(events, id, t)
  {
    var once := SetFlag(events, id, t);
    var twice := SetFlag(once, id, t);
    forall i | 0 <= i < |events| ensures twice[i] == once[i] {
      if events[i].id == id {
        assert once[i].done[t := true] == once[i].done;
      }
    }
  }

  /** Marking keeps the ids, so a log with unique ids keeps them. */
  lemma SetFlagKeepsIds(events: seq<ChangeEvent>, id: EventId, t: Target)
    requires UniqueIds(events)
    ensures UniqueIds(SetFlag(events, id, t))
  {
  }

  lemma AlikeTrans(a: seq<ChangeEvent>, b: seq<ChangeEvent>, c: seq<ChangeEvent>, t: Target)
    requires Alike(a, b, t) && Alike(b, c, t)
    ensures Alike(a, c, t)
  {
  }

  lemma NeverUnsetTrans(a: seq<ChangeEvent>, b: seq<ChangeEvent>, c: seq<ChangeEvent>)
    requires NeverUnset(a, b) && NeverUnset(b, c)
    ensures NeverUnset(a, c)
  {
  }

  lemma AlikeCons(x: ChangeEvent, s: seq<ChangeEvent>, y: ChangeEvent, s': seq<ChangeEvent>, t: Target)
    requires SameExcept(x, y, t) && Alike(s, s', t)
    ensures Alike([x] + s, [y] + s', t)
  {
    forall i | 0 <= i < |s| + 1 ensures SameExcept(([x] + s)[i], ([y] + s')[i], t) {
      if i > 0 {
        assert ([x] + s)[i] == s[i - 1] && ([y] + s')[i] == s'[i - 1];
      }
    }
  }

  lemma AlikeTail(s: seq<ChangeEvent>, s': seq<ChangeEvent>, t: Target)
    requires Alike(s, s', t) && s != []
    ensures SameExcept(s[0], s'[0], t) && Alike(s[1..], s'[1..], t)
  {
    forall i | 0 <= i < |s| - 1 ensures SameExcept(s[1..][i], s'[1..][i], t) {
      assert s[1..][i] == s[i + 1] && s'[1..][i] == s'[i + 1];
    }
  }

  lemma {:induction false} InsertAlike(x: ChangeEvent, s: seq<ChangeEvent>, y: ChangeEvent, s': seq<ChangeEvent>, t: Target)
    requires SortedByCreate(s) && SortedByCreate(s')
    requires SameExcept(x, y, t) && Alike(s, s', t)
    ensures Alike(Insert(x, s), Insert(y, s'), t)
  {
    if s == [] || x.createAt <= s[0].createAt {
      AlikeCons(x, s, y, s', t);
    } else {
      AlikeTail(s, s', t);
      SortedTail(s);
      SortedTail(s');
      InsertAlike(x, s[1..], y, s'[1..], t);
      AlikeCons(s[0], Insert(x, s[1..]), s'[0], Insert(y, s'[1..]), t);
    }
  }

  lemma SortedTail(s: seq<ChangeEvent>)
    requires SortedByCreate(s) && s != []
    ensures SortedByCreate(s[1..])
  {
  }

  lemma {:induction false} SortAlike(s: seq<ChangeEvent>, s': seq<ChangeEvent>, t: Target)
    requires Alike(s, s', t)
    ensures Alike(SortByCreate(s), SortByCreate(s'), t)
  {
    if s != [] {
      AlikeTail(s, s', t);
      SortAlike(s[1..], s'[1..], t);
      InsertAlike(s[0], SortByCreate(s[1..]), s'[0], SortByCreate(s'[1..]), t);
    }
  }

  lemma {:induction false} FilterAlike(s: seq<ChangeEvent>, s': seq<ChangeEvent>, t: Target, t': Target, cases: set<Case>)
    requires t != t' && Alike(s, s', t)
    ensures Alike(Filter(s, PendingFor(t', cases)), Filter(s', PendingFor(t', cases)), t)
  {
    if s != [] {
      var p := PendingFor(t', cases);
      AlikeTail(s, s', t);
      assert (t' in s[0].done <==> t' in s'[0].done) by {
        assert t' in s[0].done <==> t' in s[0].done - {t};
        assert t' in s'[0].done <==> t' in s'[0].done - {t};
      }
      assert p(s[0]) == p(s'[0]);
      FilterAlike(s[1..], s'[1..], t, t', cases);
      var rest, rest' := Filter(s[1..], p), Filter(s'[1..], p);
      if p(s[0]) {
        assert Filter(s, p) == [s[0]] + rest;
        assert Filter(s', p) == [s'[0]] + rest';
        AlikeCons(s[0], rest, s'[0], rest', t);
      } else {
        assert Filter(s, p) == rest;
        assert Filter(s', p) == rest';
      }
    }
  }

  /** Per-key isolation of the queue: changing only flag `t` leaves the
      events pending for any other target, and their order, as they were. */
  lemma PendingIsolation(events: seq<ChangeEvent>, events': seq<ChangeEvent>, t: Target, t': Target, cases: set<Case>)
    requires t != t' && Alike(events, events', t)
    ensures Alike(Pending(events, t', cases), Pending(events', t', cases), t)
  {
    FilterAlike(events, events', t, t', cases);
    SortAlike(Filter(events, PendingFor(t', cases)), Filter(events', PendingFor(t', cases)), t);
  }

  /** The change log collection. Handlers read `events` and mark flags
      through `MarkDone`; nothing here adds or deletes an event. */
  class EventLog {
    var events: seq<ChangeEvent>

    ghost predicate Valid()
      reads this
    {
      UniqueIds(events)
    }

    constructor (initial: seq<ChangeEvent>)
      requires UniqueIds(initial)
      ensures Valid() && events == initial
    {
      events := initial;
    }

    /** Sets `done.<t>` on the event with this id. */
    method MarkDone(id: EventId, t: Target)
      requires Valid()
      modifies this
      ensures Valid()
      ensures events == SetFlag(old(events), id, t)
    {
      SetFlagKeepsIds(events, id, t);
      events := SetFlag(events, id, t);
    }
  }
}

=== FILE: chat_sync.dfy ===
/** The Mattermost handlers of `celery_task/task_service_sync.py`: the
    user-roster mirror with its count threshold, the invitation, the
    channel membership of one project and of every future project, and
    the position labels. Calls on the chat adapters are returned as a
    trace; `find_possible_mid` is the map `mids`. */
module ChatSync {
  import opened Wrappers
  import opened Seqs
  import opened Text
  import opened Domain

  /** A call on the chat adapters. */
  datatype ChatCall =
    | InviteByEmail(emails: seq<string>)
    | AddToChannel(channel: string, mid: string)
    | PatchPosition(mid: string, position: string)

  /** `find_possible_mid(uid)` gives a truthy member id. */
  predicate Resolvable(u: Uid, mids: map<Uid, string>) {
    u in mids && mids[u] != ""
  }

  /** `service_sync_mattermost_users`: the roster is mirrored when the
      mirror holds fewer than three more records than the server reports
      (`db_count - 3 < total_users_count`), or when forced; then every
      listed user is stored, and counted, once. */
  method SyncUsers<U>(total: int, dbCount: nat, force: bool, listed: seq<U>)
    returns (stored: seq<U>, num: nat)
    ensures (dbCount - 3 < total || force) ==> stored == listed && num == |listed|
    ensures !(dbCount - 3 < total || force) ==> stored == [] && num == 0
  {
    stored, num := [], 0;
    if dbCount - 3 < total || force {
      for i := 0 to |listed|
        invariant stored == listed[..i] && num == i
      {
        num := num + 1;
        stored := stored + [listed[i]];
      }
      assert listed[..|listed|] == listed;
    }
  }

  /** `service_sync_mattermost_invite`: one invitation naming the OAuth
      e-mail of every requested user that exists. */
  method Invite(users: map<Uid, User>, uids: seq<Uid>) returns (call: ChatCall)
    ensures call.InviteByEmail?
    ensures forall u :: u in uids && u in users ==> users[u].email in call.emails
    ensures forall m :: m in call.emails ==> exists u :: u in uids && u in users && users[u].email == m
  {
    EmailsCover(uids, users);
    call := InviteByEmail(Emails(FoundUsers(uids, users), users));
  }

  /** The filter "has a member id" over uids. */
  function ResolvableIn(mids: map<Uid, string>): Uid -> bool {
    (u: Uid) => Resolvable(u, mids)
  }

  /** `service_sync_mattermost_add_channel`: every requested user with a
      member id joins the project's channel, once per time the user is
      listed and in the order listed; a project without a channel is
      left alone, a missing project raises. */
  method AddChannel(projects: map<Pid, Project>, pid: Pid, uids: seq<Uid>, mids: map<Uid, string>)
    returns (calls: seq<ChatCall>, ok: bool)
    ensures ok <==> pid in projects
    ensures ok && !Configured(projects[pid].channel) ==> calls == []
    ensures !ok ==> calls == []
    ensures ok && Configured(projects[pid].channel) ==>
      var joined := Filter(uids, ResolvableIn(mids));
      && |calls| == |joined|
      && (forall k :: 0 <= k < |joined| ==> calls[k] == AddToChannel(projects[pid].channel.value, mids[joined[k]]))
    ensures ok && Configured(projects[pid].channel) ==>
      && (forall u :: u in uids && Resolvable(u, mids) ==> AddToChannel(projects[pid].channel.value, mids[u]) in calls)
      && (forall c :: c in calls ==>
            exists u :: u in uids && Resolvable(u, mids) && c == AddToChannel(projects[pid].channel.value, mids[u]))
  {
    calls := [];
    if pid !in projects {
      return [], false;
    }
    var project := projects[pid];
    if !Configured(project.channel) {
      return [], true;
    }
    var channel := project.channel.value;
    for i := 0 to |uids|
      invariant JoinedSoFar(calls, channel, uids[..i], mids)
    {
      var u := uids[i];
      assert uids[..i + 1] == uids[..i] + [u];
      JoinedStep(calls, channel, uids[..i], u, mids);
      if u in mids && mids[u] != "" {
        calls := calls + [AddToChannel(channel, mids[u])];
      }
    }
    assert uids[..|uids|] == uids;
    JoinedMeaning(calls, channel, uids, mids);
    return calls, true;
  }

  /** `calls` adds the resolvable users of `listed` to `channel`, one
      call per listing, in order. */
  ghost predicate JoinedSoFar(calls: seq<ChatCall>, channel: string, listed: seq<Uid>, mids: map<Uid, string>) {
    var joined := Filter(listed, ResolvableIn(mids));
    |calls| == |joined| && forall k :: 0 <= k < |joined| ==> calls[k] == AddToChannel(channel, mids[joined[k]])
  }

  /** One more listed user: a call is appended exactly when it resolves. */
  lemma JoinedStep(calls: seq<ChatCall>, channel: string, listed: seq<Uid>, u: Uid, mids: map<Uid, string>)
    requires JoinedSoFar(calls, channel, listed, mids)
    ensures Resolvable(u, mids) ==> JoinedSoFar(calls + [AddToChannel(channel, mids[u])], channel, listed + [u], mids)
    ensures !Resolvable(u, mids) ==> JoinedSoFar(calls, channel, listed + [u], mids)
  {
    var p := ResolvableIn(mids);
    FilterConcat(listed, [u], p);
    assert Filter([u], p) == if p(u) then [u] else [];
  }

  /** Membership reading of `JoinedSoFar`. */
  lemma JoinedMeaning(calls: seq<ChatCall>, channel: string, listed: seq<Uid>, mids: map<Uid, string>)
    requires JoinedSoFar(calls, channel, listed, mids)
    ensures forall u :: u in listed && Resolvable(u, mids) ==> AddToChannel(channel, mids[u]) in calls
    ensures forall c :: c in calls ==> exists u :: u in listed && Resolvable(u, mids) && c == AddToChannel(channel, mids[u])
  {
    var joined := Filter(listed, ResolvableIn(mids));
    forall u | u in listed && Resolvable(u, mids) ensures AddToChannel(channel, mids[u]) in calls {
      var i :| 0 <= i < |listed| && listed[i] == u;
      assert ResolvableIn(mids)(listed[i]);
      var k :| 0 <= k < |joined| && joined[k] == u;
      assert calls[k] == AddToChannel(channel, mids[u]);
    }
    forall c | c in calls ensures exists u :: u in listed && Resolvable(u, mids) && c == AddToChannel(channel, mids[u]) {
      var k :| 0 <= k < |calls| && calls[k] == c;
      assert ResolvableIn(mids)(joined[k]);
    }
  }

  /** Users `u` takes part in the teams `ts` of a project as chief or member. */
  ghost predicate InAnyTeam(u: Uid, ts: seq<Team>) {
    exists t :: t in ts && (u in t.chiefs || u in t.members)
  }

  /** The union of chiefs and members over the teams `ts`. */
  method CollectRoster(ts: seq<Team>) returns (uids: set<Uid>)
    ensures forall u :: u in uids <==> InAnyTeam(u, ts)
  {
    uids := {};
    for i := 0 to |ts|
      invariant forall u :: u in uids <==> InAnyTeam(u, ts[..i])
    {
      assert ts[..i + 1] == ts[..i] + [ts[i]];
      uids := uids + (set u | u in ts[i].chiefs) + (set u | u in ts[i].members);
    }
    assert ts[..|ts|] == ts;
  }

  /** A project the channel sync selects: dated now or later, with a channel. */
  predicate ChannelProject(p: Project, now: int) {
    p.actionDate >= now && Configured(p.channel)
  }

  /** The `pids` dictionary: project id to channel, for the selected
      projects (a later project with the same id overwrites). */
  method ChannelsOf(projects: seq<Project>, now: int) returns (pids: map<Pid, string>)
    ensures forall id :: id in pids <==> exists p :: p in projects && ChannelProject(p, now) && p.id == id
    ensures forall id :: id in pids ==> exists p :: p in projects && ChannelProject(p, now) && p.id == id && pids[id] == p.channel.value
  {
    pids := map[];
    for i := 0 to |projects|
      invariant forall id :: id in pids <==> exists p :: p in projects[..i] && ChannelProject(p, now) && p.id == id
      invariant forall id :: id in pids ==>
        exists p :: p in projects[..i] && ChannelProject(p, now) && p.id == id && pids[id] == p.channel.value
    {
      assert projects[..i + 1] == projects[..i] + [projects[i]];
      var p := projects[i];
      if p.actionDate >= now && p.channel.Some? && p.channel.value != "" {
        pids := pids[p.id := p.channel.value];
      }
    }
    assert projects[..|projects|] == projects;
  }

  /** An `AddToChannel` call the channel sync owes: user `u` of a team of
      project `id` joins that project's channel. */
  ghost predicate OwedChannelCall(c: ChatCall, pids: map<Pid, string>, teams: seq<Team>, mids: map<Uid, string>) {
    exists id, u :: id in pids && InAnyTeam(u, TeamsOf(teams, id)) && Resolvable(u, mids) &&
      c == AddToChannel(pids[id], mids[u])
  }

  /** The inner loop of the channel sync: every user of `uids` with a
      member id joins `channel` exactly once, in the set's iteration
      order, which the ghost `order` records. */
  method JoinChannel(channel: string, uids: set<Uid>, mids: map<Uid, string>)
    returns (calls: seq<ChatCall>, ghost order: seq<Uid>)
    ensures Distinct(order)
    ensures forall u :: u in order <==> u in uids && Resolvable(u, mids)
    ensures |calls| == |order|
    ensures forall k :: 0 <= k < |order| ==> order[k] in mids && calls[k] == AddToChannel(channel, mids[order[k]])
    ensures forall u :: u in uids && Resolvable(u, mids) ==> AddToChannel(channel, mids[u]) in calls
    ensures forall c :: c in calls ==> exists u :: u in uids && Resolvable(u, mids) && c == AddToChannel(channel, mids[u])
  {
    calls, order := [], [];
    var rest := uids;
    while rest != {}
      invariant rest <= uids
      invariant Distinct(order)
      invariant forall u :: u in order <==> u in uids && u !in rest && Resolvable(u, mids)
      invariant |calls| == |order|
      invariant forall k :: 0 <= k < |order| ==> order[k] in mids && calls[k] == AddToChannel(channel, mids[order[k]])
      decreases rest
    {
      var u :| u in rest;
      rest := rest - {u};
      if u in mids && mids[u] != "" {
        assert (order + [u])[..|order|] == order;
        calls, order := calls + [AddToChannel(channel, mids[u])], order + [u];
      }
    }
    forall u | u in uids && Resolvable(u, mids) ensures AddToChannel(channel, mids[u]) in calls {
      var k :| 0 <= k < |order| && order[k] == u;
      assert calls[k] == AddToChannel(channel, mids[u]);
    }
    forall c | c in calls ensures exists u :: u in uids && Resolvable(u, mids) && c == AddToChannel(channel, mids[u]) {
      var k :| 0 <= k < |calls| && calls[k] == c;
      assert order[k] in order;
    }
  }

  /** `service_sync_mattermost_projectuserin_channel`: for every project
      dated now or later that has a channel, every chief and member of its
      teams who has a member id joins the channel. Dictionary and set
      iteration order is left open. */
  method ProjectUsersInChannel(projects: seq<Project>, teams: seq<Team>, mids: map<Uid, string>, now: int)
    returns (pids: map<Pid, string>, calls: seq<ChatCall>)
    ensures forall id :: id in pids <==> exists p :: p in projects && ChannelProject(p, now) && p.id == id
    ensures forall c :: c in calls ==> OwedChannelCall(c, pids, teams, mids)
    ensures forall id, u :: id in pids && InAnyTeam(u, TeamsOf(teams, id)) && Resolvable(u, mids) ==>
      AddToChannel(pids[id], mids[u]) in calls
  {
    pids := ChannelsOf(projects, now);
    calls := [];
    var todo := pids.Keys;
    while todo != {}
      invariant todo <= pids.Keys
      invariant forall c :: c in calls ==> OwedChannelCall(c, pids, teams, mids)
      invariant forall id, u :: id in pids && id !in todo && InAnyTeam(u, TeamsOf(teams, id)) && Resolvable(u, mids) ==>
        AddToChannel(pids[id], mids[u]) in calls
      decreases todo
    {
      var id :| id in todo;
      todo := todo - {id};
      var uids := CollectRoster(TeamsOf(teams, id));
      var more, _ := JoinChannel(pids[id], uids, mids);
      calls := calls + more;
    }
  }

  /** The team-name prefix of the labels: the name up to its first `-`,
      stripped of surrounding whitespace. */
  function TeamNamePrefix(name: string): (r: string)
    ensures '-' !in r
    ensures r == [] || (!IsSpace(r[0]) && !IsSpace(r[|r| - 1]))
    ensures forall c :: c in r ==> c in Split(name, '-')[0]
    ensures StrippedFrom(Split(name, '-')[0], r)
  {
    Strip(Split(name, '-')[0])
  }

  const CoordinatorTid: Tid := "coordinator"
  /** 🌟總召 */
  const CoordinatorLabel: string := "\U{1F31F}\U{7E3D}\U{53EC}"
  /** ⭐️組長@ */
  const LeadPrefix: string := "\U{2B50}\U{FE0F}\U{7D44}\U{9577}@"
  /** (組員) */
  const MemberSuffix: string := "(\U{7D44}\U{54E1})"

  /** The label a chief of team `t` gets. */
  function ChiefLabel(t: Team): string {
    if t.tid == CoordinatorTid then CoordinatorLabel else LeadPrefix + TeamNamePrefix(t.name)
  }

  /** The label a member of team `t` gets. */
  function MemberLabel(t: Team): string {
    TeamNamePrefix(t.name) + MemberSuffix
  }

  /** How many times `x` occurs in `s`. */
  function Count(s: seq<Uid>, x: Uid): (n: nat)
    ensures n <= |s|
    ensures n == 0 <==> x !in s
  {
    if s == [] then 0
    else
      assert s == s[..|s| - 1] + [s[|s| - 1]];
      Count(s[..|s| - 1], x) + (if s[|s| - 1] == x then 1 else 0)
  }

  /** `n` copies of `tag`. */
  function Repeat(tag: string, n: nat): (r: seq<string>)
    ensures |r| == n && forall k :: 0 <= k < n ==> r[k] == tag
  {
    seq(n, _ => tag)
  }

  lemma CountSnoc(s: seq<Uid>, x: Uid, u: Uid)
    ensures Count(s + [x], u) == Count(s, u) + (if x == u then 1 else 0)
  {
    assert (s + [x])[..|s|] == s;
  }

  lemma RepeatSnoc(tag: string, n: nat)
    ensures Repeat(tag, n) + [tag] == Repeat(tag, n + 1)
  {
  }

  /** In a duplicate-free sequence an element occurs at most once. */
  lemma {:induction false} CountDistinct(s: seq<Uid>, u: Uid)
    requires Distinct(s)
    ensures Count(s, u) == if u in s then 1 else 0
  {
    if s != [] {
      var init, x := s[..|s| - 1], s[|s| - 1];
      assert s == init + [x];
      CountDistinct(init, u);
      CountSnoc(init, x, u);
    }
  }

  /** The labels team `t` gives user `u`: one chief label per listing
      among the chiefs, else the member label once if listed as member. */
  function TeamLabels(u: Uid, t: Team): (r: seq<string>)
    ensures forall l :: l in r ==> l == ChiefLabel(t) || l == MemberLabel(t)
  {
    Roles(u, t.chiefs, t.members, ChiefLabel(t), MemberLabel(t))
  }

  /** The labels of `u` in a team with these chiefs and members, given
      the team's chief label `ct` and member label `mt`. */
  function Roles(u: Uid, chiefs: seq<Uid>, members: seq<Uid>, ct: string, mt: string): (r: seq<string>)
    ensures forall l :: l in r ==> l == ct || l == mt
  {
    if u in chiefs then Repeat(ct, Count(chiefs, u))
    else if u in members then [mt]
    else []
  }

  /** All labels of user `u` over the teams `ts`, in team order. */
  function UserLabels(u: Uid, ts: seq<Team>): (r: seq<string>)
    ensures forall l :: l in r ==> exists i :: 0 <= i < |ts| && (l == ChiefLabel(ts[i]) || l == MemberLabel(ts[i]))
  {
    if ts == [] then [] else UserLabels(u, ts[..|ts| - 1]) + TeamLabels(u, ts[|ts| - 1])
  }

  /** The labels built so far for `u`, none when `u` is not yet a key. */
  function LabelsIn(users: map<Uid, seq<string>>, u: Uid): seq<string> {
    if u in users then users[u] else []
  }

  /** `users.setdefault(u, []).append(tag)`, as the loops write it. */
  function AddLabel(users: map<Uid, seq<string>>, u: Uid, tag: string): map<Uid, seq<string>> {
    users[u := LabelsIn(users, u) + [tag]]
  }

  /** `AddLabel` for each of `us` in turn. */
  function AddLabels(users: map<Uid, seq<string>>, us: seq<Uid>, tag: string): map<Uid, seq<string>> {
    if us == [] then users else AddLabel(AddLabels(users, us[..|us| - 1], tag), us[|us| - 1], tag)
  }

  /** Adding `tag` for each of `us` gives `u` one `tag` per listing in
      `us`, and makes a key of every listed user. */
  lemma {:induction false} AddLabelsAt(users: map<Uid, seq<string>>, us: seq<Uid>, tag: string, u: Uid)
    ensures LabelsIn(AddLabels(users, us, tag), u) == LabelsIn(users, u) + Repeat(tag, Count(us, u))
    ensures u in AddLabels(users, us, tag) <==> u in users || u in us
  {
    if us == [] {
      assert LabelsIn(users, u) + Repeat(tag, 0) == LabelsIn(users, u);
    } else {
      var init, x := us[..|us| - 1], us[|us| - 1];
      assert us == init + [x];
      AddLabelsAt(users, init, tag, u);
      CountSnoc(init, x, u);
      if x == u {
        RepeatSnoc(tag, Count(init, u));
      }
    }
  }

  /** The chiefs loop for one team: a label per listing of each chief. */
  method AddChiefLabels(users0: map<Uid, seq<string>>, team: Team, tag: string) returns (users: map<Uid, seq<string>>)
    ensures users == AddLabels(users0, team.chiefs, tag)
  {
    users := users0;
    for j := 0 to |team.chiefs|
      invariant users == AddLabels(users0, team.chiefs[..j], tag)
    {
      assert team.chiefs[..j + 1][..j] == team.chiefs[..j];
      users := users[team.chiefs[j] := LabelsIn(users, team.chiefs[j]) + [tag]];
    }
    assert team.chiefs[..|team.chiefs|] == team.chiefs;
  }

  /** The members loop for one team: `set(members) - set(chiefs)`, one
      member label each, in the (unspecified) order `order` of the set. */
  method AddMemberLabels(users0: map<Uid, seq<string>>, team: Team, tag: string)
    returns (users: map<Uid, seq<string>>, ghost order: seq<Uid>)
    ensures users == AddLabels(users0, order, tag)
    ensures Distinct(order)
    ensures forall u :: u in order <==> u in team.members && u !in team.chiefs
  {
    users, order := users0, [];
    var rest := (set m | m in team.members) - (set c | c in team.chiefs);
    while rest != {}
      invariant users == AddLabels(users0, order, tag)
      invariant Distinct(order)
      invariant forall u :: u in rest || u in order <==> u in team.members && u !in team.chiefs
      invariant forall u :: u in rest ==> u !in order
      decreases rest
    {
      var member :| member in rest;
      rest := rest - {member};
      assert (order + [member])[..|order|] == order;
      order := order + [member];
      users := users[member := LabelsIn(users, member) + [tag]];
    }
  }

  /** Processing one team extends every user's labels by that team's. */
  lemma RolesStepAt(users: map<Uid, seq<string>>, chiefs: seq<Uid>, members: seq<Uid>, ct: string, mt: string, order: seq<Uid>, u: Uid)
    requires Distinct(order)
    requires forall x :: x in order <==> x in members && x !in chiefs
    ensures var next := AddLabels(AddLabels(users, chiefs, ct), order, mt);
      && LabelsIn(next, u) == LabelsIn(users, u) + Roles(u, chiefs, members, ct, mt)
      && (u in next <==> u in users || u in chiefs || u in order)
  {
    var mid := AddLabels(users, chiefs, ct);
    AddLabelsAt(users, chiefs, ct, u);
    AddLabelsAt(mid, order, mt, u);
    CountDistinct(order, u);
    if u in chiefs {
      assert u !in order;
      assert LabelsIn(mid, u) + Repeat(mt, 0) == LabelsIn(mid, u);
    } else {
      assert LabelsIn(users, u) + Repeat(ct, 0) == LabelsIn(users, u);
      if u in order {
        assert Repeat(mt, 1) == [mt];
      } else {
        assert LabelsIn(mid, u) + Repeat(mt, 0) == LabelsIn(mid, u);
      }
    }
  }

  /** The label-building loop of `service_sync_mattermost_users_position`
      over the teams of one project, each team adding its chief labels
      and then its member labels. */
  method BuildLabels(ts: seq<Team>) returns (users: map<Uid, seq<string>>)
    ensures forall u :: LabelsIn(users, u) == UserLabels(u, ts)
    ensures forall u :: u in users ==> users[u] != []
  {
    users := map[];
    for i := 0 to |ts|
      invariant forall u :: LabelsIn(users, u) == UserLabels(u, ts[..i])
      invariant forall u :: u in users ==> users[u] != []
    {
      var team := ts[i];
      assert ts[..i + 1] == ts[..i] + [team];
      var withChiefs := AddChiefLabels(users, team, ChiefLabel(team));
      var next, order := AddMemberLabels(withChiefs, team, MemberLabel(team));
      forall u ensures LabelsIn(next, u) == UserLabels(u, ts[..i + 1]) && (u in next ==> next[u] != []) {
        RolesStepAt(users, team.chiefs, team.members, ChiefLabel(team), MemberLabel(team), order, u);
        assert UserLabels(u, ts[..i + 1]) == UserLabels(u, ts[..i]) + TeamLabels(u, team);
        if u in team.chiefs {
          assert Count(team.chiefs, u) > 0;
        }
      }
      users := next;
    }
    assert ts[..|ts|] == ts;
  }

  /** The position string: the project id, the labels and `[uid]`,
      joined by single spaces. */
  function Position(pid: Pid, labels: seq<string>, u: Uid): (r: string)
    ensures |r| >= |pid| && r[..|pid|] == pid
  {
    JoinLeads(pid, labels, u);
    Join([pid] + labels + ["[" + u + "]"], ' ')
  }

  lemma JoinLeads(pid: Pid, labels: seq<string>, u: Uid)
    ensures var j := Join([pid] + labels + ["[" + u + "]"], ' ');
      |j| >= |pid| && j[..|pid|] == pid
  {
    var parts := [pid] + labels + ["[" + u + "]"];
    assert parts[0] == pid && |parts| >= 2;
    assert Join(parts, ' ') == pid + [' '] + Join(parts[1..], ' ');
  }

  /** `service_sync_mattermost_users_position` for one project: every user
      of its teams with a member id gets a position built from their
      labels; users without one are skipped. */
  method PositionsFor(pid: Pid, teams: seq<Team>, mids: map<Uid, string>)
    returns (calls: seq<ChatCall>)
    ensures PositionsCovered(calls, pid, teams, mids)
    ensures forall c :: c in calls ==> OwedPosition(c, pid, teams, mids)
  {
    var ts := TeamsOf(teams, pid);
    var users := BuildLabels(ts);
    forall u ensures u in users <==> InAnyTeam(u, ts) {
      assert LabelsIn(users, u) == UserLabels(u, ts);
      LabelsNonEmpty(u, ts);
    }
    calls := [];
    var rest := users.Keys;
    while rest != {}
      invariant rest <= users.Keys
      invariant forall u :: u in users && u !in rest && Resolvable(u, mids) ==>
        PatchPosition(mids[u], Position(pid, UserLabels(u, ts), u)) in calls
      invariant forall c :: c in calls ==> OwedPosition(c, pid, teams, mids)
      decreases rest
    {
      var u :| u in rest;
      rest := rest - {u};
      assert users[u] == UserLabels(u, ts) by {
        assert LabelsIn(users, u) == UserLabels(u, ts);
      }
      if u in mids && mids[u] != "" {
        calls := calls + [PatchPosition(mids[u], Position(pid, users[u], u))];
      }
    }
  }

  /** Every user of a team of project `pid` with a member id has their
      position call in `calls`. */
  ghost predicate PositionsCovered(calls: seq<ChatCall>, pid: Pid, teams: seq<Team>, mids: map<Uid, string>) {
    forall u :: InAnyTeam(u, TeamsOf(teams, pid)) && Resolvable(u, mids) ==>
      PatchPosition(mids[u], Position(pid, UserLabels(u, TeamsOf(teams, pid)), u)) in calls
  }

  lemma CoveredGrows(calls: seq<ChatCall>, more: seq<ChatCall>, pid: Pid, teams: seq<Team>, mids: map<Uid, string>)
    requires PositionsCovered(calls, pid, teams, mids)
    ensures PositionsCovered(calls + more, pid, teams, mids)
  {
  }

  lemma CoveredByMore(calls: seq<ChatCall>, more: seq<ChatCall>, pid: Pid, teams: seq<Team>, mids: map<Uid, string>)
    requires PositionsCovered(more, pid, teams, mids)
    ensures PositionsCovered(calls + more, pid, teams, mids)
  {
  }

  /** A position call owed to user `u` for project `pid`. */
  ghost predicate OwedPosition(c: ChatCall, pid: Pid, teams: seq<Team>, mids: map<Uid, string>) {
    exists u :: InAnyTeam(u, TeamsOf(teams, pid)) && Resolvable(u, mids) &&
      c == PatchPosition(mids[u], Position(pid, UserLabels(u, TeamsOf(teams, pid)), u))
  }

  /** The `pids` list of the position sync: the ids of the projects dated
      now or later, in order. */
  method FuturePids(projects: seq<Project>, now: int) returns (pids: seq<Pid>)
    ensures forall id :: id in pids <==> exists p :: p in projects && p.actionDate >= now && p.id == id
  {
    pids := [];
    for i := 0 to |projects|
      invariant forall id :: id in pids <==> exists p :: p in projects[..i] && p.actionDate >= now && p.id == id
    {
      assert projects[..i + 1] == projects[..i] + [projects[i]];
      if projects[i].actionDate >= now {
        pids := pids + [projects[i].id];
      }
    }
    assert projects[..|projects|] == projects;
  }

  /** `service_sync_mattermost_users_position`: the per-project position
      sync, for every project dated now or later (`pids`), in
      `Project.all()` order. */
  method SyncPositions(projects: seq<Project>, teams: seq<Team>, mids: map<Uid, string>, now: int)
    returns (pids: seq<Pid>, calls: seq<ChatCall>)
    ensures forall id :: id in pids <==> exists p :: p in projects && p.actionDate >= now && p.id == id
    ensures forall c :: c in calls ==> exists n :: 0 <= n < |pids| && OwedPosition(c, pids[n], teams, mids)
    ensures forall n :: 0 <= n < |pids| ==> PositionsCovered(calls, pids[n], teams, mids)
  {
    pids := FuturePids(projects, now);
    calls := [];
    for n := 0 to |pids|
      invariant AllOwed(calls, pids, n, teams, mids)
      invariant AllCovered(calls, pids, n, teams, mids)
    {
      var more := PositionsFor(pids[n], teams, mids);
      OwedStep(calls, more, pids, n, teams, mids);
      CoveredStep(calls, more, pids, n, teams, mids);
      calls := calls + more;
    }
  }

  /** Every call is owed to one of the first `n` projects of `pids`. */
  ghost predicate AllOwed(calls: seq<ChatCall>, pids: seq<Pid>, n: nat, teams: seq<Team>, mids: map<Uid, string>)
    requires n <= |pids|
  {
    forall c :: c in calls ==> exists m :: 0 <= m < n && OwedPosition(c, pids[m], teams, mids)
  }

  /** Each of the first `n` projects of `pids` has all its position calls
      in `calls`. */
  ghost predicate AllCovered(calls: seq<ChatCall>, pids: seq<Pid>, n: nat, teams: seq<Team>, mids: map<Uid, string>)
    requires n <= |pids|
  {
    forall m :: 0 <= m < n ==> PositionsCovered(calls, pids[m], teams, mids)
  }

  /** Appending one project's owed calls keeps every call owed. */
  lemma OwedStep(calls: seq<ChatCall>, more: seq<ChatCall>, pids: seq<Pid>, n: nat, teams: seq<Team>, mids: map<Uid, string>)
    requires n < |pids|
    requires AllOwed(calls, pids, n, teams, mids)
    requires forall c :: c in more ==> OwedPosition(c, pids[n], teams, mids)
    ensures AllOwed(calls + more, pids, n + 1, teams, mids)
  {
    forall c | c in calls + more
      ensures exists m :: 0 <= m < n + 1 && OwedPosition(c, pids[m], teams, mids)
    {
      if c in calls {
        var m :| 0 <= m < n && OwedPosition(c, pids[m], teams, mids);
      } else {
        assert OwedPosition(c, pids[n], teams, mids);
      }
    }
  }

  /** Appending the calls that cover one more project keeps the earlier
      projects covered and covers that one. */
  lemma CoveredStep(calls: seq<ChatCall>, more: seq<ChatCall>, pids: seq<Pid>, n: nat, teams: seq<Team>, mids: map<Uid, string>)
    requires n < |pids|
    requires AllCovered(calls, pids, n, teams, mids)
    requires PositionsCovered(more, pids[n], teams, mids)
    ensures AllCovered(calls + more, pids, n + 1, teams, mids)
  {
    forall m | 0 <= m < n + 1
      ensures PositionsCovered(calls + more, pids[m], teams, mids)
    {
      var pid := pids[m];
      if m < n {
        assert PositionsCovered(calls, pid, teams, mids);
        CoveredGrows(calls, more, pid, teams, mids);
      } else {
        assert pid == pids[n];
        CoveredByMore(calls, more, pid, teams, mids);
      }
    }
  }

  /** A user has labels exactly when some team lists them. */
  lemma {:induction false} LabelsNonEmpty(u: Uid, ts: seq<Team>)
    ensures UserLabels(u, ts) != [] <==> InAnyTeam(u, ts)
  {
    if ts != [] {
      var init, t := ts[..|ts| - 1], ts[|ts| - 1];
      assert ts == init + [t];
      LabelsNonEmpty(u, init);
      if u in t.chiefs {
        assert Count(t.chiefs, u) > 0;
      }
      assert InAnyTeam(u, ts) <==> InAnyTeam(u, init) || u in t.chiefs || u in t.members;
    }
  }

  /** A chief also listed among the members of the same team gets only
      that team's chief labels, never its member label. */
  lemma ChiefNotAlsoMember(u: Uid, t: Team)
    requires u in t.chiefs && u in t.members
    ensures TeamLabels(u, t) == Repeat(ChiefLabel(t), Count(t.chiefs, u))
    ensures MemberLabel(t) !in TeamLabels(u, t)
  {
    assert |ChiefLabel(t)| != |MemberLabel(t)|;
  }

  /** The coordinator label is given exactly to chiefs of the
      `coordinator` team: no lead label can spell it. */
  lemma CoordinatorLabelOnly(t: Team)
    ensures ChiefLabel(t) == CoordinatorLabel <==> t.tid == CoordinatorTid
    ensures ChiefLabel(t) != MemberLabel(t)
  {
  }

  /** Without spaces inside its pieces, a position splits back into the
      project id, the labels and `[uid]`. */
  lemma PositionSplits(pid: Pid, labels: seq<string>, u: Uid)
    requires ' ' !in pid && ' ' !in u
    requires forall k :: 0 <= k < |labels| ==> ' ' !in labels[k]
    ensures Split(Position(pid, labels, u), ' ') == [pid] + labels + ["[" + u + "]"]
  {
    var parts := [pid] + labels + ["[" + u + "]"];
    forall k | 0 <= k < |parts| ensures ' ' !in parts[k] {
      if k == 0 {
      } else if k < |parts| - 1 {
        assert parts[k] == labels[k - 1];
      } else {
        assert parts[k] == "[" + u + "]";
      }
    }
    SplitJoin(parts, ' ');
  }
}

=== FILE: dicts.dfy ===
/** Insertion-ordered string dictionaries, as Python's `dict` behaves:
    a new key goes to the end, an existing key keeps its place and takes
    the new value, and `update` stores the other dictionary's items one
    by one in its order. */
module Dicts {
  import opened Wrappers
  import opened Seqs

  /** The items of a dictionary, in insertion order. */
  type Dict = seq<(string, string)>

  function Keys(d: Dict): (r: seq<string>)
    ensures |r| == |d|
    ensures forall i :: 0 <= i < |d| ==> r[i] == d[i].0
  {
    Map((kv: (string, string)) => kv.0, d)
  }

  /** `d.get(k)`. */
  function Get(d: Dict, k: string): (r: Option<string>)
    ensures r.Some? <==> k in Keys(d)
  {
    if k in Keys(d) then Some(d[IndexOf(Keys(d), k)].1) else None
  }

  /** `d.get(k, default)`. */
  function GetOr(d: Dict, k: string, default: string): string {
    Get(d, k).GetOr(default)
  }

  /** `d[k] = v`. */
  function Put(d: Dict, k: string, v: string): (r: Dict)
    ensures Get(r, k) == Some(v)
    ensures forall k' :: k' != k ==> Get(r, k') == Get(d, k')
    ensures Keys(r) == if k in Keys(d) then Keys(d) else Keys(d) + [k]
  {
    if k in Keys(d) then
      var i := IndexOf(Keys(d), k);
      var r := d[i := (k, v)];
      assert Keys(r) == Keys(d);
      r
    else
      var r := d + [(k, v)];
      assert Keys(r) == Keys(d) + [k];
      IndexOfLast(Keys(d), k);
      forall k' | k' in Keys(d) ensures IndexOf(Keys(r), k') == IndexOf(Keys(d), k') {
        IndexOfSnoc(Keys(d), k, k');
      }
      r
  }

  /** `d.update(e)`. */
  function Update(d: Dict, e: Dict): Dict {
    if e == [] then d
    else Put(Update(d, e[..|e| - 1]), e[|e| - 1].0, e[|e| - 1].1)
  }

  /** Looking a key up in a dictionary built by adding one item last. */
  lemma GetSnoc(d: Dict, k: string, v: string, k': string)
    requires k !in Keys(d)
    ensures Get(d + [(k, v)], k') == if k' == k then Some(v) else Get(d, k')
  {
    assert Keys(d + [(k, v)]) == Keys(d) + [k];
    if k' == k {
      IndexOfLast(Keys(d), k);
    } else if k' in Keys(d) {
      IndexOfSnoc(Keys(d), k, k');
    }
  }

  /** After `d.update(e)` a key of `e` has `e`'s value and any other key
      keeps the value it had in `d`. */
  lemma {:induction false} UpdateGet(d: Dict, e: Dict, k: string)
    requires Distinct(Keys(e))
    ensures Get(Update(d, e), k) == if k in Keys(e) then Get(e, k) else Get(d, k)
    decreases |e|
  {
    if e != [] {
      var init, x := e[..|e| - 1], e[|e| - 1];
      assert e == init + [x];
      assert Keys(init) == Keys(e)[..|e| - 1];
      forall j | 0 <= j < |init| ensures Keys(init)[j] != x.0 {
        assert Keys(e)[j] != Keys(e)[|e| - 1];
      }
      UpdateGet(d, init, k);
      GetSnoc(init, x.0, x.1, k);
      assert Keys(e) == Keys(init) + [x.0];
    }
  }

  /** `d.update(e)` keeps `d`'s keys in place and appends the new keys of
      `e` in the order `e` lists them. */
  lemma {:induction false} UpdateKeys(d: Dict, e: Dict)
    requires Distinct(Keys(d))
    ensures Keys(Update(d, e)) == Dedup(Keys(d) + Keys(e))
    decreases |e|
  {
    if e == [] {
      assert Keys(d) + Keys(e) == Keys(d);
      DedupOfDistinct(Keys(d));
    } else {
      var init, x := e[..|e| - 1], e[|e| - 1];
      assert e == init + [x];
      UpdateKeys(d, init);
      UpdateKeysStep(d, init, x);
    }
  }

  /** One item more for `update`: its key is appended only when new. */
  lemma UpdateKeysStep(d: Dict, init: Dict, x: (string, string))
    requires Keys(Update(d, init)) == Dedup(Keys(d) + Keys(init))
    ensures Keys(Update(d, init + [x])) == Dedup(Keys(d) + Keys(init + [x]))
  {
    var s := Keys(d) + Keys(init);
    var u := Update(d, init);
    calc {
      Keys(Update(d, init + [x]));
    == { UpdateSnoc(d, init, x); }
      Keys(Put(u, x.0, x.1));
    ==
      if x.0 in Keys(u) then Keys(u) else Keys(u) + [x.0];
    == { DedupSnoc(s, x.0); DedupHas(s, x.0); }
      Dedup(s + [x.0]);
    == { KeysSnoc(d, init, x); }
      Dedup(Keys(d) + Keys(init + [x]));
    }
  }

  /** `update` with one item more stores that item last. */
  lemma UpdateSnoc(d: Dict, init: Dict, x: (string, string))
    ensures Update(d, init + [x]) == Put(Update(d, init), x.0, x.1)
  {
    var e := init + [x];
    assert e[..|e| - 1] == init && e[|e| - 1] == x;
  }

  lemma KeysSnoc(d: Dict, init: Dict, x: (string, string))
    ensures Keys(d) + Keys(init + [x]) == (Keys(d) + Keys(init)) + [x.0]
  {
    assert Keys(init + [x]) == Keys(init) + [x.0];
  }
}

=== FILE: directory_sync.dfy ===
/** The G Suite directory-group handlers of `celery_task/task_service_sync.py`:
    the member-change sync with its two passes (team group, staff group)
    over the change log, the whole-team sync and the team-leader sync.
    Calls on the directory adapter are returned as a trace. */
module DirectorySync {
  import opened Wrappers
  import opened Seqs
  import opened Domain
  import opened ChangeLog

  /** A call on the directory adapter: `add_users_into_group` or
      `del_users_from_group`. */
  datatype GroupCall =
    | AddMembers(group: string, mails: seq<string>)
    | RemoveMembers(group: string, mails: seq<string>)

  /** The two passes of the member-change sync. */
  datatype Directory = TeamGroup | StaffGroup

  /** The completion flag each pass owns. */
  function Key(d: Directory): Target {
    if d == TeamGroup then GSuiteTeam else GSuiteStaff
  }

  /** The cases both passes select. */
  const AddDel: set<Case> := {Add, Del}

  /** What one iteration of a pass does with one event: mark it after
      issuing `calls`, leave it alone, or raise (ending the invocation). */
  datatype Outcome = Marked(calls: seq<GroupCall>) | Untouched | Aborted

  /** The `mail` of the event's user document, when there is one. */
  function UserMail(e: ChangeEvent, r: Repos): Option<string> {
    if e.uid in r.users then r.users[e.uid].mail else None
  }

  /** One iteration of the team-group pass. */
  function TeamOutcome(e: ChangeEvent, r: Repos): (o: Outcome)
    ensures o.Aborted? <==>
      (e.pid, e.tid) !in r.teams ||
      (Configured(r.teams[(e.pid, e.tid)].mailing) && e.kind in AddDel && UserMail(e, r).None?)
    ensures o.Marked? ==> (o.calls == [] <==> !Configured(r.teams[(e.pid, e.tid)].mailing))
    ensures o.Marked? && o.calls != [] ==>
      && Configured(r.teams[(e.pid, e.tid)].mailing) && UserMail(e, r).Some?
      && var group, mail := r.teams[(e.pid, e.tid)].mailing.value, UserMail(e, r).value;
      && e.kind in AddDel
      && o.calls == [if e.kind == Add then AddMembers(group, [mail]) else RemoveMembers(group, [mail])]
    ensures o.Untouched? ==> e.kind !in AddDel
  {
    if (e.pid, e.tid) !in r.teams then Aborted
    else
      var team := r.teams[(e.pid, e.tid)];
      if !Configured(team.mailing) then Marked([])
      else if e.kind == Add || e.kind == Del then
        var mail := UserMail(e, r);
        if mail.None? then Aborted
        else if e.kind == Add then Marked([AddMembers(team.mailing.value, [mail.value])])
        else Marked([RemoveMembers(team.mailing.value, [mail.value])])
      else Untouched
  }

  /** One iteration of the staff-group pass. On `del` the removal is
      skipped while the user still takes part in the project, but the
      event is marked all the same. */
  function StaffOutcome(e: ChangeEvent, r: Repos): (o: Outcome)
    ensures o.Aborted? <==>
      e.pid !in r.projects ||
      (Configured(r.projects[e.pid].mailingStaff) && UserMail(e, r).None? &&
       (e.kind == Add || (e.kind == Del && (e.uid, e.pid) !in r.participation)))
    ensures o.Marked? && !Configured(r.projects[e.pid].mailingStaff) ==> o.calls == []
    ensures o.Marked? && e.kind == Add ==>
      (o.calls == [] <==> !Configured(r.projects[e.pid].mailingStaff))
    ensures o.Marked? && e.kind == Add && o.calls != [] ==>
      o.calls == [AddMembers(r.projects[e.pid].mailingStaff.value, [UserMail(e, r).value])]
    ensures o.Marked? && e.kind == Del ==>
      (o.calls == [] <==> !Configured(r.projects[e.pid].mailingStaff) || (e.uid, e.pid) in r.participation)
    ensures o.Marked? && e.kind == Del && o.calls != [] ==>
      o.calls == [RemoveMembers(r.projects[e.pid].mailingStaff.value, [UserMail(e, r).value])]
    ensures o.Untouched? <==> e.pid in r.projects && Configured(r.projects[e.pid].mailingStaff) && e.kind !in AddDel
  {
    if e.pid !in r.projects then Aborted
    else
      var project := r.projects[e.pid];
      if !Configured(project.mailingStaff) then Marked([])
      else if e.kind == Del && (e.uid, e.pid) in r.participation then Marked([])
      else if e.kind == Add || e.kind == Del then
        var mail := UserMail(e, r);
        if mail.None? then Aborted
        else if e.kind == Add then Marked([AddMembers(project.mailingStaff.value, [mail.value])])
        else Marked([RemoveMembers(project.mailingStaff.value, [mail.value])])
      else Untouched
  }

  /** A `del` of a user who still takes part in the project is marked with
      no call, whether or not the user's `mail` can be read: the source
      reads it only for the removal. */
  lemma StaffKeepsParticipant(e: ChangeEvent, r: Repos)
    requires e.kind == Del && e.pid in r.projects && (e.uid, e.pid) in r.participation
    ensures StaffOutcome(e, r) == Marked([])
  {
  }

  function OutcomeFor(d: Directory, e: ChangeEvent, r: Repos): Outcome {
    if d == TeamGroup then TeamOutcome(e, r) else StaffOutcome(e, r)
  }

  /** The log, the calls made and whether the pass ran to the end. */
  datatype PassResult = PassResult(events: seq<ChangeEvent>, calls: seq<GroupCall>, ok: bool)

  /** A pass over `queue` (the cursor), starting from the log `events`. */
  function RunPass(events: seq<ChangeEvent>, queue: seq<ChangeEvent>, d: Directory, r: Repos): (res: PassResult)
    ensures |res.events| == |events|
    ensures res.ok <==> forall i :: 0 <= i < |queue| ==> !OutcomeFor(d, queue[i], r).Aborted?
    decreases |queue|
  {
    if queue == [] then PassResult(events, [], true)
    else match OutcomeFor(d, queue[0], r)
      case Aborted => PassResult(events, [], false)
      case Untouched => RunPass(events, queue[1..], d, r)
      case Marked(cs) =>
        var rest := RunPass(SetFlag(events, queue[0].id, Key(d)), queue[1..], d, r);
        PassResult(rest.events, cs + rest.calls, rest.ok)
  }

  /** One step of a pass over the suffix `queue[i..]`. */
  lemma RunPassStep(events: seq<ChangeEvent>, queue: seq<ChangeEvent>, i: nat, d: Directory, r: Repos)
    requires i < |queue|
    ensures var o := OutcomeFor(d, queue[i], r);
      var here := RunPass(events, queue[i..], d, r);
      && (o.Untouched? ==> here == RunPass(events, queue[i + 1..], d, r))
      && (o.Marked? ==>
            var rest := RunPass(SetFlag(events, queue[i].id, Key(d)), queue[i + 1..], d, r);
            here == PassResult(rest.events, o.calls + rest.calls, rest.ok))
      && (o.Aborted? ==> here == PassResult(events, [], false))
  {
    assert queue[i..][0] == queue[i] && queue[i..][1..] == queue[i + 1..];
  }

  /** A pass changes only its own flag, and never takes a flag back. */
  lemma {:induction false} PassFrame(events: seq<ChangeEvent>, queue: seq<ChangeEvent>, d: Directory, r: Repos)
    ensures var res := RunPass(events, queue, d, r);
      Alike(events, res.events, Key(d)) && NeverUnset(events, res.events)
    decreases |queue|
  {
    if queue != [] {
      match OutcomeFor(d, queue[0], r)
      case Aborted =>
      case Untouched => PassFrame(events, queue[1..], d, r);
      case Marked(cs) =>
        var next := SetFlag(events, queue[0].id, Key(d));
        SetFlagEffect(events, queue[0].id, Key(d));
        PassFrame(next, queue[1..], d, r);
        var res := RunPass(next, queue[1..], d, r);
        AlikeTrans(events, next, res.events, Key(d));
        NeverUnsetTrans(events, next, res.events);
    }
  }

  /** A pass that runs to the end has set its flag on every event of the
      queue (all of them `add` or `del`). */
  lemma {:induction false} PassMarksQueue(events: seq<ChangeEvent>, queue: seq<ChangeEvent>, d: Directory, r: Repos)
    requires forall k :: 0 <= k < |queue| ==> queue[k].kind in AddDel
    ensures var res := RunPass(events, queue, d, r);
      res.ok ==> forall i :: 0 <= i < |res.events| && res.events[i].id in Ids(queue) ==>
        Key(d) in res.events[i].done && res.events[i].done[Key(d)]
    decreases |queue|
  {
    if queue != [] {
      var q := queue[0];
      assert forall k :: 0 <= k < |queue[1..]| ==> queue[1..][k].kind in AddDel by {
        forall k | 0 <= k < |queue[1..]| ensures queue[1..][k].kind in AddDel {
          assert queue[1..][k] == queue[k + 1];
        }
      }
      assert Ids(queue) == [q.id] + Ids(queue[1..]);
      match OutcomeFor(d, q, r)
      case Aborted =>
      case Untouched =>
        assert false;
      case Marked(cs) =>
        var next := SetFlag(events, q.id, Key(d));
        SetFlagEffect(events, q.id, Key(d));
        PassMarksQueue(next, queue[1..], d, r);
        PassFrame(next, queue[1..], d, r);
    }
  }

  /** After a pass that set flag `t` on every queued event, and on
      nothing else took `t` back, no event is left pending for `t`. */
  lemma Drained(events: seq<ChangeEvent>, after: seq<ChangeEvent>, queue: seq<ChangeEvent>, t: Target)
    requires Alike(events, after, t) && NeverUnset(events, after)
    requires forall i :: 0 <= i < |events| && IsPending(events[i], t, AddDel) ==> events[i] in queue
    requires forall i :: 0 <= i < |after| && after[i].id in Ids(queue) ==> t in after[i].done
    ensures forall j :: 0 <= j < |after| ==> !PendingFor(t, AddDel)(after[j])
  {
    forall j | 0 <= j < |after|
      ensures !IsPending(after[j], t, AddDel)
    {
      assert SameExcept(events[j], after[j], t);
      if IsPending(events[j], t, AddDel) {
        var k :| 0 <= k < |queue| && queue[k] == events[j];
        assert Ids(queue)[k] == after[j].id;
      }
    }
  }

  /** Retry safety: after a pass that ran to the end nothing is pending
      for its flag any more, so the next invocation does no work. */
  lemma PassDrains(events: seq<ChangeEvent>, d: Directory, r: Repos)
    ensures var res := RunPass(events, Pending(events, Key(d), AddDel), d, r);
      res.ok ==> Pending(res.events, Key(d), AddDel) == []
  {
    var queue := Pending(events, Key(d), AddDel);
    var res := RunPass(events, queue, d, r);
    PassFrame(events, queue, d, r);
    PassMarksQueue(events, queue, d, r);
    if res.ok {
      Drained(events, res.events, queue, Key(d));
      FilterNone(res.events, PendingFor(Key(d), AddDel));
      assert |multiset(Pending(res.events, Key(d), AddDel))| == 0;
    }
  }

  /** Call `c` is one of those the outcome of event `e` issues. */
  ghost predicate IssuedBy(c: GroupCall, e: ChangeEvent, d: Directory, r: Repos) {
    OutcomeFor(d, e, r).Marked? && c in OutcomeFor(d, e, r).calls
  }

  /** Every call of a pass comes from the outcome of one queued event. */
  lemma {:induction false} PassCallsOrigin(events: seq<ChangeEvent>, queue: seq<ChangeEvent>, d: Directory, r: Repos)
    ensures forall c :: c in RunPass(events, queue, d, r).calls ==>
      exists e :: e in queue && IssuedBy(c, e, d, r)
    decreases |queue|
  {
    if queue != [] {
      var res := RunPass(events, queue, d, r);
      var next := if OutcomeFor(d, queue[0], r).Marked? then SetFlag(events, queue[0].id, Key(d)) else events;
      PassCallsOrigin(next, queue[1..], d, r);
      forall c | c in res.calls
        ensures exists e :: e in queue && IssuedBy(c, e, d, r)
      {
        if !IssuedBy(c, queue[0], d, r) {
          assert c in RunPass(next, queue[1..], d, r).calls;
          var e :| e in queue[1..] && IssuedBy(c, e, d, r);
          assert e in queue;
        }
      }
    }
  }

  /** The staff-group guard over a whole pass: every removal from the
      staff group comes from a `del` event whose user no longer takes
      part in the project, and names that project's staff group. */
  lemma StaffRemovalGuard(events: seq<ChangeEvent>, queue: seq<ChangeEvent>, r: Repos)
    ensures forall c :: c in RunPass(events, queue, StaffGroup, r).calls && c.RemoveMembers? ==>
      exists e :: e in queue && e.kind == Del && (e.uid, e.pid) !in r.participation &&
        e.pid in r.projects && Configured(r.projects[e.pid].mailingStaff) &&
        c.group == r.projects[e.pid].mailingStaff.value
  {
    PassCallsOrigin(events, queue, StaffGroup, r);
  }

  /** No configuration, no call: a team-group pass over events whose teams
      have no mailing group issues no directory call at all. */
  lemma {:induction false} NoGroupNoCall(events: seq<ChangeEvent>, queue: seq<ChangeEvent>, r: Repos)
    requires forall k :: 0 <= k < |queue| ==>
      (queue[k].pid, queue[k].tid) in r.teams && !Configured(r.teams[(queue[k].pid, queue[k].tid)].mailing)
    ensures RunPass(events, queue, TeamGroup, r).calls == []
    decreases |queue|
  {
    if queue != [] {
      assert TeamOutcome(queue[0], r) == Marked([]);
      assert forall k :: 1 <= k < |queue| ==> queue[1..][k - 1] == queue[k];
      NoGroupNoCall(SetFlag(events, queue[0].id, GSuiteTeam), queue[1..], r);
    }
  }

  /** One iteration of the team-group loop: the event's team, its
      group, the user's `mail`, the call, then the flag. */
  method TeamStep(log: EventLog, e: ChangeEvent, r: Repos) returns (made: seq<GroupCall>, abort: bool)
    requires log.Valid()
    modifies log
    ensures log.Valid()
    ensures var o := TeamOutcome(e, r);
      && abort == o.Aborted?
      && (o.Marked? ==> made == o.calls && log.events == SetFlag(old(log.events), e.id, GSuiteTeam))
      && (!o.Marked? ==> made == [] && log.events == old(log.events))
  {
    made, abort := [], false;
    if (e.pid, e.tid) !in r.teams {
      return [], true;
    }
    var team := r.teams[(e.pid, e.tid)];
    if !Configured(team.mailing) {
      log.MarkDone(e.id, GSuiteTeam);
    } else {
      var user := UserMail(e, r);
      if e.kind == Add || e.kind == Del {
        if user.None? {
          return [], true;
        }
        if e.kind == Add {
          made := [AddMembers(team.mailing.value, [user.value])];
        } else {
          made := [RemoveMembers(team.mailing.value, [user.value])];
        }
        log.MarkDone(e.id, GSuiteTeam);
      }
    }
  }

  /** One iteration of the staff-group loop: the event's project, its
      staff group, then on `add` the user's `mail` and the call, on `del`
      the user's `mail` and the removal only once the user takes part in
      the project no more; then the flag. */
  method StaffStep(log: EventLog, e: ChangeEvent, r: Repos) returns (made: seq<GroupCall>, abort: bool)
    requires log.Valid()
    modifies log
    ensures log.Valid()
    ensures var o := StaffOutcome(e, r);
      && abort == o.Aborted?
      && (o.Marked? ==> made == o.calls && log.events == SetFlag(old(log.events), e.id, GSuiteStaff))
      && (!o.Marked? ==> made == [] && log.events == old(log.events))
  {
    made, abort := [], false;
    if e.pid !in r.projects {
      return [], true;
    }
    var project := r.projects[e.pid];
    if !Configured(project.mailingStaff) {
      log.MarkDone(e.id, GSuiteStaff);
    } else {
      if e.kind == Add {
        var user := UserMail(e, r);
        if user.None? {
          return [], true;
        }
        made := [AddMembers(project.mailingStaff.value, [user.value])];
        log.MarkDone(e.id, GSuiteStaff);
      } else if e.kind == Del {
        if (e.uid, e.pid) !in r.participation {
          var user := UserMail(e, r);
          if user.None? {
            return [], true;
          }
          made := [RemoveMembers(project.mailingStaff.value, [user.value])];
        }
        log.MarkDone(e.id, GSuiteStaff);
      }
    }
  }

  /** One iteration of the loop of pass `d`. */
  method PassStep(log: EventLog, d: Directory, e: ChangeEvent, r: Repos) returns (made: seq<GroupCall>, abort: bool)
    requires log.Valid()
    modifies log
    ensures log.Valid()
    ensures var o := OutcomeFor(d, e, r);
      && abort == o.Aborted?
      && (o.Marked? ==> made == o.calls && log.events == SetFlag(old(log.events), e.id, Key(d)))
      && (!o.Marked? ==> made == [] && log.events == old(log.events))
  {
    if d == TeamGroup {
      made, abort := TeamStep(log, e, r);
    } else {
      made, abort := StaffStep(log, e, r);
    }
  }

  /** The loop of pass `d` over the cursor `queue`: one step per event,
      stopping at the first lookup that raises. */
  method RunQueue(log: EventLog, queue: seq<ChangeEvent>, d: Directory, r: Repos)
    returns (calls: seq<GroupCall>, ok: bool)
    requires log.Valid()
    modifies log
    ensures log.Valid()
    ensures var res := RunPass(old(log.events), queue, d, r);
      log.events == res.events && calls == res.calls && ok == res.ok
  {
    ghost var final := RunPass(log.events, queue, d, r);
    calls, ok := [], true;
    var i := 0;
    assert queue[i..] == queue;
    while i < |queue|
      invariant 0 <= i <= |queue| && log.Valid()
      invariant Remaining(final, log.events, queue[i..], calls, d, r)
    {
      ghost var before := log.events;
      var made, abort := PassStep(log, d, queue[i], r);
      if abort {
        AbortStep(final, before, queue, i, calls, d, r);
        return calls, false;
      }
      RemainingStep(final, before, log.events, queue, i, calls, made, d, r);
      calls := calls + made;
      i := i + 1;
    }
  }

  /** What is left of pass `final` once `calls` are made: the pass over
      the rest of the queue from `events`. */
  ghost predicate Remaining(final: PassResult, events: seq<ChangeEvent>, rest: seq<ChangeEvent>, calls: seq<GroupCall>, d: Directory, r: Repos) {
    var p := RunPass(events, rest, d, r);
    final.events == p.events && final.calls == calls + p.calls && final.ok == p.ok
  }

  /** A step that does not raise leaves the rest of the pass to do. */
  lemma RemainingStep(final: PassResult, events: seq<ChangeEvent>, after: seq<ChangeEvent>, queue: seq<ChangeEvent>, i: nat, calls: seq<GroupCall>, made: seq<GroupCall>, d: Directory, r: Repos)
    requires i < |queue| && Remaining(final, events, queue[i..], calls, d, r)
    requires var o := OutcomeFor(d, queue[i], r);
      && !o.Aborted?
      && (o.Marked? ==> made == o.calls && after == SetFlag(events, queue[i].id, Key(d)))
      && (o.Untouched? ==> made == [] && after == events)
    ensures Remaining(final, after, queue[i + 1..], calls + made, d, r)
  {
    RunPassStep(events, queue, i, d, r);
    var rest := RunPass(after, queue[i + 1..], d, r);
    assert calls + (made + rest.calls) == (calls + made) + rest.calls;
  }

  /** A step that raises ends the pass where it stands. */
  lemma AbortStep(final: PassResult, events: seq<ChangeEvent>, queue: seq<ChangeEvent>, i: nat, calls: seq<GroupCall>, d: Directory, r: Repos)
    requires i < |queue| && Remaining(final, events, queue[i..], calls, d, r)
    requires OutcomeFor(d, queue[i], r).Aborted?
    ensures final.events == events && final.calls == calls && !final.ok
  {
    RunPassStep(events, queue, i, d, r);
  }

  /** One of the two loops of `service_sync_gsuite_memberchange`: the
      cursor holds the events pending for the pass's flag, oldest first. */
  method GroupPass(log: EventLog, d: Directory, r: Repos) returns (calls: seq<GroupCall>, ok: bool)
    requires log.Valid()
    modifies log
    ensures log.Valid()
    ensures var res := RunPass(old(log.events), Pending(old(log.events), Key(d), AddDel), d, r);
      log.events == res.events && calls == res.calls && ok == res.ok
  {
    var queue := Pending(log.events, Key(d), AddDel);
    calls, ok := RunQueue(log, queue, d, r);
  }

  /** `service_sync_gsuite_memberchange`: the team-group pass, then, if it
      did not raise, the staff-group pass on the log as it left it. */
  method SyncMemberChange(log: EventLog, r: Repos) returns (calls: seq<GroupCall>, ok: bool)
    requires log.Valid()
    modifies log
    ensures log.Valid()
    ensures var team := RunPass(old(log.events), Pending(old(log.events), GSuiteTeam, AddDel), TeamGroup, r);
      var staff := RunPass(team.events, Pending(team.events, GSuiteStaff, AddDel), StaffGroup, r);
      if team.ok then log.events == staff.events && calls == team.calls + staff.calls && ok == staff.ok
      else log.events == team.events && calls == team.calls && !ok
  {
    calls, ok := GroupPass(log, TeamGroup, r);
    if ok {
      var more;
      more, ok := GroupPass(log, StaffGroup, r);
      calls := calls + more;
    }
  }

  /** The team-group pass leaves the staff-group queue as it found it:
      the same events in the same order, differing at most in their
      `gsuite_team` flag. */
  lemma TeamPassKeepsStaffQueue(events: seq<ChangeEvent>, r: Repos)
    ensures var team := RunPass(events, Pending(events, GSuiteTeam, AddDel), TeamGroup, r);
      Alike(Pending(events, GSuiteStaff, AddDel), Pending(team.events, GSuiteStaff, AddDel), GSuiteTeam)
  {
    var team := RunPass(events, Pending(events, GSuiteTeam, AddDel), TeamGroup, r);
    PassFrame(events, Pending(events, GSuiteTeam, AddDel), TeamGroup, r);
    PendingIsolation(events, team.events, GSuiteTeam, GSuiteStaff, AddDel);
  }

  /** `service_sync_gsuite_team_members`: adds every chief and member of
      team (pid, tid) who has a user record to the team's group, or to the
      group of `toTeam` when one is given. No group configured: no call. A
      missing team raises. */
  method SyncTeamMembers(r: Repos, pid: Pid, tid: Tid, toTeam: Option<(Pid, Tid)>)
    returns (call: Option<GroupCall>, ok: bool)
    ensures ok <==>
      && (toTeam.Some? ==> toTeam.value in r.teams)
      && ((pid, tid) in r.teams || (toTeam.Some? && !Configured(r.teams[toTeam.value].mailing)))
    ensures call.Some? ==> ok
    ensures ok ==> var target := if toTeam.Some? then r.teams[toTeam.value] else r.teams[(pid, tid)];
      (call.None? <==> !Configured(target.mailing))
    ensures call.Some? ==>
      var team := r.teams[(pid, tid)];
      var target := if toTeam.Some? then r.teams[toTeam.value] else team;
      && call.value.AddMembers?
      && call.value.group == target.mailing.value
      && (forall u :: u in team.chiefs + team.members && u in r.users ==> r.users[u].email in call.value.mails)
      && (forall m :: m in call.value.mails ==>
            exists u :: u in team.chiefs + team.members && u in r.users && r.users[u].email == m)
  {
    var mailing: string;
    if toTeam.Some? {
      if toTeam.value !in r.teams {
        return None, false;
      }
      var target := r.teams[toTeam.value];
      if !Configured(target.mailing) {
        return None, true;
      }
      mailing := target.mailing.value;
    } else {
      if (pid, tid) !in r.teams {
        return None, false;
      }
      var team := r.teams[(pid, tid)];
      if !Configured(team.mailing) {
        return None, true;
      }
      mailing := team.mailing.value;
    }
    if (pid, tid) !in r.teams {
      return None, false;
    }
    var team := r.teams[(pid, tid)];
    var uids := [];
    uids := uids + team.chiefs;
    uids := uids + team.members;
    assert uids == team.chiefs + team.members;
    EmailsCover(uids, r.users);
    var mails := Emails(FoundUsers(uids, r.users), r.users);
    return Some(AddMembers(mailing, mails)), true;
  }

  /** `u` is a chief of some team of project `pid`. */
  ghost predicate ChiefIn(u: Uid, teams: seq<Team>, pid: Pid) {
    exists t :: t in teams && t.pid == pid && u in t.chiefs
  }

  /** The leader sync's loop: every chief of every given team. */
  method CollectChiefs(teams: seq<Team>) returns (chiefs: seq<Uid>)
    ensures forall u :: u in chiefs <==> exists t :: t in teams && u in t.chiefs
  {
    chiefs := [];
    var i := 0;
    while i < |teams|
      invariant 0 <= i <= |teams|
      invariant forall u :: u in chiefs <==> exists t :: t in teams[..i] && u in t.chiefs
    {
      assert teams[..i + 1] == teams[..i] + [teams[i]];
      chiefs := chiefs + teams[i].chiefs;
      i := i + 1;
    }
    assert teams[..i] == teams;
  }

  /** `service_sync_gsuite_team_leader`: adds the chiefs of every team of
      the project (disabled teams included) to its leader group. A missing
      project or a project without the `mailling_leader` key raises.
      `allTeams` is the team collection that `r.teams` indexes by
      `(pid, tid)`. */
  method SyncTeamLeader(r: Repos, allTeams: seq<Team>, pid: Pid)
    returns (call: Option<GroupCall>)
    ensures call.Some? <==> pid in r.projects && r.projects[pid].mailingLeader.Some?
    ensures call.Some? ==>
      && call.value.AddMembers?
      && call.value.group == r.projects[pid].mailingLeader.value
      && (forall u :: ChiefIn(u, allTeams, pid) && u in r.users ==> r.users[u].email in call.value.mails)
      && (forall m :: m in call.value.mails ==>
            exists u :: ChiefIn(u, allTeams, pid) && u in r.users && r.users[u].email == m)
  {
    var teams := AllTeamsOf(allTeams, pid);
    var chiefs := CollectChiefs(teams);
    forall u ensures u in chiefs <==> ChiefIn(u, allTeams, pid) {
      if ChiefIn(u, allTeams, pid) {
        var t :| t in allTeams && t.pid == pid && u in t.chiefs;
        assert t in teams;
      }
    }
    EmailsCover(chiefs, r.users);
    var mails := Emails(FoundUsers(chiefs, r.users), r.users);
    if pid !in r.projects || r.projects[pid].mailingLeader.None? {
      return None;
    }
    return Some(AddMembers(r.projects[pid].mailingLeader.value, mails));
  }
}

=== FILE: domain.dfy ===
/** The read-only domain records the core looks up (teams, projects,
    users) and the repository queries it makes on them. The repositories
    are immutable maps handed to each handler: the model never changes
    them. */
module Domain {
  import opened Wrappers
  import opened Seqs

  type Uid = string
  type Pid = string
  type Tid = string

  /** A team document: `mailing` is the team's directory group, absent
      when the document has no `mailling` key; `disabled` marks a team
      that the project listing leaves out. */
  datatype Team = Team(
    pid: Pid,
    tid: Tid,
    name: string,
    chiefs: seq<Uid>,
    members: seq<Uid>,
    mailing: Option<string>,
    owners: seq<Uid>,
    disabled: bool)

  /** A project document. `actionDate` is the event date in seconds. */
  datatype Project = Project(
    id: Pid,
    name: string,
    owners: seq<Uid>,
    mailingStaff: Option<string>,
    mailingLeader: Option<string>,
    actionDate: int,
    channel: Option<string>)

  /** What the core reads of a user: the badge name and OAuth e-mail
      returned by `User.get_info`, and the `mail` field of the user
      document returned by `User(uid).get()`. */
  datatype User = User(badgeName: string, email: string, mail: Option<string>)

  /** The repositories, as they stand while a handler runs.
      `participation` holds the pairs for which `Team.participate_in`
      answers true. */
  datatype Repos = Repos(
    teams: map<(Pid, Tid), Team>,
    projects: map<Pid, Project>,
    users: map<Uid, User>,
    participation: set<(Uid, Pid)>)

  /** A document field that is present and truthy (`'k' in d and d['k']`). */
  predicate Configured(field: Option<string>) {
    field.Some? && field.value != ""
  }

  /** The keys of `User.get_info(uids)`: every requested user that exists,
      once, in the order first requested. */
  function FoundUsers(uids: seq<Uid>, users: map<Uid, User>): (r: seq<Uid>)
    ensures Distinct(r)
    ensures forall i :: 0 <= i < |r| ==> r[i] in users && r[i] in uids
    ensures forall i :: 0 <= i < |uids| && uids[i] in users ==> uids[i] in r
  {
    Dedup(Filter(uids, u => u in users))
  }

  /** The OAuth e-mails of the given users, in order. */
  function Emails(uids: seq<Uid>, users: map<Uid, User>): (r: seq<string>)
    requires forall i :: 0 <= i < |uids| ==> uids[i] in users
    ensures |r| == |uids|
    ensures forall i :: 0 <= i < |uids| ==> r[i] == users[uids[i]].email
  {
    seq(|uids|, i requires 0 <= i < |uids| => users[uids[i]].email)
  }

  /** The e-mails of `User.get_info(uids).values()` are exactly those of
      the requested users that exist. */
  lemma EmailsCover(uids: seq<Uid>, users: map<Uid, User>)
    ensures var mails := Emails(FoundUsers(uids, users), users);
      && (forall u :: u in uids && u in users ==> users[u].email in mails)
      && (forall m :: m in mails ==> exists u :: u in uids && u in users && users[u].email == m)
  {
    var found := FoundUsers(uids, users);
    var mails := Emails(found, users);
    forall u | u in uids && u in users
      ensures users[u].email in mails
    {
      var j :| 0 <= j < |uids| && uids[j] == u;
      assert u in found;
      var k :| 0 <= k < |found| && found[k] == u;
      assert mails[k] == users[u].email;
    }
    forall m | m in mails
      ensures exists u :: u in uids && u in users && users[u].email == m
    {
      var j :| 0 <= j < |mails| && mails[j] == m;
      assert found[j] in uids && found[j] in users && users[found[j]].email == m;
    }
  }

  /** `Team.list_by_pid(pid)`: the enabled teams of one project, in order. */
  function TeamsOf(teams: seq<Team>, pid: Pid): (r: seq<Team>)
    ensures forall i :: 0 <= i < |r| ==> r[i].pid == pid && !r[i].disabled && r[i] in teams
    ensures forall i :: 0 <= i < |teams| && teams[i].pid == pid && !teams[i].disabled ==> teams[i] in r
  {
    Filter(teams, (t: Team) => t.pid == pid && !t.disabled)
  }

  /** `TeamDB.find({'pid': pid})`: every team of one project, disabled
      ones included, in order. */
  function AllTeamsOf(teams: seq<Team>, pid: Pid): (r: seq<Team>)
    ensures forall i :: 0 <= i < |r| ==> r[i].pid == pid && r[i] in teams
    ensures forall i :: 0 <= i < |teams| && teams[i].pid == pid ==> teams[i] in r
  {
    Filter(teams, (t: Team) => t.pid == pid)
  }
}

=== FILE: mail_sys.dfy ===
/** The membership mail handlers of `celery_task/task_mail_sys.py`. Each
    case handler walks the change events of its own case that have no
    `done.mail` flag yet, oldest first, and enqueues one send task per
    message; it never writes the log. The send task delivers one message
    and, only on HTTP 200, sets `done.mail` on the event named by its
    `rid`. Template rendering and MIME assembly are opaque: a message is
    kept as its recipient, its subject and the template arguments. */
module MailSys {
  import opened Seqs
  import opened Domain
  import opened ChangeLog

  /** A `to_addresses` entry: `dict(name=..., mail=...)`. */
  datatype Address = Address(name: string, mail: string)

  /** The template a message is rendered from, with its arguments. */
  datatype Body =
    | WaitingBody(name: string, uid: Uid, applyName: string, teamName: string, pid: Pid, tid: Tid)
    | DenyBody(name: string, teamName: string, projectName: string, pid: Pid)
    | AddBody(name: string, teamName: string, pid: Pid, tid: Tid)
    | DelBody(name: string, teamName: string)

  /** A `mail_member_send` task: the message and the id of the event it
      reports on. */
  datatype SendTask = SendTask(rid: EventId, to: Address, subject: string, body: Body)

  /** What a handler enqueued, and whether it ran to the end (`false`
      when a lookup raised and ended the invocation). */
  datatype Outcome = Outcome(sends: seq<SendTask>, ok: bool)

  const WaitingSubject: string := "\U{7533}\U{8ACB}\U{52A0}\U{5165}\U{901A}\U{77E5}\U{4FE1} - "
  const ApplyPrefix: string := "\U{7533}\U{8ACB}\U{52A0}\U{5165} "
  const DenySuffix: string := " \U{672A}\U{6838}\U{51C6}"
  const AddSuffix: string := " \U{6838}\U{51C6}"
  const DelPrefix: string := "\U{60A8}\U{5DF2}\U{88AB}\U{79FB}\U{9664} "
  const DelSuffix: string := " \U{7684}\U{7D44}\U{54E1}\U{8CC7}\U{683C}\U{FF01}"

  /** The recipient entry built from a user's badge name and e-mail. */
  function AddressOf(u: User): Address {
    Address(u.badgeName, u.email)
  }

  /** The notice to one chief about the applicant of a `waiting` event. */
  function ChiefNotice(e: ChangeEvent, team: Team, chief: User, applicant: User): (s: SendTask)
    ensures s.rid == e.id && s.to == AddressOf(chief)
    ensures s.subject == WaitingSubject + applicant.badgeName
  {
    SendTask(e.id, AddressOf(chief),
      WaitingSubject + applicant.badgeName,
      WaitingBody(chief.badgeName, e.uid, applicant.badgeName, team.name, team.pid, team.tid))
  }

  /** The chief loop of `mail_member_waiting` over `chiefs`: one notice
      per chief, in order; a chief or applicant with no user record raises
      at that chief, after the notices already enqueued. */
  function WaitingFrom(e: ChangeEvent, team: Team, chiefs: seq<Uid>, users: map<Uid, User>): (o: Outcome)
    ensures o.ok <==> forall i :: 0 <= i < |chiefs| ==> chiefs[i] in users && e.uid in users
    ensures o.ok ==> |o.sends| == |chiefs|
    ensures o.ok ==> forall i :: 0 <= i < |chiefs| ==> o.sends[i].to == AddressOf(users[chiefs[i]])
    ensures forall i :: 0 <= i < |o.sends| ==> o.sends[i].rid == e.id
    ensures |o.sends| <= |chiefs|
    decreases |chiefs|
  {
    if chiefs == [] then Outcome([], true)
    else if chiefs[0] !in users || e.uid !in users then Outcome([], false)
    else
      var rest := WaitingFrom(e, team, chiefs[1..], users);
      assert forall i :: 1 <= i < |chiefs| ==> chiefs[i] == chiefs[1..][i - 1];
      Outcome([ChiefNotice(e, team, users[chiefs[0]], users[e.uid])] + rest.sends, rest.ok)
  }

  /** `mail_member_deny` for one event: the user is told that the team
      of the named project did not take them. */
  function DenyNotice(e: ChangeEvent, team: Team, project: Project, u: User): (s: SendTask)
    ensures s.rid == e.id && s.to == AddressOf(u)
    ensures s.subject == ApplyPrefix + team.name + DenySuffix
  {
    SendTask(e.id, AddressOf(u), ApplyPrefix + team.name + DenySuffix,
      DenyBody(u.badgeName, team.name, project.name, team.pid))
  }

  /** `mail_member_add` for one event: the user is told they were taken. */
  function AddNotice(e: ChangeEvent, team: Team, u: User): (s: SendTask)
    ensures s.rid == e.id && s.to == AddressOf(u)
    ensures s.subject == ApplyPrefix + team.name + AddSuffix
  {
    SendTask(e.id, AddressOf(u), ApplyPrefix + team.name + AddSuffix,
      AddBody(u.badgeName, team.name, team.pid, team.tid))
  }

  /** `mail_member_del` for one event: the user is told they were removed. */
  function DelNotice(e: ChangeEvent, team: Team, u: User): (s: SendTask)
    ensures s.rid == e.id && s.to == AddressOf(u)
    ensures s.subject == DelPrefix + team.name + DelSuffix
  {
    SendTask(e.id, AddressOf(u), DelPrefix + team.name + DelSuffix, DelBody(u.badgeName, team.name))
  }

  /** What one iteration of a case handler enqueues for event `e`. */
  function EventSends(e: ChangeEvent, r: Repos): (o: Outcome)
    ensures forall i :: 0 <= i < |o.sends| ==> o.sends[i].rid == e.id
  {
    if (e.pid, e.tid) !in r.teams then Outcome([], false)
    else
      var team := r.teams[(e.pid, e.tid)];
      match e.kind
      case Waiting => WaitingFrom(e, team, team.chiefs, r.users)
      case Deny =>
        if team.pid !in r.projects || e.uid !in r.users then Outcome([], false)
        else Outcome([DenyNotice(e, team, r.projects[team.pid], r.users[e.uid])], true)
      case Add =>
        if e.uid !in r.users then Outcome([], false)
        else Outcome([AddNotice(e, team, r.users[e.uid])], true)
      case Del =>
        if e.uid !in r.users then Outcome([], false)
        else Outcome([DelNotice(e, team, r.users[e.uid])], true)
  }

  /** A case handler over the cursor `queue`: the events in order until
      one raises. */
  function RunHandler(queue: seq<ChangeEvent>, r: Repos): (o: Outcome)
    ensures o.ok <==> forall i :: 0 <= i < |queue| ==> EventSends(queue[i], r).ok
    decreases |queue|
  {
    if queue == [] then Outcome([], true)
    else
      var o := EventSends(queue[0], r);
      if !o.ok then o
      else
        var rest := RunHandler(queue[1..], r);
        Outcome(o.sends + rest.sends, rest.ok)
  }

  /** The chief loop of `mail_member_waiting`. */
  method NotifyChiefs(e: ChangeEvent, team: Team, users: map<Uid, User>)
    returns (sends: seq<SendTask>, ok: bool)
    ensures Outcome(sends, ok) == WaitingFrom(e, team, team.chiefs, users)
  {
    var chiefs := team.chiefs;
    sends := [];
    var i := 0;
    assert chiefs[i..] == chiefs;
    while i < |chiefs|
      invariant 0 <= i <= |chiefs|
      invariant ChiefsLeft(e, team, chiefs, i, users, sends)
    {
      WaitingStep(e, team, chiefs, i, users, sends);
      if chiefs[i] !in users || e.uid !in users {
        return sends, false;
      }
      sends := sends + [ChiefNotice(e, team, users[chiefs[i]], users[e.uid])];
      i := i + 1;
    }
    assert chiefs[i..] == [];
    ok := true;
  }

  /** Having enqueued `sends` for the first `i` chiefs, the rest of the
      loop enqueues what `WaitingFrom` says of the others. */
  ghost predicate ChiefsLeft(e: ChangeEvent, team: Team, chiefs: seq<Uid>, i: nat, users: map<Uid, User>, sends: seq<SendTask>)
    requires i <= |chiefs|
  {
    var rest := WaitingFrom(e, team, chiefs[i..], users);
    WaitingFrom(e, team, chiefs, users) == Outcome(sends + rest.sends, rest.ok)
  }

  /** One step of the chief loop. */
  lemma WaitingStep(e: ChangeEvent, team: Team, chiefs: seq<Uid>, i: nat, users: map<Uid, User>, sends: seq<SendTask>)
    requires i < |chiefs| && ChiefsLeft(e, team, chiefs, i, users, sends)
    ensures chiefs[i] !in users || e.uid !in users ==> WaitingFrom(e, team, chiefs, users) == Outcome(sends, false)
    ensures chiefs[i] in users && e.uid in users ==>
      ChiefsLeft(e, team, chiefs, i + 1, users, sends + [ChiefNotice(e, team, users[chiefs[i]], users[e.uid])])
  {
    assert chiefs[i..][0] == chiefs[i] && chiefs[i..][1..] == chiefs[i + 1..];
    if chiefs[i] in users && e.uid in users {
      var rest := WaitingFrom(e, team, chiefs[i + 1..], users);
      var one := [ChiefNotice(e, team, users[chiefs[i]], users[e.uid])];
      assert sends + (one + rest.sends) == (sends + one) + rest.sends;
    } else {
      assert sends + [] == sends;
    }
  }

  /** One iteration of a case handler. */
  method NotifyEvent(e: ChangeEvent, r: Repos) returns (sends: seq<SendTask>, ok: bool)
    ensures Outcome(sends, ok) == EventSends(e, r)
  {
    if (e.pid, e.tid) !in r.teams {
      return [], false;
    }
    var team := r.teams[(e.pid, e.tid)];
    match e.kind
    case Waiting =>
      sends, ok := NotifyChiefs(e, team, r.users);
    case Deny =>
      if team.pid !in r.projects || e.uid !in r.users {
        return [], false;
      }
      sends, ok := [DenyNotice(e, team, r.projects[team.pid], r.users[e.uid])], true;
    case Add =>
      if e.uid !in r.users {
        return [], false;
      }
      sends, ok := [AddNotice(e, team, r.users[e.uid])], true;
    case Del =>
      if e.uid !in r.users {
        return [], false;
      }
      sends, ok := [DelNotice(e, team, r.users[e.uid])], true;
  }

  /** The loop of a case handler over the cursor `queue`. */
  method NotifyQueue(queue: seq<ChangeEvent>, r: Repos) returns (sends: seq<SendTask>, ok: bool)
    ensures Outcome(sends, ok) == RunHandler(queue, r)
  {
    sends := [];
    var i := 0;
    assert queue[i..] == queue;
    while i < |queue|
      invariant 0 <= i <= |queue|
      invariant QueueLeft(queue, i, r, sends)
    {
      var more, fine := NotifyEvent(queue[i], r);
      HandlerStep(queue, i, r, sends);
      sends := sends + more;
      if !fine {
        return sends, false;
      }
      i := i + 1;
    }
    assert queue[i..] == [];
    ok := true;
  }

  /** Having enqueued `sends` for the first `i` events, the rest of the
      handler enqueues what `RunHandler` says of the others. */
  ghost predicate QueueLeft(queue: seq<ChangeEvent>, i: nat, r: Repos, sends: seq<SendTask>)
    requires i <= |queue|
  {
    var rest := RunHandler(queue[i..], r);
    RunHandler(queue, r) == Outcome(sends + rest.sends, rest.ok)
  }

  /** One step of the handler loop. */
  lemma HandlerStep(queue: seq<ChangeEvent>, i: nat, r: Repos, sends: seq<SendTask>)
    requires i < |queue| && QueueLeft(queue, i, r, sends)
    ensures var o := EventSends(queue[i], r);
      && (!o.ok ==> RunHandler(queue, r) == Outcome(sends + o.sends, false))
      && (o.ok ==> QueueLeft(queue, i + 1, r, sends + o.sends))
  {
    assert queue[i..][0] == queue[i] && queue[i..][1..] == queue[i + 1..];
    HandlerCons(queue[i..], queue[i], queue[i + 1..], r);
    JoinStep(RunHandler(queue, r), sends, RunHandler(queue[i..], r), EventSends(queue[i], r), RunHandler(queue[i + 1..], r));
  }

  /** Splicing one event's outcome into the loop's running total. */
  lemma JoinStep(total: Outcome, sends: seq<SendTask>, here: Outcome, o: Outcome, rest: Outcome)
    requires total == Outcome(sends + here.sends, here.ok)
    requires here == if o.ok then Outcome(o.sends + rest.sends, rest.ok) else o
    ensures !o.ok ==> total == Outcome(sends + o.sends, false)
    ensures o.ok ==> total == Outcome((sends + o.sends) + rest.sends, rest.ok)
  {
    if o.ok {
      assert sends + (o.sends + rest.sends) == (sends + o.sends) + rest.sends;
    }
  }

  /** The handler on a queue with head `x` and tail `tail`. */
  lemma HandlerCons(q: seq<ChangeEvent>, x: ChangeEvent, tail: seq<ChangeEvent>, r: Repos)
    requires q != [] && q[0] == x && q[1..] == tail
    ensures var o := EventSends(x, r);
      RunHandler(q, r) == if o.ok then Outcome(o.sends + RunHandler(tail, r).sends, RunHandler(tail, r).ok) else o
  {
  }

  /** `mail_member_<case>`: selects the events of case `c` with no
      `done.mail`, oldest first, and enqueues their messages. The log is
      only read. */
  method HandleCase(log: EventLog, c: Case, r: Repos) returns (sends: seq<SendTask>, ok: bool)
    ensures Outcome(sends, ok) == RunHandler(Pending(log.events, Mail, {c}), r)
  {
    var queue := Pending(log.events, Mail, {c});
    sends, ok := NotifyQueue(queue, r);
  }

  /** `mail_member_send`: delivers a message; the SES response status is
      `status`. Only a 200 marks the `rid` event, otherwise the task
      raises (and is retried) with the log untouched. */
  method SendMail(log: EventLog, rid: EventId, status: int) returns (ok: bool)
    requires log.Valid()
    modifies log
    ensures log.Valid()
    ensures ok <==> status == 200
    ensures log.events == if ok then SetFlag(old(log.events), rid, Mail) else old(log.events)
  {
    ok := status == 200;
    if ok {
      log.MarkDone(rid, Mail);
    }
  }

  /** The message sent on behalf of event `x`. */
  ghost predicate SentFor(s: SendTask, x: ChangeEvent, r: Repos) {
    s in EventSends(x, r).sends
  }

  /** Every enqueued message belongs to an event of the cursor and carries
      that event's id as `rid`. */
  lemma {:induction false} SendsFromQueue(queue: seq<ChangeEvent>, r: Repos)
    ensures forall s :: s in RunHandler(queue, r).sends ==>
      exists x :: x in queue && SentFor(s, x, r) && s.rid == x.id
    decreases |queue|
  {
    if queue != [] {
      var o := EventSends(queue[0], r);
      if o.ok {
        SendsFromQueue(queue[1..], r);
        forall s | s in RunHandler(queue, r).sends
          ensures exists x :: x in queue && SentFor(s, x, r) && s.rid == x.id
        {
          if s in o.sends {
            var k :| 0 <= k < |o.sends| && o.sends[k] == s;
            assert SentFor(s, queue[0], r) && s.rid == queue[0].id;
          } else {
            var x :| x in queue[1..] && SentFor(s, x, r) && s.rid == x.id;
            assert x in queue;
          }
        }
      } else {
        forall s | s in o.sends
          ensures SentFor(s, queue[0], r) && s.rid == queue[0].id
        {
          var k :| 0 <= k < |o.sends| && o.sends[k] == s;
        }
      }
    }
  }

  /** A handler that runs to the end has enqueued every message of every
      event of its cursor; so while an event stays pending, each run
      enqueues its messages again. */
  lemma {:induction false} HandlerCovers(queue: seq<ChangeEvent>, r: Repos)
    requires RunHandler(queue, r).ok
    ensures forall x, s :: x in queue && SentFor(s, x, r) ==> s in RunHandler(queue, r).sends
    decreases |queue|
  {
    if queue != [] {
      HandlerCovers(queue[1..], r);
      forall x, s | x in queue && SentFor(s, x, r)
        ensures s in RunHandler(queue, r).sends
      {
        if x != queue[0] {
          assert x in queue[1..];
        }
      }
    }
  }

  /** For `deny`, `add` and `del` a complete run enqueues exactly one
      message per event, in cursor order, addressed to the event's user. */
  lemma {:induction false} OneNoticePerEvent(queue: seq<ChangeEvent>, r: Repos)
    requires forall i :: 0 <= i < |queue| ==> queue[i].kind != Waiting
    requires RunHandler(queue, r).ok
    ensures var sends := RunHandler(queue, r).sends;
      && |sends| == |queue|
      && forall i :: 0 <= i < |queue| ==>
           sends[i].rid == queue[i].id && queue[i].uid in r.users
           && sends[i].to == AddressOf(r.users[queue[i].uid])
    decreases |queue|
  {
    if queue != [] {
      OneNoticePerEvent(queue[1..], r);
      var rest := RunHandler(queue[1..], r).sends;
      forall i | 1 <= i < |queue|
        ensures queue[i] == queue[1..][i - 1]
      {
      }
    }
  }

  /** For `waiting` a complete iteration enqueues one notice per chief of
      the team, in the team's order, each addressed to that chief. */
  lemma WaitingNotifiesChiefs(e: ChangeEvent, r: Repos)
    requires e.kind == Waiting && EventSends(e, r).ok
    ensures (e.pid, e.tid) in r.teams
    ensures var chiefs, sends := r.teams[(e.pid, e.tid)].chiefs, EventSends(e, r).sends;
      && |sends| == |chiefs|
      && forall i :: 0 <= i < |chiefs| ==>
           chiefs[i] in r.users && sends[i].to == AddressOf(r.users[chiefs[i]]) && sends[i].rid == e.id
  {
  }

  /** A `waiting` event of a team with no chiefs gets no message, so no
      send task can ever mark it: it stays pending for `mail`. */
  lemma NoChiefsNoMail(events: seq<ChangeEvent>, e: ChangeEvent, r: Repos)
    requires UniqueIds(events) && e in events && e.kind == Waiting
    requires (e.pid, e.tid) in r.teams && r.teams[(e.pid, e.tid)].chiefs == []
    ensures EventSends(e, r) == Outcome([], true)
    ensures forall s :: s in RunHandler(Pending(events, Mail, {Waiting}), r).sends ==> s.rid != e.id
  {
    var queue := Pending(events, Mail, {Waiting});
    SendsFromQueue(queue, r);
    forall s | s in RunHandler(queue, r).sends
      ensures s.rid != e.id
    {
      var x :| x in queue && SentFor(s, x, r) && s.rid == x.id;
    }
  }

  /** A delivered message takes its event out of every later `mail`
      cursor, and leaves the directory passes' cursors as they were. */
  lemma DeliveredLeavesQueue(events: seq<ChangeEvent>, id: EventId, cases: set<Case>, t: Target)
    requires t != Mail
    ensures forall x :: x in Pending(SetFlag(events, id, Mail), Mail, cases) ==> x.id != id
    ensures Alike(Pending(events, t, cases), Pending(SetFlag(events, id, Mail), t, cases), Mail)
  {
    var after := SetFlag(events, id, Mail);
    SetFlagEffect(events, id, Mail);
    forall x | x in Pending(after, Mail, cases)
      ensures x.id != id
    {
      var i :| 0 <= i < |after| && after[i] == x;
    }
    PendingIsolation(events, after, Mail, t, cases);
  }
}

=== FILE: project_view.dfy ===
/** The project pages of `view/project.py`: the three-per-row layout of
    the project and team lists, the owner gate of the edit routes, the
    project edit form with its certificate-hours clamp, the team API with
    its key projection and head-count clamp, and the team page with each
    team's chief names. Rendering is left out: a route answers a
    `Response` and the store writes it makes. */
module ProjectView {
  import opened Wrappers
  import opened Seqs
  import opened Text
  import opened Domain

  /** A JSON value of a document field as far as these routes look at it. */
  datatype Value = Int(n: int) | Str(s: string) | Strs(items: seq<string>)

  /** A document: its fields by key. */
  type Doc = map<string, Value>

  /** What the routes read of a project document (`Project.get`). */
  datatype ProjectDoc = ProjectDoc(id: Pid, owners: seq<Uid>, hours: Option<int>)

  /** A team on the team page, with `chiefs_name` attached. */
  datatype TeamCard = TeamCard(team: Team, chiefsName: seq<string>)

  /** What a route answers. `Failed` is an exception the route does not
      catch. */
  datatype Response =
    | ToTeamPage(pid: Pid)
    | ToEdit(pid: Pid)
    | EditPage(hours: int)
    | TeamDoc(doc: Doc)
    | Echo(data: Doc)
    | TeamsPage(rows: seq<seq<TeamCard>>, editable: bool)
    | TeamEditor(teams: seq<Team>)
    | NotFound
    | Failed

  /** A store write a route makes: `Project.update`, `Team.update_setting`,
      `Team.create`. */
  datatype Write =
    | UpdateProject(pid: Pid, data: Doc)
    | UpdateTeamSetting(pid: Pid, tid: Value, data: Doc)
    | CreateTeam(pid: Pid, tid: Value, name: Value, owners: seq<Uid>)

  /** Where row `m` of a rows-of-three layout of `n` items ends. */
  function RowEnd(n: nat, m: nat): nat {
    if 3 * m + 3 <= n then 3 * m + 3 else n
  }

  /** `rows` are the first rows of a rows-of-three layout of `data`. */
  ghost predicate Grouped<T>(data: seq<T>, rows: seq<seq<T>>) {
    && Flatten(rows) == data[..if 3 * |rows| <= |data| then 3 * |rows| else |data|]
    && forall m :: 0 <= m < |rows| ==> 3 * m < |data| && rows[m] == data[3 * m..RowEnd(|data|, m)]
  }

  /** One more row of the layout. */
  lemma GroupStep<T>(data: seq<T>, rows: seq<seq<T>>)
    requires Grouped(data, rows) && 3 * |rows| < |data|
    ensures Grouped(data, rows + [data[3 * |rows|..RowEnd(|data|, |rows|)]])
  {
    var i := |rows|;
    var chunk := data[3 * i..RowEnd(|data|, i)];
    assert (rows + [chunk])[..i] == rows;
    assert data[..RowEnd(|data|, i)] == data[..3 * i] + chunk;
  }

  /** The rows-of-three grouping of `index` and `team_page`: consecutive
      slices of three, the last one shorter when the count is not a
      multiple of three. */
  method GroupForLayout<T>(data: seq<T>) returns (rows: seq<seq<T>>)
    ensures |rows| == (|data| + 2) / 3
    ensures Flatten(rows) == data
    ensures forall i :: 0 <= i < |rows| ==> 1 <= |rows[i]| <= 3
    ensures forall i :: 0 <= i < |rows| - 1 ==> |rows[i]| == 3
    ensures forall i :: 0 <= i < |rows| ==> 3 * i < |data| && rows[i] == data[3 * i..RowEnd(|data|, i)]
  {
    var per := 3;
    var count := (|data| + per - 1) / per;
    rows := [];
    for i := 0 to count
      invariant |rows| == i
      invariant Grouped(data, rows)
    {
      var end := if per * (i + 1) <= |data| then per * (i + 1) else |data|;
      GroupStep(data, rows);
      rows := rows + [data[per * i..end]];
    }
    assert data[..|data|] == data;
    forall m | 0 <= m < |rows| - 1 ensures |rows[m]| == 3 {
      assert 3 * m + 3 <= |data|;
    }
  }

  /** The value of a decimal digit. */
  function DigitValue(c: char): nat
    requires '0' <= c <= '9'
  {
    (c as int) - ('0' as int)
  }

  predicate AllDigits(s: string) {
    forall i :: 0 <= i < |s| ==> '0' <= s[i] <= '9'
  }

  /** The number a run of decimal digits spells. */
  function DigitsValue(s: string): nat
    requires AllDigits(s)
  {
    if s == [] then 0 else DigitsValue(s[..|s| - 1]) * 10 + DigitValue(s[|s| - 1])
  }

  /** Python's `int(s)` on a string: surrounding whitespace, an optional
      sign and at least one digit; anything else raises. */
  function ParseInt(s: string): (r: Option<int>)
    ensures Strip(s) == [] ==> r.None?
    ensures Strip(s) != [] && AllDigits(Strip(s)) ==> r == Some(DigitsValue(Strip(s)))
    ensures r.Some? && r.value < 0 ==> Strip(s)[0] == '-'
  {
    var t := Strip(s);
    if |t| > 1 && (t[0] == '-' || t[0] == '+') && AllDigits(t[1..]) then
      Some(if t[0] == '-' then -(DigitsValue(t[1..]) as int) else DigitsValue(t[1..]) as int)
    else if t != [] && AllDigits(t) then Some(DigitsValue(t))
    else None
  }

  /** `str(n)` for a natural number. */
  function ShowNat(n: nat): (r: string)
    ensures r != [] && AllDigits(r)
  {
    if n < 10 then [('0' as int + n) as char]
    else ShowNat(n / 10) + [('0' as int + n % 10) as char]
  }

  /** `str(n)`. */
  function ShowInt(n: int): string {
    if n < 0 then "-" + ShowNat(-n) else ShowNat(n)
  }

  lemma {:induction false} ShowNatValue(n: nat)
    ensures DigitsValue(ShowNat(n)) == n
  {
    if n >= 10 {
      ShowNatValue(n / 10);
      var s := ShowNat(n);
      assert s[..|s| - 1] == ShowNat(n / 10);
    }
  }

  /** A string with no whitespace at either end is its own strip. */
  lemma StripUnspaced(s: string)
    requires s != [] && !IsSpace(s[0]) && !IsSpace(s[|s| - 1])
    ensures Strip(s) == s
  {
    assert TrimLeft(s) == s;
    assert TrimRight(s) == s;
  }

  /** `int(str(n)) == n`: the parser reads back every number written in
      decimal. */
  lemma ParseShow(n: int)
    ensures ParseInt(ShowInt(n)) == Some(n)
  {
    var m: nat := if n < 0 then -n else n;
    ShowNatValue(m);
    if n < 0 {
      ParseNegative(ShowNat(m));
    } else {
      ParseDigits(ShowNat(m));
    }
  }

  /** A run of digits reads as its value. */
  lemma ParseDigits(d: string)
    requires d != [] && AllDigits(d)
    ensures ParseInt(d) == Some(DigitsValue(d))
  {
    DigitNotSpace(d[0]);
    DigitNotSpace(d[|d| - 1]);
    StripUnspaced(d);
  }

  /** A minus sign and a run of digits read as the negated value. */
  lemma ParseNegative(d: string)
    requires d != [] && AllDigits(d)
    ensures ParseInt("-" + d) == Some(-(DigitsValue(d) as int))
  {
    var s := "-" + d;
    assert s[0] == '-' && s[1..] == d && s[|s| - 1] == d[|d| - 1];
    DigitNotSpace(d[|d| - 1]);
    StripUnspaced(s);
  }

  lemma DigitNotSpace(c: char)
    requires '0' <= c <= '9'
    ensures !IsSpace(c)
  {
  }

  /** Python's `int(v)` on a document value; a list raises. */
  function IntOf(v: Value): Option<int> {
    match v
    case Int(n) => Some(n)
    case Str(s) => ParseInt(s)
    case Strs(_) => None
  }

  function Max0(n: int): (r: nat)
    ensures r >= n && (r == 0 || r == n)
  {
    if n < 0 then 0 else n
  }

  /** The keys the team API passes on. */
  const TeamKeys: seq<string> := ["name", "chiefs", "members", "owners", "tid", "headcount", "mailling"]

  /** The team API's answer for a team document: the listed keys it has,
      `headcount` always present, clamped at zero, `0` when missing;
      a `headcount` that `int()` rejects raises. */
  function TeamJson(doc: Doc): (r: Option<Doc>)
    ensures r.None? <==> "headcount" in doc && IntOf(doc["headcount"]).None?
    ensures r.Some? ==>
      && (forall k :: k in r.value ==> k in TeamKeys)
      && (forall k :: k in TeamKeys && k != "headcount" ==> (k in r.value <==> k in doc))
      && (forall k :: k in r.value && k != "headcount" ==> r.value[k] == doc[k])
      && "headcount" in r.value && r.value["headcount"].Int? && r.value["headcount"].n >= 0
      && ("headcount" !in doc ==> r.value["headcount"] == Int(0))
      && ("headcount" in doc ==> r.value["headcount"] == Int(Max0(IntOf(doc["headcount"]).value)))
  {
    if "headcount" in doc && IntOf(doc["headcount"]).None? then None
    else
      var kept := map k | k in doc && k in TeamKeys && k != "headcount" :: doc[k];
      Some(kept["headcount" := Int(if "headcount" in doc then Max0(IntOf(doc["headcount"]).value) else 0)])
  }

  /** Feeding an answer back through the projection changes nothing. */
  lemma TeamJsonIdempotent(doc: Doc)
    requires TeamJson(doc).Some?
    ensures TeamJson(TeamJson(doc).value) == TeamJson(doc)
  {
    var r := TeamJson(doc).value;
    var h := r["headcount"];
    assert IntOf(h) == Some(h.n) && Max0(h.n) == h.n;
    var kept := map k | k in r && k in TeamKeys && k != "headcount" :: r[k];
    assert kept["headcount" := h] == r;
  }

  /** A head count stored as text reads back as the number, clamped. */
  lemma HeadcountFromText(doc: Doc, n: int)
    requires "headcount" in doc && doc["headcount"] == Str(ShowInt(n))
    ensures TeamJson(doc).Some? && TeamJson(doc).value["headcount"] == Int(Max0(n))
  {
    ParseShow(n);
  }

  /** The projection loop of `project_edit_create_team_api` (GET). */
  method ProjectTeam(doc: Doc) returns (r: Option<Doc>)
    ensures r == TeamJson(doc)
  {
    var team: Doc := map[];
    for i := 0 to |TeamKeys|
      invariant forall k :: k in team <==> k in doc && k in TeamKeys[..i]
      invariant forall k :: k in team ==> team[k] == doc[k]
    {
      var k := TeamKeys[i];
      assert TeamKeys[..i + 1] == TeamKeys[..i] + [k];
      if k in doc {
        team := team[k := doc[k]];
      }
    }
    assert TeamKeys[..|TeamKeys|] == TeamKeys;
    var h := Int(0);
    if "headcount" in team {
      var n := IntOf(team["headcount"]);
      if n.None? {
        return None;
      }
      h := Int(Max0(n.value));
    }
    ProjectedKeys(doc, team, h);
    r := Some(team["headcount" := h]);
  }

  /** The keys copied by the projection loop, with `headcount` set, are the
      answer's map. */
  lemma ProjectedKeys(doc: Doc, team: Doc, h: Value)
    requires forall k :: k in team <==> k in doc && k in TeamKeys
    requires forall k :: k in team ==> team[k] == doc[k]
    ensures team["headcount" := h] == (map k | k in doc && k in TeamKeys && k != "headcount" :: doc[k])["headcount" := h]
  {
  }

  /** A request to the team API: GET with the `tid` argument (absent when
      not sent), or POST with its JSON body. */
  datatype ApiRequest = ApiGet(tid: Option<string>) | ApiPost(data: Doc)

  /** `project_edit_create_team_api`. `project` is `Project.get(pid)`;
      `teams` is `Team.get` by `(pid, tid)`. */
  method TeamApi(user: Uid, pid: Pid, project: Option<ProjectDoc>, teams: map<(Pid, Tid), Doc>, req: ApiRequest)
    returns (resp: Response, writes: seq<Write>)
    ensures project.None? ==> resp == Failed && writes == []
    ensures project.Some? && user !in project.value.owners ==> resp == ToTeamPage(pid) && writes == []
    ensures writes != [] ==> project.Some? && user in project.value.owners && req.ApiPost? && |writes| == 1
    ensures project.Some? && user in project.value.owners && req.ApiGet? ==>
      writes == [] &&
      resp == (if req.tid.None? || (pid, Strip(req.tid.value)) !in teams then Failed
               else match TeamJson(teams[(pid, Strip(req.tid.value))])
                 case None => Failed
                 case Some(d) => TeamDoc(d))
    ensures project.Some? && user in project.value.owners && req.ApiPost? ==>
      var data := req.data;
      var update := "submittype" in data && data["submittype"] == Str("update") && "tid" in data;
      var create := "submittype" in data && data["submittype"] == Str("create") && "tid" in data && "name" in data;
      && (update ==> writes == [UpdateTeamSetting(pid, data["tid"], data)] && resp == Echo(data))
      && (create ==> writes == [CreateTeam(pid, data["tid"], data["name"], project.value.owners)] && resp == Echo(data))
      && (!update && !create ==> writes == [] && resp == Failed)
  {
    writes := [];
    if project.None? {
      return Failed, [];
    }
    if user !in project.value.owners {
      return ToTeamPage(pid), [];
    }
    match req
    case ApiGet(tid) =>
      if tid.None? || (pid, Strip(tid.value)) !in teams {
        return Failed, [];
      }
      var team := ProjectTeam(teams[(pid, Strip(tid.value))]);
      resp := if team.None? then Failed else TeamDoc(team.value);
    case ApiPost(data) =>
      if "submittype" !in data {
        return Failed, [];
      }
      if data["submittype"] == Str("update") && "tid" in data {
        writes := [UpdateTeamSetting(pid, data["tid"], data)];
        resp := Echo(data);
      } else if data["submittype"] == Str("create") && "tid" in data && "name" in data {
        writes := [CreateTeam(pid, data["tid"], data["name"], project.value.owners)];
        resp := Echo(data);
      } else {
        resp := Failed;
      }
  }

  /** A request to the project edit page: GET, or POST with its form. */
  datatype EditRequest = EditGet | EditPost(form: map<string, string>)

  /** The form fields `project_edit` reads, in the order it reads them. */
  const EditFields: seq<string> := ["desc", "name", "volunteer_certificate_hours", "calendar", "mailling_staff", "mailling_leader"]

  /** The update `project_edit` saves for a complete form: the text
      fields stripped and the hours as a number no lower than zero. */
  function EditData(form: map<string, string>, hours: int): (d: Doc)
    requires forall k :: k in EditFields ==> k in form
    ensures forall k :: k in d <==> k in EditFields
    ensures forall k :: k in EditFields && k != "volunteer_certificate_hours" ==> d[k] == Str(Strip(form[k]))
    ensures "volunteer_certificate_hours" in d && d["volunteer_certificate_hours"] == Int(if hours < 0 then 0 else hours)
  {
    var text := map k | k in EditFields && k != "volunteer_certificate_hours" :: Str(Strip(form[k]));
    text["volunteer_certificate_hours" := Int(Max0(hours))]
  }

  /** `project_edit`: the owner gate, the hours default on GET and the
      clamped update on POST. */
  method ProjectEdit(user: Uid, pid: Pid, project: Option<ProjectDoc>, req: EditRequest)
    returns (resp: Response, writes: seq<Write>)
    ensures project.None? ==> resp == Failed && writes == []
    ensures project.Some? && user !in project.value.owners ==> resp == ToTeamPage(pid) && writes == []
    ensures project.Some? && user in project.value.owners && req.EditGet? ==>
      writes == [] && resp == EditPage(project.value.hours.GetOr(0))
    ensures project.Some? && user in project.value.owners && req.EditPost? ==>
      var form := req.form;
      var complete := forall k :: k in EditFields ==> k in form;
      && (writes != [] <==> complete && ParseInt(form["volunteer_certificate_hours"]).Some?)
      && (writes != [] ==>
            var hours := ParseInt(form["volunteer_certificate_hours"]).value;
            && writes == [UpdateProject(pid, EditData(form, hours))]
            && resp == ToEdit(pid))
      && (writes == [] ==> resp == Failed)
  {
    if project.None? {
      return Failed, [];
    }
    if user !in project.value.owners {
      return ToTeamPage(pid), [];
    }
    match req
    case EditGet =>
      var hours := if project.value.hours.None? then 0 else project.value.hours.value;
      return EditPage(hours), [];
    case EditPost(form) =>
      if !(forall k | k in EditFields :: k in form) {
        return Failed, [];
      }
      var hours := ParseInt(form["volunteer_certificate_hours"]);
      if hours.None? {
        return Failed, [];
      }
      writes := [UpdateProject(pid, EditData(form, hours.value))];
      resp := ToEdit(pid);
  }

  /** `project_edit_create_team`: the owner gate, then the project's teams
      for the editor page. */
  method TeamEditPage(user: Uid, pid: Pid, project: Option<ProjectDoc>, teams: seq<Team>)
    returns (resp: Response)
    ensures project.None? ==> resp == Failed
    ensures project.Some? && user !in project.value.owners ==> resp == ToTeamPage(pid)
    ensures project.Some? && user in project.value.owners ==> resp.TeamEditor?
    ensures resp.TeamEditor? ==>
      && (forall i :: 0 <= i < |resp.teams| ==>
            resp.teams[i] in teams && resp.teams[i].pid == project.value.id && !resp.teams[i].disabled)
      && (forall t :: t in teams && t.pid == project.value.id && !t.disabled ==> t in resp.teams)
  {
    if project.None? {
      return Failed;
    }
    if user !in project.value.owners {
      return ToTeamPage(pid);
    }
    resp := TeamEditor(TeamsOf(teams, project.value.id));
  }

  /** The `uids` loop of `team_page`: every chief of the listed teams. */
  method AllChiefs(ts: seq<Team>) returns (uids: seq<Uid>)
    ensures forall u :: u in uids <==> exists i :: 0 <= i < |ts| && u in ts[i].chiefs
  {
    uids := [];
    for i := 0 to |ts|
      invariant forall u :: u in uids <==> exists m :: 0 <= m < i && u in ts[m].chiefs
    {
      uids := uids + ts[i].chiefs;
    }
  }

  /** The `chiefs_name` loop for one team; an unknown chief raises. */
  method ChiefNames(chiefs: seq<Uid>, info: map<Uid, string>) returns (names: seq<string>, ok: bool)
    ensures ok <==> forall i :: 0 <= i < |chiefs| ==> chiefs[i] in info
    ensures ok ==> |names| == |chiefs| && forall i :: 0 <= i < |chiefs| ==> names[i] == info[chiefs[i]]
  {
    names := [];
    for i := 0 to |chiefs|
      invariant |names| == i
      invariant forall m :: 0 <= m < i ==> chiefs[m] in info && names[m] == info[chiefs[m]]
    {
      if chiefs[i] !in info {
        return names, false;
      }
      names := names + [info[chiefs[i]]];
    }
    ok := true;
  }

  /** `User.get_info(uids)` as far as `team_page` reads it: the badge
      name of every listed user that has a record. */
  method BadgeNames(uids: seq<Uid>, users: map<Uid, User>) returns (info: map<Uid, string>)
    ensures forall u :: u in info <==> u in uids && u in users
    ensures forall u :: u in info ==> info[u] == users[u].badgeName
  {
    info := map u | u in uids && u in users :: users[u].badgeName;
  }

  /** A team of the page whose chief has no user record. */
  ghost predicate UnknownChief(ts: seq<Team>, users: map<Uid, User>) {
    exists i, u :: 0 <= i < |ts| && u in ts[i].chiefs && u !in users
  }

  /** The card of each team: the badge names of its chiefs, in order. */
  method Cards(ts: seq<Team>, info: map<Uid, string>) returns (cards: seq<TeamCard>, ok: bool)
    ensures ok <==> forall i, u :: 0 <= i < |ts| && u in ts[i].chiefs ==> u in info
    ensures ok ==> |cards| == |ts|
    ensures ok ==> forall i :: 0 <= i < |ts| ==>
      cards[i].team == ts[i] && |cards[i].chiefsName| == |ts[i].chiefs|
      && forall j :: 0 <= j < |ts[i].chiefs| ==> cards[i].chiefsName[j] == info[ts[i].chiefs[j]]
  {
    cards := [];
    for i := 0 to |ts|
      invariant |cards| == i
      invariant forall m, u :: 0 <= m < i && u in ts[m].chiefs ==> u in info
      invariant forall m :: 0 <= m < i ==>
        cards[m].team == ts[m] && |cards[m].chiefsName| == |ts[m].chiefs|
        && forall j :: 0 <= j < |ts[m].chiefs| ==> cards[m].chiefsName[j] == info[ts[m].chiefs[j]]
    {
      var names, fine := ChiefNames(ts[i].chiefs, info);
      if !fine {
        var j :| 0 <= j < |ts[i].chiefs| && ts[i].chiefs[j] !in info;
        return cards, false;
      }
      cards := cards + [TeamCard(ts[i], names)];
    }
    ok := true;
  }

  /** `team_page`: 404 for an unknown project; otherwise the project's
      teams with their chiefs' badge names, three to a row, editable for
      the project's owners. */
  method TeamPage(user: Uid, project: Option<ProjectDoc>, teams: seq<Team>, users: map<Uid, User>)
    returns (resp: Response)
    ensures project.None? ==> resp == NotFound
    ensures project.Some? ==>
      var ts := TeamsOf(teams, project.value.id);
      && (resp == Failed <==> UnknownChief(ts, users))
      && (resp != Failed ==> resp.TeamsPage?)
    ensures resp.TeamsPage? ==>
      var ts := TeamsOf(teams, project.value.id);
      var cards := Flatten(resp.rows);
      && resp.editable == (user in project.value.owners)
      && |cards| == |ts|
      && (forall i :: 0 <= i < |ts| ==> cards[i].team == ts[i] && |cards[i].chiefsName| == |ts[i].chiefs|)
      && (forall i, j :: 0 <= i < |ts| && 0 <= j < |ts[i].chiefs| ==>
            ts[i].chiefs[j] in users && cards[i].chiefsName[j] == users[ts[i].chiefs[j]].badgeName)
      && (forall i :: 0 <= i < |resp.rows| ==> 1 <= |resp.rows[i]| <= 3)
  {
    if project.None? {
      return NotFound;
    }
    var ts := TeamsOf(teams, project.value.id);
    var uids := AllChiefs(ts);
    var info := BadgeNames(uids, users);
    var cards, ok := Cards(ts, info);
    if !ok {
      assert UnknownChief(ts, users) by {
        var i, u :| 0 <= i < |ts| && u in ts[i].chiefs && u !in info;
        assert u in uids;
      }
      return Failed;
    }
    NamedCards(ts, users, uids, info, cards);
    var rows := GroupForLayout(cards);
    resp := TeamsPage(rows, user in project.value.owners);
  }

  /** Cards built from the looked-up badge names name every chief by the
      badge name of that chief's user record. */
  lemma NamedCards(ts: seq<Team>, users: map<Uid, User>, uids: seq<Uid>, info: map<Uid, string>, cards: seq<TeamCard>)
    requires forall u :: u in uids <==> exists i :: 0 <= i < |ts| && u in ts[i].chiefs
    requires forall u :: u in info <==> u in uids && u in users
    requires forall u :: u in info ==> info[u] == users[u].badgeName
    requires forall i, u :: 0 <= i < |ts| && u in ts[i].chiefs ==> u in info
    requires |cards| == |ts|
    requires forall i :: 0 <= i < |ts| ==>
      cards[i].team == ts[i] && |cards[i].chiefsName| == |ts[i].chiefs|
      && forall j :: 0 <= j < |ts[i].chiefs| ==> cards[i].chiefsName[j] == info[ts[i].chiefs[j]]
    ensures forall i, j :: 0 <= i < |ts| && 0 <= j < |ts[i].chiefs| ==>
      ts[i].chiefs[j] in users && cards[i].chiefsName[j] == users[ts[i].chiefs[j]].badgeName
  {
    forall i, j | 0 <= i < |ts| && 0 <= j < |ts[i].chiefs|
      ensures ts[i].chiefs[j] in users && cards[i].chiefsName[j] == users[ts[i].chiefs[j]].badgeName
    {
      assert ts[i].chiefs[j] in info;
    }
  }
}

=== FILE: sender.dfy ===
/** The mail-campaign records of `module/sender.py`: the receiver table
    of a campaign (`SenderReceiver`) and the campaign documents
    (`SenderCampaign`). The two collections are classes over sequences of
    documents; the record building and table filling are loops proved
    against their specifications. */
module Sender {
  import opened Wrappers
  import opened Seqs
  import opened Text
  import opened Domain
  import opened Dicts

  type Cid = string

  /** A stored receiver: project, campaign and the row's data. */
  datatype Receiver = Receiver(pid: Pid, cid: Cid, data: Dict)

  /** The two columns every receiver table starts with. */
  const BaseFields: seq<string> := ["name", "mail"]

  /** The user id of an uploaded entry, when it has a non-empty one
      (`'uid' in data and data['uid']`). */
  function EntryUid(entry: Dict): (r: Option<Uid>)
    ensures r.Some? <==> Get(entry, "uid").Some? && Get(entry, "uid").value != ""
    ensures r.Some? ==> Get(entry, "uid") == r && r.value != ""
  {
    var u := Get(entry, "uid");
    if u.Some? && u.value != "" then u else None
  }

  /** The receiver row for one entry: name and mail from the user record
      when the entry names a known user, else the entry's own `name` and
      `mail` (absent ones raise); then the entry's items are laid over it. */
  function Record(pid: Pid, cid: Cid, entry: Dict, users: map<Uid, User>): (rec: Option<Receiver>)
    ensures rec.Some? ==> rec.value.pid == pid && rec.value.cid == cid
    ensures EntryUid(entry).Some? && EntryUid(entry).value in users ==> rec.Some?
    ensures Get(entry, "name").Some? && Get(entry, "mail").Some? ==> rec.Some?
  {
    var u := EntryUid(entry);
    if u.Some? && u.value in users then
      Some(Receiver(pid, cid, Update([("name", users[u.value].badgeName), ("mail", users[u.value].email)], entry)))
    else if Get(entry, "name").Some? && Get(entry, "mail").Some? then
      Some(Receiver(pid, cid, Update([("name", Get(entry, "name").value), ("mail", Get(entry, "mail").value)], entry)))
    else None
  }

  /** A row built by laying `entry` over a `name`/`mail` pair. */
  lemma Overlay(base: Dict, entry: Dict)
    requires Keys(base) == BaseFields && Distinct(Keys(entry))
    ensures var data := Update(base, entry);
      && Keys(data) == Dedup(BaseFields + Keys(entry))
      && (forall k :: k in Keys(entry) ==> Get(data, k) == Get(entry, k))
      && ("name" !in Keys(entry) ==> Get(data, "name") == Some(base[0].1))
      && ("mail" !in Keys(entry) ==> Get(data, "mail") == Some(base[1].1))
  {
    UpdateKeys(base, entry);
    OverlayItems(base, entry);
    OverlayBase(base, entry, 0);
    OverlayBase(base, entry, 1);
  }

  /** The entry's own items win. */
  lemma OverlayItems(base: Dict, entry: Dict)
    requires Distinct(Keys(entry))
    ensures forall k :: k in Keys(entry) ==> Get(Update(base, entry), k) == Get(entry, k)
  {
    forall k | k in Keys(entry) ensures Get(Update(base, entry), k) == Get(entry, k) {
      UpdateGet(base, entry, k);
    }
  }

  /** A base column the entry lacks keeps the base value. */
  lemma OverlayBase(base: Dict, entry: Dict, i: nat)
    requires Keys(base) == BaseFields && Distinct(Keys(entry)) && i < 2
    ensures BaseFields[i] !in Keys(entry) ==> Get(Update(base, entry), BaseFields[i]) == Some(base[i].1)
  {
    UpdateGet(base, entry, BaseFields[i]);
    assert Keys(base)[0] == "name" && Keys(base)[1] == "mail";
  }

  /** What a receiver row holds: every item of its entry unchanged; for a
      key the entry lacks, the looked-up badge name and e-mail of a known
      user; and the columns `name`, `mail` first, then the entry's other
      keys in its order. An entry with no known user must carry its own
      `name` and `mail`. */
  lemma RecordContents(pid: Pid, cid: Cid, entry: Dict, users: map<Uid, User>)
    requires Distinct(Keys(entry))
    ensures var known := EntryUid(entry).Some? && EntryUid(entry).value in users;
      Record(pid, cid, entry, users).Some? <==> known || ("name" in Keys(entry) && "mail" in Keys(entry))
    ensures Record(pid, cid, entry, users).Some? ==>
      var rec := Record(pid, cid, entry, users).value;
      && rec.pid == pid && rec.cid == cid
      && (forall k :: k in Keys(entry) ==> Get(rec.data, k) == Get(entry, k))
      && Keys(rec.data) == Dedup(BaseFields + Keys(entry))
    ensures EntryUid(entry).Some? && EntryUid(entry).value in users ==>
      var rec := Record(pid, cid, entry, users).value;
      var user := users[EntryUid(entry).value];
      && ("name" !in Keys(entry) ==> Get(rec.data, "name") == Some(user.badgeName))
      && ("mail" !in Keys(entry) ==> Get(rec.data, "mail") == Some(user.email))
  {
    var u := EntryUid(entry);
    if u.Some? && u.value in users {
      var base := [("name", users[u.value].badgeName), ("mail", users[u.value].email)];
      assert Keys(base) == BaseFields;
      Overlay(base, entry);
    } else if Get(entry, "name").Some? && Get(entry, "mail").Some? {
      var base := [("name", Get(entry, "name").value), ("mail", Get(entry, "mail").value)];
      assert Keys(base) == BaseFields;
      Overlay(base, entry);
    }
  }

  /** The ids asked of the user directory: every non-empty entry uid. */
  method RequestedUids(datas: seq<Dict>) returns (uids: seq<Uid>)
    ensures forall u :: u in uids <==> exists i :: 0 <= i < |datas| && EntryUid(datas[i]) == Some(u)
  {
    uids := [];
    for i := 0 to |datas|
      invariant forall u :: u in uids <==> exists j :: 0 <= j < i && EntryUid(datas[j]) == Some(u)
    {
      var u := Get(datas[i], "uid");
      if u.Some? && u.value != "" {
        uids := uids + [u.value];
      }
    }
  }

  /** `user_info_uids`: badge name and e-mail of each requested user that
      exists. */
  method LookupInfos(uids: seq<Uid>, users: map<Uid, User>) returns (infos: map<Uid, (string, string)>)
    ensures forall u :: u in infos <==> u in uids && u in users
    ensures forall u :: u in infos ==> infos[u] == (users[u].badgeName, users[u].email)
  {
    var found := FoundUsers(uids, users);
    infos := map[];
    for i := 0 to |found|
      invariant forall j :: 0 <= j < i ==> found[j] in infos
      invariant forall u :: u in infos ==> u in uids && u in users && infos[u] == (users[u].badgeName, users[u].email)
    {
      var u := found[i];
      infos := infos[u := (users[u].badgeName, users[u].email)];
    }
    forall u | u in uids && u in users ensures u in infos {
      var k :| 0 <= k < |uids| && uids[k] == u;
      var j :| 0 <= j < |found| && found[j] == u;
    }
  }

  /** One iteration of the `save_datas` loop, with `infos` the
      `user_info_uids` lookup. */
  method RecordFor(pid: Pid, cid: Cid, entry: Dict, infos: map<Uid, (string, string)>, users: map<Uid, User>)
    returns (rec: Option<Receiver>)
    requires EntryUid(entry).Some? ==> (EntryUid(entry).value in infos <==> EntryUid(entry).value in users)
    requires forall u :: u in infos && u in users ==> infos[u] == (users[u].badgeName, users[u].email)
    ensures rec == Record(pid, cid, entry, users)
  {
    var u := EntryUid(entry);
    var name, mail;
    if u.Some? && u.value in infos {
      name, mail := infos[u.value].0, infos[u.value].1;
    } else {
      var n, m := Get(entry, "name"), Get(entry, "mail");
      if n.None? || m.None? {
        return None;
      }
      name, mail := n.value, m.value;
    }
    rec := Some(Receiver(pid, cid, Update([("name", name), ("mail", mail)], entry)));
  }

  /** The rows saved for the first `i` entries, one more appended. */
  lemma SavedStep(saved: seq<Receiver>, rec: Receiver, pid: Pid, cid: Cid, datas: seq<Dict>, users: map<Uid, User>, i: nat)
    requires i < |datas| && |saved| == i
    requires forall j :: 0 <= j < i ==> Record(pid, cid, datas[j], users) == Some(saved[j])
    requires Record(pid, cid, datas[i], users) == Some(rec)
    ensures forall j :: 0 <= j < i + 1 ==> Record(pid, cid, datas[j], users) == Some((saved + [rec])[j])
  {
  }

  /** The `save_datas` loop shared by `replace` and `update`: one row per
      entry, in order, or a failure when an entry without a known user
      lacks `name` or `mail`. */
  method SaveDatas(pid: Pid, cid: Cid, datas: seq<Dict>, users: map<Uid, User>)
    returns (saved: seq<Receiver>, ok: bool)
    ensures ok <==> forall i :: 0 <= i < |datas| ==> Record(pid, cid, datas[i], users).Some?
    ensures ok ==> |saved| == |datas|
    ensures ok ==> forall i :: 0 <= i < |datas| ==> saved[i] == Record(pid, cid, datas[i], users).value
  {
    var uids := RequestedUids(datas);
    var infos := LookupInfos(uids, users);
    saved := [];
    for i := 0 to |datas|
      invariant |saved| == i
      invariant forall j :: 0 <= j < i ==> Record(pid, cid, datas[j], users) == Some(saved[j])
    {
      var rec := RecordFor(pid, cid, datas[i], infos, users);
      if rec.None? {
        return saved, false;
      }
      SavedStep(saved, rec.value, pid, cid, datas, users, i);
      saved := saved + [rec.value];
    }
    ok := true;
  }

  /** Every key of the given rows, row by row, in order. */
  function AllKeys(datas: seq<Dict>): seq<string> {
    if datas == [] then [] else AllKeys(datas[..|datas| - 1]) + Keys(datas[|datas| - 1])
  }

  lemma {:induction false} AllKeysHas(datas: seq<Dict>, k: string)
    ensures k in AllKeys(datas) <==> exists i :: 0 <= i < |datas| && k in Keys(datas[i])
  {
    if datas != [] {
      var init := datas[..|datas| - 1];
      AllKeysHas(init, k);
      if k in Keys(datas[|datas| - 1]) {
        assert k in AllKeys(datas);
      }
      assert forall i :: 0 <= i < |init| ==> datas[i] == init[i];
    }
  }

  /** The `fields` loop of `SenderReceiver.get`: `name`, `mail`, then
      every other key in the order first met. */
  method Fields(datas: seq<Dict>) returns (fields: seq<string>)
    ensures fields == Dedup(BaseFields + AllKeys(datas))
    ensures |fields| >= 2 && fields[..2] == BaseFields
    ensures Distinct(fields)
    ensures forall k :: k in fields <==> k in BaseFields || exists i :: 0 <= i < |datas| && k in Keys(datas[i])
  {
    fields := BaseFields;
    DedupOfDistinct(BaseFields);
    assert BaseFields + AllKeys(datas[..0]) == BaseFields;
    for i := 0 to |datas|
      invariant fields == Dedup(BaseFields + AllKeys(datas[..i]))
    {
      var prefix := BaseFields + AllKeys(datas[..i]);
      assert prefix[0] == "name" && prefix[1] == "mail";
      fields := AddKeys(fields, prefix, Keys(datas[i]));
      AllKeysSnoc(datas, i);
    }
    assert datas[..|datas|] == datas;
    FieldsMeaning(datas);
  }

  /** One key of the `fields` loop: kept when it is new. */
  lemma FieldStep(s: seq<string>, k: string)
    requires "name" in s && "mail" in s
    ensures Dedup(s + [k]) == if k != "name" && k != "mail" && k !in Dedup(s) then Dedup(s) + [k] else Dedup(s)
  {
    DedupSnoc(s, k);
    DedupHas(s, k);
  }

  lemma AllKeysSnoc(datas: seq<Dict>, i: nat)
    requires i < |datas|
    ensures BaseFields + AllKeys(datas[..i + 1]) == BaseFields + AllKeys(datas[..i]) + Keys(datas[i])
  {
    assert datas[..i + 1][..i] == datas[..i];
  }

  lemma AddKeyStep(prefix: seq<string>, ks: seq<string>, j: nat, fields: seq<string>)
    requires "name" in prefix && "mail" in prefix
    requires j < |ks| && fields == Dedup(prefix + ks[..j])
    ensures Dedup(prefix + ks[..j + 1]) ==
      if ks[j] != "name" && ks[j] != "mail" && ks[j] !in fields then fields + [ks[j]] else fields
  {
    var k := ks[j];
    var seen := prefix + ks[..j];
    assert ks[..j + 1] == ks[..j] + [k];
    assert prefix + ks[..j + 1] == seen + [k];
    assert "name" in seen && "mail" in seen;
    FieldStep(seen, k);
  }

  /** The inner `fields` loop over the keys `ks` of one row. */
  method AddKeys(fields0: seq<string>, prefix: seq<string>, ks: seq<string>) returns (fields: seq<string>)
    requires "name" in prefix && "mail" in prefix
    requires fields0 == Dedup(prefix)
    ensures fields == Dedup(prefix + ks)
  {
    fields := fields0;
    assert prefix + ks[..0] == prefix;
    for j := 0 to |ks|
      invariant fields == Dedup(prefix + ks[..j])
    {
      var k := ks[j];
      AddKeyStep(prefix, ks, j, fields);
      if k != "name" && k != "mail" && k !in fields {
        fields := fields + [k];
      }
    }
    assert ks[..|ks|] == ks;
  }

  /** The field list starts with `name`, `mail`, and lists each key of
      the rows once. */
  lemma FieldsMeaning(datas: seq<Dict>)
    ensures var fields := Dedup(BaseFields + AllKeys(datas));
      && |fields| >= 2 && fields[..2] == BaseFields
      && forall k :: k in fields <==> k in BaseFields || exists i :: 0 <= i < |datas| && k in Keys(datas[i])
  {
    var s := BaseFields + AllKeys(datas);
    DedupKeepsPrefix(BaseFields, AllKeys(datas));
    forall k ensures k in Dedup(s) <==> k in BaseFields || exists i :: 0 <= i < |datas| && k in Keys(datas[i]) {
      AllKeysHas(datas, k);
      DedupHas(s, k);
    }
  }

  /** The `raws` loop of `SenderReceiver.get`: one row per record, one
      cell per field, `''` where the record lacks the field. */
  method Rows(datas: seq<Dict>, fields: seq<string>) returns (raws: seq<seq<string>>)
    ensures |raws| == |datas|
    ensures forall i :: 0 <= i < |datas| ==> |raws[i]| == |fields|
    ensures forall i, j :: 0 <= i < |datas| && 0 <= j < |fields| ==> raws[i][j] == GetOr(datas[i], fields[j], "")
  {
    raws := [];
    for i := 0 to |datas|
      invariant |raws| == i
      invariant forall m :: 0 <= m < i ==> |raws[m]| == |fields|
      invariant forall m, j :: 0 <= m < i && 0 <= j < |fields| ==> raws[m][j] == GetOr(datas[m], fields[j], "")
    {
      var raw := [];
      for j := 0 to |fields|
        invariant |raw| == j
        invariant forall n :: 0 <= n < j ==> raw[n] == GetOr(datas[i], fields[n], "")
      {
        raw := raw + [GetOr(datas[i], fields[j], "")];
      }
      raws := raws + [raw];
    }
  }

  /** The data of each receiver row, in order. */
  function Datas(rows: seq<Receiver>): (r: seq<Dict>)
    ensures |r| == |rows|
    ensures forall i :: 0 <= i < |rows| ==> r[i] == rows[i].data
  {
    Map((x: Receiver) => x.data, rows)
  }

  /** The receiver collection (`SenderReceiverDB`). */
  class ReceiverStore {
    var rows: seq<Receiver>

    constructor ()
      ensures rows == []
    {
      rows := [];
    }

    /** `find({'pid': pid, 'cid': cid})`, in storage order. */
    function Find(pid: Pid, cid: Cid): (r: seq<Receiver>)
      reads this
      ensures forall i :: 0 <= i < |r| ==> r[i] in rows && r[i].pid == pid && r[i].cid == cid
      ensures forall i :: 0 <= i < |rows| && rows[i].pid == pid && rows[i].cid == cid ==> rows[i] in r
    {
      Filter(rows, (x: Receiver) => x.pid == pid && x.cid == cid)
    }

    /** `remove_past`: drops the campaign's rows. */
    method RemovePast(pid: Pid, cid: Cid)
      modifies this
      ensures rows == Filter(old(rows), (x: Receiver) => !(x.pid == pid && x.cid == cid))
    {
      rows := Filter(rows, (x: Receiver) => !(x.pid == pid && x.cid == cid));
    }

    /** `update_data`: stores the new rows after the existing ones. */
    method UpdateData(datas: seq<Receiver>)
      modifies this
      ensures rows == old(rows) + datas
    {
      rows := rows + datas;
    }

    /** `SenderReceiver.replace`: removes the campaign's past rows, then
        stores one row per entry. A failing entry raises after the
        removal, so the campaign is left with no rows. */
    method Replace(pid: Pid, cid: Cid, datas: seq<Dict>, users: map<Uid, User>)
      returns (saved: seq<Receiver>, ok: bool)
      modifies this
      ensures ok <==> forall i :: 0 <= i < |datas| ==> Record(pid, cid, datas[i], users).Some?
      ensures ok ==> |saved| == |datas| && forall i :: 0 <= i < |datas| ==> saved[i] == Record(pid, cid, datas[i], users).value
      ensures rows == Filter(old(rows), (x: Receiver) => !(x.pid == pid && x.cid == cid)) + (if ok then saved else [])
    {
      RemovePast(pid, cid);
      saved, ok := SaveDatas(pid, cid, datas, users);
      if ok {
        UpdateData(saved);
      }
    }

    /** `SenderReceiver.update`: stores one row per entry beside the
        campaign's existing rows. */
    method Update(pid: Pid, cid: Cid, datas: seq<Dict>, users: map<Uid, User>)
      returns (saved: seq<Receiver>, ok: bool)
      modifies this
      ensures ok <==> forall i :: 0 <= i < |datas| ==> Record(pid, cid, datas[i], users).Some?
      ensures ok ==> |saved| == |datas| && forall i :: 0 <= i < |datas| ==> saved[i] == Record(pid, cid, datas[i], users).value
      ensures rows == old(rows) + (if ok then saved else [])
    {
      saved, ok := SaveDatas(pid, cid, datas, users);
      if ok {
        UpdateData(saved);
      }
    }

    /** `SenderReceiver.get`: the campaign's table. */
    method Get(pid: Pid, cid: Cid) returns (fields: seq<string>, raws: seq<seq<string>>)
      ensures var datas := Datas(Find(pid, cid));
        && fields == Dedup(BaseFields + AllKeys(datas))
        && |fields| >= 2 && fields[..2] == BaseFields && Distinct(fields)
        && (forall k :: k in fields <==> k in BaseFields || exists i :: 0 <= i < |datas| && k in Keys(datas[i]))
        && |raws| == |datas|
        && (forall i :: 0 <= i < |datas| ==> |raws[i]| == |fields|)
        && (forall i, j :: 0 <= i < |datas| && 0 <= j < |fields| ==> raws[i][j] == GetOr(datas[i], fields[j], ""))
    {
      var datas := Datas(Find(pid, cid));
      fields := Fields(datas);
      raws := Rows(datas, fields);
    }
  }

  /** The rows matching `(pid, cid)` in `old + saved` when every saved row
      belongs to that campaign and the old ones were removed: exactly the
      saved rows, so `replace` leaves the campaign with only the new ones. */
  lemma ReplaceLeavesOnlyNew(rows: seq<Receiver>, saved: seq<Receiver>, pid: Pid, cid: Cid)
    requires forall i :: 0 <= i < |saved| ==> saved[i].pid == pid && saved[i].cid == cid
    ensures var kept := Filter(rows, (x: Receiver) => !(x.pid == pid && x.cid == cid));
      Filter(kept + saved, (x: Receiver) => x.pid == pid && x.cid == cid) == saved
  {
    var p := (x: Receiver) => x.pid == pid && x.cid == cid;
    var kept := Filter(rows, (x: Receiver) => !(x.pid == pid && x.cid == cid));
    FilterConcat(kept, saved, p);
    FilterNone(kept, p);
    FilterAll(saved, p);
  }

  /** After `update` the campaign's rows are its earlier rows followed by
      the new ones. */
  lemma UpdateAppends(rows: seq<Receiver>, saved: seq<Receiver>, pid: Pid, cid: Cid)
    requires forall i :: 0 <= i < |saved| ==> saved[i].pid == pid && saved[i].cid == cid
    ensures var p := (x: Receiver) => x.pid == pid && x.cid == cid;
      Filter(rows + saved, p) == Filter(rows, p) + saved
  {
    var p := (x: Receiver) => x.pid == pid && x.cid == cid;
    FilterConcat(rows, saved, p);
    FilterAll(saved, p);
  }

  /** The `tids` argument: one team id or several. */
  datatype TidsArg = OneTid(tid: Tid) | ManyTids(tids: seq<Tid>)

  /** A single id is wrapped into a one-element tuple. */
  function AsTuple(a: TidsArg): (r: seq<Tid>)
    ensures a.OneTid? ==> r == [a.tid]
    ensures a.ManyTids? ==> r == a.tids
  {
    match a
    case OneTid(t) => [t]
    case ManyTids(ts) => ts
  }

  /** A user on the list of one of the requested teams. */
  ghost predicate OnTeams(u: Uid, tids: seq<Tid>, teamUsers: map<Tid, seq<Uid>>) {
    exists t :: t in tids && t in teamUsers && u in teamUsers[t]
  }

  /** The `uids` loop of `get_from_user`: the user lists of the requested
      teams, one after another. */
  method TeamUids(ts: seq<Tid>, teamUsers: map<Tid, seq<Uid>>) returns (uids: seq<Uid>)
    ensures forall u :: u in uids <==> exists t :: t in ts && t in teamUsers && u in teamUsers[t]
  {
    uids := [];
    for i := 0 to |ts|
      invariant forall u :: u in uids <==> exists t :: t in ts[..i] && t in teamUsers && u in teamUsers[t]
    {
      assert ts[..i + 1] == ts[..i] + [ts[i]];
      if ts[i] in teamUsers {
        uids := uids + teamUsers[ts[i]];
      }
    }
    assert ts[..|ts|] == ts;
  }

  /** The `datas` and `raws` loops of `get_from_user`: one row
      `[badge name, e-mail]` per user, in order. */
  method UserRows(found: seq<Uid>, users: map<Uid, User>) returns (raws: seq<seq<string>>)
    requires forall i :: 0 <= i < |found| ==> found[i] in users
    ensures |raws| == |found|
    ensures forall i :: 0 <= i < |found| ==> raws[i] == [users[found[i]].badgeName, users[found[i]].email]
  {
    var datas: seq<(string, string)> := [];
    for i := 0 to |found|
      invariant |datas| == i
      invariant forall j :: 0 <= j < i ==> datas[j] == (users[found[j]].badgeName, users[found[j]].email)
    {
      datas := datas + [(users[found[i]].badgeName, users[found[i]].email)];
    }
    raws := [];
    for i := 0 to |datas|
      invariant |raws| == i
      invariant forall j :: 0 <= j < i ==> raws[j] == [datas[j].0, datas[j].1]
    {
      raws := raws + [[datas[i].0, datas[i].1]];
    }
  }

  /** `SenderReceiver.get_from_user`: the table `(name, mail)` of the
      users of the requested teams. `teamUsers` is what `Team.get_users`
      answers for the project: each team's user ids. */
  method GetFromUser(tids: TidsArg, teamUsers: map<Tid, seq<Uid>>, users: map<Uid, User>)
    returns (fields: seq<string>, raws: seq<seq<string>>)
    ensures fields == BaseFields
    ensures forall i :: 0 <= i < |raws| ==>
      exists u :: OnTeams(u, AsTuple(tids), teamUsers) && u in users && raws[i] == [users[u].badgeName, users[u].email]
    ensures forall u :: OnTeams(u, AsTuple(tids), teamUsers) && u in users ==>
      [users[u].badgeName, users[u].email] in raws
  {
    var ts := AsTuple(tids);
    var uids := TeamUids(ts, teamUsers);
    var found := FoundUsers(uids, users);
    raws := UserRows(found, users);
    fields := BaseFields;
    forall i | 0 <= i < |raws|
      ensures exists u :: OnTeams(u, ts, teamUsers) && u in users && raws[i] == [users[u].badgeName, users[u].email]
    {
      var u := found[i];
      assert u in uids;
    }
    forall u | OnTeams(u, ts, teamUsers) && u in users
      ensures [users[u].badgeName, users[u].email] in raws
    {
      assert u in uids;
      var j :| 0 <= j < |uids| && uids[j] == u;
      var k :| 0 <= k < |found| && found[k] == u;
      assert raws[k] == [users[u].badgeName, users[u].email];
    }
  }

  /** The `mail` part of a campaign. */
  datatype MailContent = MailContent(subject: string, content: string, preheader: string, layout: string)

  /** The `receiver` part of a campaign; `teamWTags` maps a team id to its
      tags. */
  datatype ReceiverSpec = ReceiverSpec(teams: seq<Tid>, users: seq<Uid>, allUsers: bool, teamWTags: seq<(Tid, seq<string>)>)

  /** A campaign document: its id, name, creator (`created.pid`,
      `created.tid`, `created.uid`) and the parts saved later. */
  datatype Campaign = Campaign(
    id: Cid,
    name: string,
    pid: Pid,
    tid: Tid,
    uid: Uid,
    mail: Option<MailContent>,
    receiver: Option<ReceiverSpec>)

  /** A condition of a campaign query. */
  datatype Cond = IdIs(cid: Cid) | CreatedPid(pid: Pid) | CreatedTid(tid: Tid)

  predicate Holds(c: Campaign, q: Cond) {
    match q
    case IdIs(cid) => c.id == cid
    case CreatedPid(pid) => c.pid == pid
    case CreatedTid(tid) => c.tid == tid
  }

  predicate MatchesAll(c: Campaign, query: seq<Cond>) {
    forall i :: 0 <= i < |query| ==> Holds(c, query[i])
  }

  /** The query of `SenderCampaign.get`: the id, plus the project and the
      team only when given. */
  method CampaignQuery(cid: Cid, pid: Option<Pid>, tid: Option<Tid>) returns (query: seq<Cond>)
    ensures |query| >= 1 && query[0] == IdIs(cid)
    ensures forall p :: CreatedPid(p) in query <==> pid == Some(p)
    ensures forall t :: CreatedTid(t) in query <==> tid == Some(t)
    ensures forall c :: MatchesAll(c, query) <==>
      c.id == cid && (pid.Some? ==> c.pid == pid.value) && (tid.Some? ==> c.tid == tid.value)
  {
    query := [IdIs(cid)];
    if pid.Some? {
      query := query + [CreatedPid(pid.value)];
    }
    if tid.Some? {
      query := query + [CreatedTid(tid.value)];
    }
    forall c ensures MatchesAll(c, query) <==>
      c.id == cid && (pid.Some? ==> c.pid == pid.value) && (tid.Some? ==> c.tid == tid.value)
    {
      if MatchesAll(c, query) {
        assert Holds(c, query[0]);
        if pid.Some? {
          assert Holds(c, query[1]);
        }
        if tid.Some? {
          assert Holds(c, query[|query| - 1]);
        }
      }
    }
  }

  /** The one-condition query on the id matches the campaigns with that id. */
  lemma ById(cid: Cid)
    ensures forall c :: MatchesAll(c, [IdIs(cid)]) <==> c.id == cid
  {
    forall c ensures MatchesAll(c, [IdIs(cid)]) <==> c.id == cid {
      assert [IdIs(cid)][0] == IdIs(cid);
    }
  }

  /** `receiver.users` as saved: a missing or empty list becomes `[]`. */
  function StoredUsers(users: Option<seq<Uid>>): (r: seq<Uid>)
    ensures r == [] <==> users.None? || users.value == []
    ensures users.Some? ==> r == users.value
  {
    if users.Some? && users.value != [] then users.value else []
  }

  /** The campaign collection (`SenderCampaignDB`); ids are unique. */
  class CampaignStore {
    var docs: seq<Campaign>

    ghost predicate Valid()
      reads this
    {
      forall i, j :: 0 <= i < j < |docs| ==> docs[i].id != docs[j].id
    }

    constructor ()
      ensures Valid() && docs == []
    {
      docs := [];
    }

    /** `SenderCampaign.create`: a new campaign with the stripped name;
        `cid` is the id the collection gives it. */
    method Create(cid: Cid, name: string, pid: Pid, tid: Tid, uid: Uid) returns (c: Campaign)
      requires Valid()
      requires forall i :: 0 <= i < |docs| ==> docs[i].id != cid
      modifies this
      ensures Valid()
      ensures c == Campaign(cid, Strip(name), pid, tid, uid, None, None)
      ensures docs == old(docs) + [c]
    {
      c := Campaign(cid, Strip(name), pid, tid, uid, None, None);
      docs := docs + [c];
    }

    /** `find_one(query)`: the first document matching every condition. */
    method FindOne(query: seq<Cond>) returns (r: Option<Campaign>)
      ensures r.None? <==> forall i :: 0 <= i < |docs| ==> !MatchesAll(docs[i], query)
      ensures r.Some? ==>
        exists i :: 0 <= i < |docs| && docs[i] == r.value && MatchesAll(r.value, query) && (forall j :: 0 <= j < i ==> !MatchesAll(docs[j], query))
    {
      for i := 0 to |docs|
        invariant forall j :: 0 <= j < i ==> !MatchesAll(docs[j], query)
      {
        if MatchesAll(docs[i], query) {
          return Some(docs[i]);
        }
      }
      return None;
    }

    /** `SenderCampaign.get`: the campaign with this id, restricted to the
        project and team when they are given. */
    method Get(cid: Cid, pid: Option<Pid>, tid: Option<Tid>) returns (r: Option<Campaign>)
      requires Valid()
      ensures r.None? <==> forall i :: 0 <= i < |docs| ==>
        !(docs[i].id == cid && (pid.Some? ==> docs[i].pid == pid.value) && (tid.Some? ==> docs[i].tid == tid.value))
      ensures r.Some? ==> r.value in docs && r.value.id == cid
      ensures r.Some? && pid.Some? ==> r.value.pid == pid.value
      ensures r.Some? && tid.Some? ==> r.value.tid == tid.value
    {
      var query := CampaignQuery(cid, pid, tid);
      r := FindOne(query);
    }

    /** `SenderCampaign.get_list`: the campaigns created for a team. */
    function GetList(pid: Pid, tid: Tid): (r: seq<Campaign>)
      reads this
      ensures forall i :: 0 <= i < |r| ==> r[i] in docs && r[i].pid == pid && r[i].tid == tid
      ensures forall i :: 0 <= i < |docs| && docs[i].pid == pid && docs[i].tid == tid ==> docs[i] in r
    {
      Filter(docs, (c: Campaign) => c.pid == pid && c.tid == tid)
    }

    /** `SenderCampaign.save_mail`: sets the four mail fields of the
        campaign and returns it as updated. */
    method SaveMail(cid: Cid, subject: string, content: string, preheader: string, layout: string)
      returns (r: Option<Campaign>)
      requires Valid()
      modifies this
      ensures Valid()
      ensures |docs| == |old(docs)|
      ensures forall i :: 0 <= i < |docs| ==>
        docs[i] == if old(docs)[i].id == cid then old(docs)[i].(mail := Some(MailContent(subject, content, preheader, layout))) else old(docs)[i]
      ensures r.Some? <==> exists i :: 0 <= i < |docs| && docs[i].id == cid
      ensures r.Some? ==> r.value in docs && r.value.id == cid
    {
      var m := MailContent(subject, content, preheader, layout);
      docs := seq(|docs|, i requires 0 <= i < |docs| reads this =>
        if docs[i].id == cid then docs[i].(mail := Some(m)) else docs[i]);
      ById(cid);
      r := FindOne([IdIs(cid)]);
    }

    /** `SenderCampaign.save_receiver`: sets the four receiver fields of
        the campaign, `users` saved as `[]` when missing or empty. */
    method SaveReceiver(cid: Cid, teams: seq<Tid>, teamWTags: seq<(Tid, seq<string>)>, users: Option<seq<Uid>>, allUsers: bool)
      returns (r: Option<Campaign>)
      requires Valid()
      modifies this
      ensures Valid()
      ensures |docs| == |old(docs)|
      ensures forall i :: 0 <= i < |docs| ==>
        docs[i] == if old(docs)[i].id == cid then old(docs)[i].(receiver := Some(ReceiverSpec(teams, StoredUsers(users), allUsers, teamWTags))) else old(docs)[i]
      ensures r.Some? <==> exists i :: 0 <= i < |docs| && docs[i].id == cid
      ensures r.Some? ==> r.value in docs && r.value.id == cid
    {
      var spec := ReceiverSpec(teams, StoredUsers(users), allUsers, teamWTags);
      docs := seq(|docs|, i requires 0 <= i < |docs| reads this =>
        if docs[i].id == cid then docs[i].(receiver := Some(spec)) else docs[i]);
      ById(cid);
      r := FindOne([IdIs(cid)]);
    }
  }
}

=== FILE: seqs.dfy ===
/** Sequence helpers shared by the model: filtering, first-seen
    de-duplication (the order in which Python's list-append-if-absent and
    dict-insertion loops keep keys) and concatenation of chunks. */
module Seqs {

  /** No element occurs twice. */
  ghost predicate Distinct<T>(s: seq<T>) {
    forall i, j :: 0 <= i < j < |s| ==> s[i] != s[j]
  }

  /** The elements of `s` satisfying `p`, in their original order. */
  function Filter<T>(s: seq<T>, p: T -> bool): (r: seq<T>)
    ensures |r| <= |s|
    ensures forall i :: 0 <= i < |r| ==> r[i] in s && p(r[i])
    ensures forall i :: 0 <= i < |s| && p(s[i]) ==> s[i] in r
    ensures multiset(r) <= multiset(s)
  {
    if s == [] then []
    else
      assert s == [s[0]] + s[1..];
      (if p(s[0]) then [s[0]] else []) + Filter(s[1..], p)
  }

  /** Nothing passes the filter when no element satisfies `p`. */
  lemma {:induction false} FilterNone<T>(s: seq<T>, p: T -> bool)
    requires forall i :: 0 <= i < |s| ==> !p(s[i])
    ensures Filter(s, p) == []
  {
    if s != [] {
      FilterNone(s[1..], p);
    }
  }

  /** Everything passes the filter when every element satisfies `p`. */
  lemma {:induction false} FilterAll<T>(s: seq<T>, p: T -> bool)
    requires forall i :: 0 <= i < |s| ==> p(s[i])
    ensures Filter(s, p) == s
  {
    if s != [] {
      FilterAll(s[1..], p);
    }
  }

  /** Filtering distributes over concatenation. */
  lemma {:induction false} FilterConcat<T>(a: seq<T>, b: seq<T>, p: T -> bool)
    ensures Filter(a + b, p) == Filter(a, p) + Filter(b, p)
  {
    if a != [] {
      assert (a + b)[1..] == a[1..] + b;
      FilterConcat(a[1..], b, p);
    } else {
      assert a + b == b;
    }
  }

  /** `f` applied to every element. */
  function Map<A, B>(f: A -> B, s: seq<A>): (r: seq<B>)
    ensures |r| == |s|
    ensures forall i :: 0 <= i < |s| ==> r[i] == f(s[i])
  {
    seq(|s|, i requires 0 <= i < |s| => f(s[i]))
  }

  /** The position of the first occurrence of `x` in `s`. */
  function IndexOf<T(==)>(s: seq<T>, x: T): (i: nat)
    requires x in s
    ensures i < |s| && s[i] == x && x !in s[..i]
  {
    if s[0] == x then 0
    else
      assert s == [s[0]] + s[1..];
      var k := IndexOf(s[1..], x);
      assert s[..k + 1] == [s[0]] + s[1..][..k];
      1 + k
  }

  /** Every element of `s` once, kept at its first occurrence. */
  function Dedup<T(==)>(s: seq<T>): (r: seq<T>)
    ensures Distinct(r)
    ensures forall i :: 0 <= i < |r| ==> r[i] in s
    ensures forall i :: 0 <= i < |s| ==> s[i] in r
    ensures |r| <= |s|
  {
    if s == [] then []
    else
      var prev := Dedup(s[..|s| - 1]);
      assert s == s[..|s| - 1] + [s[|s| - 1]];
      if s[|s| - 1] in prev then prev else prev + [s[|s| - 1]]
  }

  lemma DedupHas<T>(s: seq<T>, x: T)
    ensures x in Dedup(s) <==> x in s
  {
    if x in Dedup(s) {
      var i :| 0 <= i < |Dedup(s)| && Dedup(s)[i] == x;
    }
    if x in s {
      var i :| 0 <= i < |s| && s[i] == x;
    }
  }

  /** Adding one element at the end: it is kept only if it is new. */
  lemma DedupSnoc<T>(s: seq<T>, x: T)
    ensures Dedup(s + [x]) == if x in s then Dedup(s) else Dedup(s) + [x]
  {
    var t := s + [x];
    assert t[..|t| - 1] == s;
    assert x in Dedup(s) <==> x in s;
  }

  /** Concatenation of a sequence of chunks. */
  function Flatten<T>(ss: seq<seq<T>>): seq<T> {
    if ss == [] then [] else Flatten(ss[..|ss| - 1]) + ss[|ss| - 1]
  }

  lemma {:induction false} DedupOfDistinct<T>(s: seq<T>)
    requires Distinct(s)
    ensures Dedup(s) == s
  {
    if s != [] {
      DedupOfDistinct(s[..|s| - 1]);
    }
  }

  /** De-duplicating `p + s` keeps a duplicate-free `p` as its prefix. */
  lemma {:induction false} DedupKeepsPrefix<T>(p: seq<T>, s: seq<T>)
    requires Distinct(p)
    ensures |p| <= |Dedup(p + s)| && Dedup(p + s)[..|p|] == p
    decreases |s|
  {
    if s == [] {
      assert p + s == p;
      DedupOfDistinct(p);
    } else {
      var s' := s[..|s| - 1];
      assert (p + s)[..|p + s| - 1] == p + s';
      DedupKeepsPrefix(p, s');
    }
  }

  lemma {:induction false} IndexOfSnoc<T>(a: seq<T>, x: T, y: T)
    requires y in a
    ensures IndexOf(a + [x], y) == IndexOf(a, y)
  {
    if a[0] != y {
      assert (a + [x])[1..] == a[1..] + [x];
      IndexOfSnoc(a[1..], x, y);
    }
  }

  lemma {:induction false} IndexOfLast<T>(a: seq<T>, x: T)
    requires x !in a
    ensures IndexOf(a + [x], x) == |a|
  {
    if a != [] {
      assert (a + [x])[1..] == a[1..] + [x];
      IndexOfLast(a[1..], x);
    }
  }

  /** Dedup lists the elements in the order of their first occurrence. */
  lemma {:induction false} DedupFirstSeen<T>(s: seq<T>, i: nat, j: nat)
    requires i < j < |Dedup(s)|
    ensures IndexOf(s, Dedup(s)[i]) < IndexOf(s, Dedup(s)[j])
    decreases |s|
  {
    var s', x := s[..|s| - 1], s[|s| - 1];
    assert s == s' + [x];
    var prev := Dedup(s');
    if j < |prev| {
      DedupFirstSeen(s', i, j);
      IndexOfSnoc(s', x, prev[i]);
      IndexOfSnoc(s', x, prev[j]);
    } else {
      assert x !in s' && Dedup(s)[j] == x;
      IndexOfLast(s', x);
      IndexOfSnoc(s', x, prev[i]);
    }
  }
}

=== FILE: text.dfy ===
/** The few Python string operations the core relies on: `str.strip()`,
    `str.split(sep)` and `sep.join(parts)`, over strings of Unicode
    scalar values. */
module Text {
  import opened Seqs

  /** Python's `str.isspace()` for one character. */
  predicate IsSpace(c: char)
    ensures c == ' ' || c == '\t' || c == '\n' || c == '\r' ==> IsSpace(c)
    ensures IsSpace(c) ==> !('0' <= c <= '9') && c != '-' && c != '+'
  {
    c in {'\U{9}', '\U{A}', '\U{B}', '\U{C}', '\U{D}', '\U{1C}', '\U{1D}', '\U{1E}',
          '\U{1F}', '\U{20}', '\U{85}', '\U{A0}', '\U{1680}', '\U{2000}', '\U{2001}', '\U{2002}',
          '\U{2003}', '\U{2004}', '\U{2005}', '\U{2006}', '\U{2007}', '\U{2008}', '\U{2009}', '\U{200A}',
          '\U{2028}', '\U{2029}', '\U{202F}', '\U{205F}', '\U{3000}'}
  }

  /** `s` without its leading whitespace. */
  function TrimLeft(s: string): (r: string)
    ensures |r| <= |s| && r == s[|s| - |r|..]
    ensures forall k :: 0 <= k < |s| - |r| ==> IsSpace(s[k])
    ensures r == [] || !IsSpace(r[0])
  {
    if s != [] && IsSpace(s[0]) then TrimLeft(s[1..]) else s
  }

  /** `s` without its trailing whitespace. */
  function TrimRight(s: string): (r: string)
    ensures |r| <= |s| && r == s[..|r|]
    ensures forall k :: |r| <= k < |s| ==> IsSpace(s[k])
    ensures r == [] || !IsSpace(r[|r| - 1])
  {
    if s != [] && IsSpace(s[|s| - 1]) then TrimRight(s[..|s| - 1]) else s
  }

  /** Python's `s.strip()`: a slice of `s` that neither starts nor ends
      with whitespace, everything cut off being whitespace. */
  function Strip(s: string): (r: string)
    ensures |r| <= |s|
    ensures r == [] || (!IsSpace(r[0]) && !IsSpace(r[|r| - 1]))
    ensures forall c :: c in r ==> c in s
    ensures StrippedFrom(s, r)
  {
    TrimBoth(s);
    TrimRight(TrimLeft(s))
  }

  /** Trimming both ends cuts off only whitespace around a slice. */
  lemma TrimBoth(s: string)
    ensures StrippedFrom(s, TrimRight(TrimLeft(s)))
  {
    var l := TrimLeft(s);
    var r := TrimRight(l);
    var i := |s| - |l|;
    assert r == s[i..i + |r|] by {
      assert l == s[i..] && r == l[..|r|];
    }
    assert Trimmed(s, i, i + |r|) by {
      forall k | i + |r| <= k < |s| ensures IsSpace(s[k]) {
        assert s[k] == l[k - i];
      }
    }
  }

  /** `r` is a slice of `s` with only whitespace cut off around it. */
  ghost predicate StrippedFrom(s: string, r: string) {
    exists i, j :: 0 <= i <= j <= |s| && r == s[i..j] && Trimmed(s, i, j)
  }

  /** Everything of `s` outside `s[i..j]` is whitespace. */
  ghost predicate Trimmed(s: string, i: nat, j: nat)
    requires i <= j <= |s|
  {
    (forall k :: 0 <= k < i ==> IsSpace(s[k])) && (forall k :: j <= k < |s| ==> IsSpace(s[k]))
  }

  /** Stripping twice is stripping once. */
  lemma StripIdempotent(s: string)
    ensures Strip(Strip(s)) == Strip(s)
  {
    var r := Strip(s);
    assert TrimLeft(r) == r;
    assert TrimRight(r) == r;
  }

  /** Python's `s.split(sep)` for a one-character separator: the pieces
      between separators, always at least one. */
  function Split(s: string, sep: char): (r: seq<string>)
    ensures |r| >= 1
    ensures forall k :: 0 <= k < |r| ==> sep !in r[k]
    decreases |s|
  {
    if sep !in s then [s]
    else
      var i := IndexOf(s, sep);
      [s[..i]] + Split(s[i + 1..], sep)
  }

  /** Python's `sep.join(parts)` for a one-character separator. */
  function Join(parts: seq<string>, sep: char): string {
    if parts == [] then ""
    else if |parts| == 1 then parts[0]
    else parts[0] + [sep] + Join(parts[1..], sep)
  }

  /** The first piece of a split is the text before the first separator. */
  lemma SplitHead(s: string, sep: char)
    ensures var h := Split(s, sep)[0];
      |h| <= |s| && h == s[..|h|] && (|h| < |s| ==> s[|h|] == sep)
  {
  }

  /** Joining the pieces of a split gives back the string. */
  lemma {:induction false} JoinSplit(s: string, sep: char)
    ensures Join(Split(s, sep), sep) == s
    decreases |s|
  {
    if sep in s {
      var i := IndexOf(s, sep);
      var rest := Split(s[i + 1..], sep);
      JoinSplit(s[i + 1..], sep);
      assert Split(s, sep)[1..] == rest;
      assert s == s[..i] + [sep] + s[i + 1..];
    }
  }

  lemma {:induction false} IndexOfAfter(a: string, c: char, b: string)
    requires c !in a
    ensures c in a + [c] + b && IndexOf(a + [c] + b, c) == |a|
  {
    assert (a + [c] + b)[|a|] == c;
    if a != [] {
      assert (a + [c] + b)[1..] == a[1..] + [c] + b;
      IndexOfAfter(a[1..], c, b);
    }
  }

  /** Splitting a join whose parts do not contain the separator gives
      back the parts. */
  lemma {:induction false} SplitJoin(parts: seq<string>, sep: char)
    requires |parts| >= 1
    requires forall k :: 0 <= k < |parts| ==> sep !in parts[k]
    ensures Split(Join(parts, sep), sep) == parts
  {
    var p0 := parts[0];
    if |parts| == 1 {
      assert Join(parts, sep) == p0;
    } else {
      var tail := parts[1..];
      var rest := Join(tail, sep);
      var s := p0 + [sep] + rest;
      assert Join(parts, sep) == s;
      IndexOfAfter(p0, sep, rest);
      var i := IndexOf(s, sep);
      assert s[..i] == p0;
      assert s[i + 1..] == rest;
      assert Split(s, sep) == [p0] + Split(rest, sep);
      assert forall k :: 0 <= k < |tail| ==> sep !in tail[k] by {
        forall k | 0 <= k < |tail| ensures sep !in tail[k] {
          assert tail[k] == parts[k + 1];
        }
      }
      SplitJoin(tail, sep);
      assert parts == [p0] + tail;
    }
  }
}

=== FILE: wrappers.dfy ===
/** Optional values, used wherever the source works with a document or a
    key that may be missing. */
module Wrappers {

  datatype Option<+T> = None | Some(value: T) {
    function GetOr(default: T): T {
      if Some? then value else default
    }
  }
}
